=== FILE: README.md ===
# Statistics visualisers: a Dafny model of their glue logic

The repository holds five pygame programs that teach hypothesis testing:

- a chi-square visualiser with a goodness-of-fit and an independence screen (`Chi_2_Goodness_Fit.py`);
- an independent two-sample t-test simulator (`Week1_Simple_Effect/t_test.py`);
- a chi-square distribution viewer (`Week1_Simple_Effect/chi_square.py`);
- a paired t-test explorer (`Week1_Simple_Effect/paired_ttest.py`);
- a one-sample t-test explorer (`Week1_Simple_Effect/one_sample_ttest.py`).

scipy computes every statistic. The programs decide what reaches scipy and what the screen does with the answer. This model covers that glue:

- the guards and normalisation around each library call;
- the neutral results reported on short inputs, NaN and exceptions;
- the one-sided p-values, confidence intervals and significance flags;
- the slider, table-cell and data-point editing rules;
- the menu and tutorial page machine;
- the layout arithmetic, minimum window sizes and click hit-testing.

## How the model is organised

- **Library routines are parameters.** `chisquare`, `chi2_contingency`, `ttest_ind`, `ttest_rel`, `ttest_1samp`, `t.ppf`, `chi2.ppf`, `np.sqrt` and `np.random.normal` / `np.random.random` are function-typed parameters. The model never derives a p-value.
  - An exception is `Outcome.Raised`.
  - A float that may be NaN is `Float.NaN`.
  - Where a property needs a fact about a routine (an exact square root, a non-negative quantile), only that lemma requires it.
- **Floats are reals.**
  - Python's `int()` on a float is `Widgets.Trunc`, which truncates toward zero.
  - `//` on positive integers is Dafny's `/`.
  - A `pygame.Rect` built from floats truncates each coordinate (`ThreeColumns.Pixels`).
- **The event loops are classes.** Each program's globals become the fields of one class:
  - `ChiApp.Visualizer` (Chi_2_Goodness_Fit.py)
  - `TTestApp.Visualizer` (t_test.py)
  - `ChiSquareApp.Viewer` (chi_square.py)
  - `PairedApp.Session` (paired_ttest.py)
  - `OneSampleApp.Session` (one_sample_ttest.py)

  Each event branch is a method with a `modifies` frame and a contract that states the complete new state. The per-widget rules are functions: slider press and drag, the cell editor, and the drag of a data point. The loops over slider lists and cell tables are methods with loop invariants, proved against those functions.
- **Press handlers are split into step functions.** The one-sample press handler runs three blocks in a row (buttons, slider, table). Its state is the `OneSampleApp.State` value, and each block is a step function on it. `Press` is proved equal to the composition of the three steps.
- **Findings.** The event-loop classes run the code as written. The corrected definitions of the two findings below stand beside the as-written ones, and the intended property is proved about each.
- **Layout.** Each `calculate_layout` is a function from the window size to a layout value. Its ordering, fitting and non-overlap properties are proved as ensures clauses and lemmas.

## Model

| member | source | states |
|---|---|---|
| Widgets.Trunc | Week1_Simple_Effect/t_test.py:874 | `int(x)` on a float: for x ≥ 0, the largest integer not above x; for x < 0, the smallest integer not below x. |
| Widgets.Clamp | Chi_2_Goodness_Fit.py:1213 | `max(lo, min(hi, x))` lies in [lo, hi]. It is x when x is in range and the crossed bound otherwise. |
| Widgets.CursorValueInRange | Chi_2_Goodness_Fit.py:1209-1214 | The clamped linear map from cursor x to a slider value lies in [min, max]. It is exactly min left of the track and exactly max right of it. On the track, the handle `draw_slider` places for the new value sits under the cursor. |
| Widgets.CursorValueMonotone | Chi_2_Goodness_Fit.py:1257-1262 | Moving the cursor to the right never lowers the slider value. |
| Widgets.Press | Chi_2_Goodness_Fit.py:1202-1214 | A press inside the hit area (track ± 5 px horizontally, ± 10 px vertically) grabs the slider and sets the cursor value. A press outside leaves the slider unchanged. Track and range never change. |
| Widgets.Drag | Chi_2_Goodness_Fit.py:1257-1263 | A slider being dragged takes the cursor value. The others are unchanged. The dragging flag is kept. |
| Widgets.PressAll | Week1_Simple_Effect/chi_square.py:903-914 | The press loop: each slider of the list is pressed. `hit` is true exactly when some slider's hit area contains the cursor. |
| Widgets.DragAll | Chi_2_Goodness_Fit.py:1254-1263 | The motion loop: each slider is dragged. `moved` (the source's `all_changed`) is true exactly when some slider was being dragged. |
| Widgets.ReleaseAll | Week1_Simple_Effect/t_test.py:1081-1086 | The release loop: every slider stops dragging and keeps its value. `released` is true exactly when some slider was dragging. |
| Pages.MenuButtons | Week1_Simple_Effect/t_test.py:695-696 | The Start button lies entirely above the Tutorial button, with the same left edge. |
| Pages.TutorialButtons | Week1_Simple_Effect/t_test.py:1035-1037 | In any window at least 500 × 150, the tutorial's Back, Next and Menu buttons are pairwise disjoint. |
| ThreeColumns.Pixels | Week1_Simple_Effect/one_sample_ttest.py:464-469 | A `pygame.Rect` built from float coordinates truncates each one. A non-negative left or width loses less than one pixel. |
| ThreeColumns.Split | Week1_Simple_Effect/paired_ttest.py:83-89 | Two sidebars, the middle column and 40 px of margins fill the width exactly. The middle column is at least 400 px. The sidebar is max(350, 0.3·W) unless that would squeeze the middle column, in which case the middle column is exactly 400. From 1140 px wide the sidebar formula always holds. |
| ThreeColumns.CalculateLayout | Week1_Simple_Effect/paired_ttest.py:83-114 | The info, chart and data panels run left to right with 20 px gaps. They share the top at 80 and the height H − 200. The data panel ends at W − 40, the info panel is at most half the chart's height, and the buttons are at their fixed places. |
| ThreeColumns.PanelsApart | Week1_Simple_Effect/paired_ttest.py:92-114 | At allowed sizes the three panels are pairwise disjoint and lie inside the window. Neither button overlaps the data table. |
| ThreeColumns.DataPanelAtAllowedSizes | Week1_Simple_Effect/one_sample_ttest.py:98-101 | At allowed sizes the data table's pixel rectangle is at least 240 px wide and H − 200 ≥ 500 px high. |
| Widgets.MaxI | Week1_Simple_Effect/paired_ttest.py:474-475 | `max(a, b)`, as the resize handlers use it: at least both arguments and equal to one of them. |
| Moments.SquaredDeviations | Week1_Simple_Effect/paired_ttest.py:158 | The sum of squared deviations is never negative. |
| Moments.SampleVariance | Week1_Simple_Effect/paired_ttest.py:158 | The n − 1 variance behind `np.std(x, ddof=1)` is never negative. |
| Moments.SampleStd | Week1_Simple_Effect/paired_ttest.py:158-159 | `np.std(x, ddof=1)` is non-negative and squares to the sample variance. |
| Moments.StandardError | Week1_Simple_Effect/paired_ttest.py:163 | sd/√n is non-negative, and its square times n is the sample variance. |
| Moments.SumOfDifferences | Week1_Simple_Effect/paired_ttest.py:150 | The sum of `before - after` is the difference of the sums. |
| Moments.MeanOfDifferences | Week1_Simple_Effect/paired_ttest.py:156-161 | The mean of the paired differences is mean(before) − mean(after). |
| Moments.ConstantSampleHasNoSpread | Week1_Simple_Effect/paired_ttest.py:161-162 | A sample whose entries all equal c has mean c and sample variance 0. |
| PairedStats.PerformPairedTTest | Week1_Simple_Effect/paired_ttest.py:147-182 | Covers `perform_paired_ttest`: `differences[i] = before[i] − after[i]` over the full length, the two means and their difference, the three standard deviations and the standard error, scipy's t and p passed through, the interval `ppf([0.025, 0.975]) · se + mean_diff`, and `significant` exactly when p < 0.05 (false for NaN). |
| PairedStats.IntervalBracketsMeanDiff | Week1_Simple_Effect/paired_ttest.py:162-167 | When the lower quantile is ≤ 0 ≤ the upper one, the 95% interval contains the mean difference. |
| PairedStats.ConstantEffectCollapsesInterval | Week1_Simple_Effect/paired_ttest.py:150-167 | When every subject changes by the same c, the mean difference is c, the standard error is 0 and the interval is [c, c]. |
| PairedApp.TableHit | Week1_Simple_Effect/paired_ttest.py:496-526 | A table click selects only a row in [0, n) whose band contains the click, inside the panel. The column is "before" exactly when the click is strictly nearer the before-column centre. |
| PairedApp.RowHeight | Week1_Simple_Effect/paired_ttest.py:503-510 | Rows are at most 30 px high and the n rows need no more than the panel height less 100 px. With room for 30 px rows, the rows are 30 px. |
| PairedApp.TableHitFindsRow | Week1_Simple_Effect/paired_ttest.py:503-526 | Every click inside the panel on data row k selects row k. |
| PairedApp.BeforeIsLeftHalf | Week1_Simple_Effect/paired_ttest.py:517-524 | "Strictly nearer the before-column centre" is the same as "left of the panel's midline", so ties at the midline go to "after". |
| PairedApp.Session.constructor | Week1_Simple_Effect/paired_ttest.py:52-56 | Start-up: a 1200 × 800 window, the original measurements, no selection, no drag, info shown. |
| PairedApp.Session.Resize | Week1_Simple_Effect/paired_ttest.py:471-479 | The window is clamped to at least 1000 × 700 and laid out again. The data and selection are kept. |
| PairedApp.Session.Press | Week1_Simple_Effect/paired_ttest.py:481-526 | Reset Data restores both columns and clears the selection; otherwise Toggle Info flips the panel. Then a click on a table row selects that row and its column and starts a drag. Without a table hit, the drag flag and the selection (unless reset) are kept. |
| PairedApp.Session.PressButtons | Week1_Simple_Effect/paired_ttest.py:484-493 | The Reset / Toggle Info branch alone, with the same rules as in `Press`. |
| PairedApp.Session.SelectCell | Week1_Simple_Effect/paired_ttest.py:495-526 | The table branch alone: a hit selects the row and column and starts the drag; a miss changes nothing. |
| PairedApp.Session.Release | Week1_Simple_Effect/paired_ttest.py:528-529 | Releasing the button ends the drag and keeps the selection. |
| PairedApp.Session.Motion | Week1_Simple_Effect/paired_ttest.py:531-540 | During a drag, only the selected entry of the selected column changes, to max(0, v − 0.5·dy). Every other value is kept. Values stay non-negative (`Valid`). |
| OneSampleStats.OneSided | Week1_Simple_Effect/one_sample_ttest.py:164-165 | t > 0 gives (p/2, 1 − p/2); t < 0 gives the swap; t = 0 or NaN gives 1 − p/2 on both sides. |
| OneSampleStats.PerformTTest | Week1_Simple_Effect/one_sample_ttest.py:152-183 | Covers `perform_ttest`: mean, sd and se of the data, scipy's t and two-sided p, the one-sided split, the interval mean ± q·se with the 97.5% quantile, and each flag exactly "its p-value < 0.05". |
| OneSampleStats.OneSidedComplementary | Week1_Simple_Effect/one_sample_ttest.py:164-165 | For t ≠ 0 and p in [0, 1], the one-sided p-values add up to 1, and the one on t's side is the smaller. |
| OneSampleStats.FlagsAgree | Week1_Simple_Effect/one_sample_ttest.py:181-183 | A significant two-sided result with t > 0 is significant for "greater" and not for "less" (mirrored for t < 0). With t = 0 or NaN, neither one-sided flag is set. |
| OneSampleStats.IntervalAroundMean | Week1_Simple_Effect/one_sample_ttest.py:168-169 | The interval is centred on the sample mean and is 2·q·se wide. With q ≥ 0 it contains the mean. |
| OneSampleStats.StandardErrorMono | Week1_Simple_Effect/one_sample_ttest.py:157-161 | At a fixed sample size, the sample with the larger standard deviation has the larger standard error. |
| OneSampleStats.WiderWithSpread | Week1_Simple_Effect/one_sample_ttest.py:155-169 | At a fixed sample size and q ≥ 0, the sample with the larger standard deviation has the wider interval. |
| OneSampleGrid.ColumnsFor | Week1_Simple_Effect/one_sample_ttest.py:378-380 | Between one and five columns. When at least one 80 px column fits, all of them fit in the available width. |
| OneSampleGrid.RowHeightFor | Week1_Simple_Effect/one_sample_ttest.py:384-390 | Rows are at most 30 px high. Once the title's 80 px fit, all rows fit below the title. |
| OneSampleGrid.GridFor | Week1_Simple_Effect/one_sample_ttest.py:376-390 | The table grid lies within the panel's width and height, with one to five columns of at least 80 px when the panel allows. |
| OneSampleGrid.HitFindsCell | Week1_Simple_Effect/one_sample_ttest.py:471-494 | A click inside the cell of value i (column i mod cols, row i div cols) selects i, in both the as-written and the corrected handler. |
| OneSampleGrid.Hit | Week1_Simple_Effect/one_sample_ttest.py:471-494 | Corrected handler: it selects a value only when the click lies in the panel and in that value's cell. |
| OneSampleGrid.CellsDisjoint | Week1_Simple_Effect/one_sample_ttest.py:392-397 | No point of the panel lies in the cells of two different values. |
| OneSampleGrid.HitAsWritten | Week1_Simple_Effect/one_sample_ttest.py:471-494 | The handler as written: any index row·cols + col in [0, n) is selected for a click in the panel. |
| OneSampleGrid.AsWrittenSelectsOutsideCell | Week1_Simple_Effect/one_sample_ttest.py:473-494 | In the 1200 × 800 window, the click (845, 175) lies in no cell, yet the handler as written selects value 2. The corrected handler selects nothing. |
| OneSampleGrid.CellWidthBounds | Week1_Simple_Effect/one_sample_ttest.py:378-383 | The columns share the available width without exceeding it. When all columns fit at 80 px, each cell is at least 80 px wide. |
| OneSampleGrid.GridForWidePanel | Week1_Simple_Effect/one_sample_ttest.py:376-390 | A panel at least 240 px wide and 500 px high gives ten values 30 px rows and two to five columns of at least 80 px. |
| OneSampleGrid.GridAtAllowedSizes | Week1_Simple_Effect/one_sample_ttest.py:376-390 | At every size the resize handler allows, ten values get 30 px rows and two to five columns of at least 80 px. |
| OneSampleApp.CalculateLayout | Week1_Simple_Effect/one_sample_ttest.py:63-150 | The shared three-column layout with the chart 60 px shorter. The slider track is inset 50 px on both sides of the chart column, at least 300 px wide and 10 px high, 15 px below the controls line and 95 px below the chart. |
| OneSampleApp.RestingPos | Week1_Simple_Effect/one_sample_ttest.py:112-116 | A mean in [0, 100] puts the handle on the track: μ = 0 at its left end and μ = 100 at its right end. |
| OneSampleApp.SliderValue | Week1_Simple_Effect/one_sample_ttest.py:460-461 | The hypothesised mean is in [0, 100]. For a handle on the track, left + width·μ/100 puts the handle back where it was. |
| OneSampleApp.SliderValueMonotone | Week1_Simple_Effect/one_sample_ttest.py:510-511 | Moving the handle right never lowers μ. |
| OneSampleApp.DragPos | Week1_Simple_Effect/one_sample_ttest.py:508-509 | During a drag the handle is clamped to [rect.left, rect.right] and follows the cursor on the track. |
| OneSampleApp.SliderClear | Week1_Simple_Effect/one_sample_ttest.py:441-494 | At allowed sizes, the slider's expanded hit area overlaps neither button nor the data table. |
| OneSampleApp.PointAt | Week1_Simple_Effect/one_sample_ttest.py:463-494 | The table click, by the handler as written (`HitAsWritten`), selects only existing indices and only for a click inside the data panel. |
| OneSampleApp.PointAtIsCell | Week1_Simple_Effect/one_sample_ttest.py:463-494 | At allowed sizes, a click in the data panel and in value i's cell selects i, and a click outside the panel selects nothing. |
| OneSampleApp.PointAtLeftOfFirstColumn | Week1_Simple_Effect/one_sample_ttest.py:471-494 | In the 1200 × 800 window, the press at (845, 175) lies in no value's cell, yet the handler selects value 2. |
| OneSampleApp.PressButtonsStep | Week1_Simple_Effect/one_sample_ttest.py:440-447 | Reset Data restores the original data and clears the selection. Otherwise the info flag flips exactly when Toggle Info is hit. The buttons never touch μ, the slider or a drag. |
| OneSampleApp.PressSliderStep | Week1_Simple_Effect/one_sample_ttest.py:449-461 | A press in the expanded slider area starts the slider drag, puts the handle at the cursor and sets μ in [0, 100] from it. Any other press changes nothing. The slider never touches the data, the selection or the info flag. |
| OneSampleApp.SelectStep | Week1_Simple_Effect/one_sample_ttest.py:463-494 | A press on which the hit test finds a value selects exactly that value and starts the point drag. A press on which it finds none, including any press outside the data panel, changes nothing. The table never touches μ, the slider, the data or the info flag. |
| OneSampleApp.SliderPressTouchesNothingElse | Week1_Simple_Effect/one_sample_ttest.py:441-494 | A press on the slider neither resets, toggles nor selects a data point. |
| OneSampleApp.PointDragEffect | Week1_Simple_Effect/one_sample_ttest.py:500-504 | A drag changes only the selected entry, which becomes max(0, v − dy): v − dy floored at 0. |
| OneSampleApp.DragThereAndBack | Week1_Simple_Effect/one_sample_ttest.py:500-504 | Dragging by dy and back by −dy restores the data when the floor at 0 was not hit. |
| OneSampleApp.SliderDragEffect | Week1_Simple_Effect/one_sample_ttest.py:506-511 | A dragged slider keeps its handle on the track and μ in [0, 100], linked by left + width·μ/100 = handle. It follows the cursor on the track. Without a drag, nothing changes. |
| OneSampleApp.Session.constructor | Week1_Simple_Effect/one_sample_ttest.py:45-58 | Start-up: a 1200 × 800 window, the original data, μ = 43.4 with the handle at its resting place, nothing selected, info shown. |
| OneSampleApp.Session.Resize | Week1_Simple_Effect/one_sample_ttest.py:427-435 | The window is clamped to at least 1000 × 700 and laid out again; the handle returns to the resting place of the current μ. |
| OneSampleApp.Session.Press | Week1_Simple_Effect/one_sample_ttest.py:437-494 | The press handler is the buttons step, then the slider step, then the table step (the as-written hit test), composed on the state snapshot. |
| OneSampleApp.Session.PressButtons | Week1_Simple_Effect/one_sample_ttest.py:440-447 | Reset Data restores the data and clears the selection; otherwise Toggle Info flips the panel. |
| OneSampleApp.Session.PressSlider | Week1_Simple_Effect/one_sample_ttest.py:449-461 | A press in the expanded slider area starts the slider drag, moves the handle to the cursor and sets μ from it. |
| OneSampleApp.Session.SelectPoint | Week1_Simple_Effect/one_sample_ttest.py:463-494 | A table hit by the as-written handler selects that value and starts the point drag; a miss changes nothing. |
| OneSampleApp.Session.Release | Week1_Simple_Effect/one_sample_ttest.py:496-498 | Both drags end. |
| OneSampleApp.Session.Motion | Week1_Simple_Effect/one_sample_ttest.py:500-511 | The data follow `PointDragEffect`, and the handle and μ follow `SliderDragEffect`. |
| OneSampleApp.Session.DragPoint | Week1_Simple_Effect/one_sample_ttest.py:501-504 | The data part of the motion handler. |
| OneSampleApp.Session.DragSlider | Week1_Simple_Effect/one_sample_ttest.py:506-511 | The slider part of the motion handler. |
| TTestStats.SampleSize | Week1_Simple_Effect/t_test.py:874 | The sample size is max(5, int(slider)). It is at least 5 and equals the truncated value from 5 up. |
| TTestStats.Spread | Week1_Simple_Effect/t_test.py:877-878 | The standard deviation is max(0.1, slider): at least 0.1, and the slider value from 0.1 up. |
| TTestStats.FloorsInactiveOnSliderRanges | Week1_Simple_Effect/t_test.py:91-95 | On the sliders' own ranges neither floor changes the value. |
| TTestStats.Offset | Week1_Simple_Effect/t_test.py:895-896 | The fallback group is the mean plus the unit noise, entry by entry, at the same length. |
| TTestStats.Draw | Week1_Simple_Effect/t_test.py:869-897 | Covers `reset_data`: the groups come from the first and second normal call with the floored sizes and spreads, and they have that size when the generator honours it. If either call raises, the groups are the slider means plus the first and second noise call; with noise in [0, 1), each value lies in [mean, mean + 1). |
| TTestStats.EqualSlidersSeparateDraws | Week1_Simple_Effect/t_test.py:883-884 | Two groups drawn with the same mean and spread need not be equal, because each group comes from its own generator call. |
| TTestStats.Reported | Week1_Simple_Effect/t_test.py:913-931 | A finite answer (t, p) from the library is reported as (`abs(t)`, p). A NaN t or p, or an exception, gives t = 0 and p = 1. The reported t is never negative. |
| TTestStats.TTest | Week1_Simple_Effect/t_test.py:899-931 | A group with fewer than two values gives t = 0 and p = 1 without the library. Otherwise the library's answer is reported as above. |
| TTestStats.ShortGroupSkipsLibrary | Week1_Simple_Effect/t_test.py:907-910 | With a short group, any two libraries give the same neutral result. |
| TTestStats.DrawnGroupsReachLibrary | Week1_Simple_Effect/t_test.py:869-910 | Groups drawn by `reset_data` always have at least five values, so the t-test always reaches the library. |
| TTestLayout.PanelHeights | Week1_Simple_Effect/t_test.py:153-165 | The scaled panel heights lie in [80, 120] and [40, 50]. They are nominal exactly when the room below the instructions suffices. |
| TTestLayout.PanelHeightsMonotone | Week1_Simple_Effect/t_test.py:157-165 | More room never gives smaller panels. |
| TTestLayout.CalculateLayout | Week1_Simple_Effect/t_test.py:119-345 | Results, chart, instructions, panels and buttons are stacked with their margins. The chart is at most 700 × 450. The buttons keep a bottom margin inside the window and sit side by side. The two slider rows are ordered and inside their panel. Each panel's label, slider and value columns fill its width, the sliders are at least the minimum width, and the two panels sit side by side within the margins. |
| TTestLayout.MinHeight | Week1_Simple_Effect/t_test.py:943-966 | `calculate_min_height` is at least 700. |
| TTestLayout.ComputedMinWidthNeverBinds | Week1_Simple_Effect/t_test.py:996-1003 | The computed minimum width is below 1000, so `max(w, calculated_min_width, MIN_WIDTH)` is `max(w, 1000)`. |
| TTestLayout.NominalAtMinHeight | Week1_Simple_Effect/t_test.py:153-165 | From the allowed minimum height up, both panels keep their nominal heights and the chart has positive height. Results, chart, instructions, the two panels and the buttons are stacked without overlap. |
| TTestLayout.SliderHitAreasDisjoint | Week1_Simple_Effect/t_test.py:241-291 | The five sliders' hit areas never overlap, so a click grabs at most one. |
| TTestApp.Visualizer.constructor | Week1_Simple_Effect/t_test.py:83-116 | Start-up: the menu, the default slider values (means 100 and 115, spreads 15 and 15, sample size 20) placed by the layout, the initial groups, t = p = 0, nothing calculated. |
| TTestApp.Visualizer.ResetData | Week1_Simple_Effect/t_test.py:869-897 | The groups are redrawn from the current sliders and the result is marked stale. |
| TTestApp.Visualizer.CalculateTTest | Week1_Simple_Effect/t_test.py:899-931 | The result is the guarded t-test of the current groups, and it is marked calculated. |
| TTestApp.Visualizer.Resize | Week1_Simple_Effect/t_test.py:996-1011 | The window is clamped, laid out again, and every slider is moved to its new spot with its drag cancelled. |
| TTestApp.Visualizer.Escape | Week1_Simple_Effect/t_test.py:1013-1017 | Escape returns to the menu. |
| TTestApp.Visualizer.ClickMenu | Week1_Simple_Effect/t_test.py:1022-1031 | Start enters the game with fresh data. Tutorial opens page 0. Elsewhere nothing changes. |
| TTestApp.Visualizer.ClickTutorial | Week1_Simple_Effect/t_test.py:1033-1048 | Menu leaves. Back goes down a page only above page 0. Next goes up a page, and on the last page enters the game with fresh data. The page stays in [0, 4]. |
| TTestApp.Visualizer.ClickGame | Week1_Simple_Effect/t_test.py:1050-1079 | The toggle flips the instructions. Then Menu, else Calculate, else Reset takes effect. Then every slider is pressed. |
| TTestApp.Visualizer.GameButtons | Week1_Simple_Effect/t_test.py:1052-1064 | The toggle and the Menu / Calculate / Reset chain alone. |
| TTestApp.Visualizer.Release | Week1_Simple_Effect/t_test.py:1081-1086 | Every slider stops dragging. The data are redrawn exactly when some slider was dragging, and otherwise groups and flag are untouched. |
| TTestApp.Visualizer.Motion | Week1_Simple_Effect/t_test.py:1088-1095 | Dragged sliders follow the cursor; the others stay. |
| ChiSquareParams.UpdateParameters | Week1_Simple_Effect/chi_square.py:774-795 | Covers `update_parameters`: df = max(1, int(slider)) ≥ 1; α clamped to [0.01, 0.2], equal to the slider inside that range and to the crossed bound outside it; max x passed through; curves = int(slider); the critical value is `chi2.ppf(1 − α, df)`. |
| ChiSquareParams.ParametersOnSliderRanges | Week1_Simple_Effect/chi_square.py:96-99 | On the sliders' ranges, df is the truncated slider value in [1, 30], α is the slider value, and there are 1 to 5 curves. |
| ChiSquareParams.ExtraDfs | Week1_Simple_Effect/chi_square.py:407-412 | The extra curves' dfs are ≥ 1 and differ from the main df. For df ≥ 1 they are df + 2, df + 4, …, at most three of them (min(curves, 5) − 2). |
| ChiSquareParams.ExtraFrom | Week1_Simple_Effect/chi_square.py:407-412 | The loop from index i on: every kept df is ≥ 1 and differs from df. From i = 2 every candidate is kept. |
| ChiSquareParams.ExtraDfsDistinct | Week1_Simple_Effect/chi_square.py:407-412 | The extra dfs are strictly increasing, hence pairwise distinct. |
| ChiSquareLayout.PanelHeightFor | Week1_Simple_Effect/chi_square.py:150-158 | The panel height lies in [120, 180]. It is 180 exactly when the remaining room suffices, and otherwise the scaled value floored at 120. |
| ChiSquareLayout.CalculateLayout | Week1_Simple_Effect/chi_square.py:116-282 | Results, chart, instructions and panel are stacked with their margins. The chart is at most 800 × 450 and the panel height in [120, 180]. The four slider rows rise strictly and lie inside the panel below its title. The buttons keep a bottom margin and sit side by side. The slider column fills the panel between label and value columns, with sliders at least 150 px. |
| ChiSquareLayout.MinHeight | Week1_Simple_Effect/chi_square.py:804-822 | `calculate_min_height` is at least 700. |
| ChiSquareLayout.ComputedMinWidthNeverBinds | Week1_Simple_Effect/chi_square.py:831-837 | The computed minimum width is below 1000, so `max(w, calculated_min_width, MIN_WIDTH)` is `max(w, 1000)`. |
| ChiSquareLayout.FitsAtMinHeight | Week1_Simple_Effect/chi_square.py:150-158 | From the allowed minimum height up, the panel is at least 152 px with rows at least 23 px apart. The chart has positive height. Results, chart, instructions, panel and buttons are stacked without overlap. |
| ChiSquareLayout.RowsApart | Week1_Simple_Effect/chi_square.py:169-189 | Slider rows at least 20 px apart stay at least 20 px apart for any two row indices. |
| ChiSquareLayout.SliderHitAreasDisjoint | Week1_Simple_Effect/chi_square.py:192-226 | At allowed heights the four slider hit areas never overlap. |
| ChiSquareApp.Viewer.constructor | Week1_Simple_Effect/chi_square.py:86-114 | Start-up: the menu, the default slider values (3, 0.05, 20, 5) placed by the layout, the initial parameters and critical value, the critical region shown, nothing updated. |
| ChiSquareApp.Viewer.Update | Week1_Simple_Effect/chi_square.py:774-795 | The parameters follow the sliders and are marked updated. On the sliders' ranges df is in [1, 30], α is the slider value, and at most three extra curves are drawn. |
| ChiSquareApp.Viewer.Resize | Week1_Simple_Effect/chi_square.py:831-846 | The window is clamped, laid out again, and every slider is moved to its row with its drag cancelled. |
| ChiSquareApp.Viewer.Escape | Week1_Simple_Effect/chi_square.py:848-852 | Escape returns to the menu. |
| ChiSquareApp.Viewer.ClickMenu | Week1_Simple_Effect/chi_square.py:857-866 | Start enters the viewer with the parameters applied. Tutorial opens page 0. |
| ChiSquareApp.Viewer.ClickTutorial | Week1_Simple_Effect/chi_square.py:868-883 | Menu leaves. Back goes down a page only above page 0. Next goes up a page, and on the last page enters the viewer with the parameters applied. |
| ChiSquareApp.Viewer.ClickGame | Week1_Simple_Effect/chi_square.py:885-914 | The toggle flips the instructions. Then Menu, else Update, else Toggle Critical (flip and update) takes effect. Then every slider is pressed. |
| ChiSquareApp.Viewer.ButtonsGame | Week1_Simple_Effect/chi_square.py:887-900 | The toggle and the Menu / Update / Toggle Critical chain alone. |
| ChiSquareApp.Viewer.PressSliders | Week1_Simple_Effect/chi_square.py:902-914 | Every slider whose track is hit is grabbed and jumps to the cursor. |
| ChiSquareApp.Viewer.Release | Week1_Simple_Effect/chi_square.py:916-921 | Every slider stops dragging and keeps its value. Nothing is recomputed. |
| ChiSquareApp.Viewer.Motion | Week1_Simple_Effect/chi_square.py:923-930 | Dragged sliders follow the cursor. Nothing is recomputed. |
| ChiCells.DigitValue | Chi_2_Goodness_Fit.py:1141 | Key codes 0 to 9 map to their digits and back. |
| ChiCells.Str | Chi_2_Goodness_Fit.py:1132 | `str(n)` is a non-empty digit string, longer than one character exactly when n ≥ 10. |
| ChiCells.ParseStr | Chi_2_Goodness_Fit.py:1132-1134 | `int(str(n)) == n`. |
| ChiCells.StrLength | Chi_2_Goodness_Fit.py:1148-1150 | `str(n)` has at most k digits exactly when n < 10^k. |
| ChiCells.BackspaceDropsLastDigit | Chi_2_Goodness_Fit.py:1130-1137 | Backspace (`int(str(v)[:-1])`, or 0 for a single digit) is v div 10. |
| ChiCells.Backspace | Chi_2_Goodness_Fit.py:1130-1136 | Backspace on a value of several digits gives the value whose text is the old text without its last character; on a single digit it gives 0. |
| ChiCells.TypeDigit | Chi_2_Goodness_Fit.py:1139-1152 | A digit replaces a 0, is appended to a value below 100, and is ignored from 100 up. Values below 1000 stay below 1000. |
| ChiCells.TypeDigitKeepsThreeDigits | Chi_2_Goodness_Fit.py:1148-1150 | A cell of at most three digits keeps at most three digits. |
| ChiCells.BackspaceUndoesDigit | Chi_2_Goodness_Fit.py:1130-1152 | Below 100, typing a digit and then Backspace gives the old value back. |
| ChiTests.ExpectedProportions | Chi_2_Goodness_Fit.py:181-187 | A proportion list exists exactly when there is a category (the empty list raises at `1/len`), with one proportion per category. |
| ChiTests.ProportionsFollowPercents | Chi_2_Goodness_Fit.py:181-187 | With a positive percentage sum, each proportion is that category's percentage over the sum. |
| ChiTests.ProportionsUniform | Chi_2_Goodness_Fit.py:184-187 | With a percentage sum of 0, each proportion is 1/k. |
| ChiTests.ProportionsSumToOne | Chi_2_Goodness_Fit.py:181-187 | Over the reals the proportions always sum to 1. |
| ChiTests.ProportionsNonNegative | Chi_2_Goodness_Fit.py:181-187 | Non-negative percentages give non-negative proportions. |
| ChiTests.ExpectedCounts | Chi_2_Goodness_Fit.py:189 | One expected count per category, whenever there is a category. |
| ChiTests.ExpectedCountsSumToTotal | Chi_2_Goodness_Fit.py:189-192 | The expected counts handed to `chisquare` add up to the observed total. |
| ChiTests.GoodnessOfFitTest | Chi_2_Goodness_Fit.py:162-203 | Observed counts are the truncated slider values. A zero total gives (0, 1, k − 1) without normalising. Otherwise the library's (stat, p) are reported with df = k − 1, and an exception gives (0, 1) with the default data's df. |
| ChiTests.ZeroTotalSkipsLibrary | Chi_2_Goodness_Fit.py:173-178 | A zero observed total gives the same neutral result under any library. |
| ChiTests.IndependenceTest | Chi_2_Goodness_Fit.py:205-234 | A zero row or column sum gives (0, 1, (r − 1)(c − 1)). Otherwise the library's answer is taken, and an exception gives the neutral result with the default table's df. |
| ChiTests.ZeroMarginSkipsLibrary | Chi_2_Goodness_Fit.py:214-220 | A zero margin gives the same neutral result under any library. |
| ChiTests.ZeroRowShortCircuits | Chi_2_Goodness_Fit.py:214-220 | Clearing one row of the table is enough to short-circuit the test. |
| ChiTests.PositiveTableReachesLibrary | Chi_2_Goodness_Fit.py:214-223 | A table of positive counts has no zero margin, so it reaches `chi2_contingency`. |
| ChiLayout.CalculateLayout | Chi_2_Goodness_Fit.py:393-528 | Results, chart, instructions, panel and buttons are stacked with their margins. The chart is at most 700 × 450. The panel is 250 px on the goodness-of-fit screen and 300 px otherwise, at least its minimum width, and inside the window from 486 px up. Reset sits 20 px right of Calculate, and the toggle sits at the panel's left edge on the instructions line. |
| ChiLayout.RegionsDoNotOverlap | Chi_2_Goodness_Fit.py:406-445 | Whenever the chart height is non-negative (H ≥ 135), no two of results, chart, instructions, panel and buttons overlap. |
| ChiLayout.SliderHitAreasDisjoint | Chi_2_Goodness_Fit.py:448-466 | The six goodness-of-fit sliders' hit areas are pairwise disjoint. |
| ChiLayout.GridRects | Chi_2_Goodness_Fit.py:468-484 | The table the layout writes has `rows` rows of `cols` cells, and cell (i, j) has the rectangle of its table position. |
| ChiLayout.CellsDisjoint | Chi_2_Goodness_Fit.py:470-483 | The table cells at (left + (j+1)·100, top + (i+1)·50) are pairwise disjoint. |
| ChiLayout.TableInsidePanel | Chi_2_Goodness_Fit.py:468-484 | The 2 × 3 table lies inside the independence panel. |
| ChiLayout.LastHitInRow | Chi_2_Goodness_Fit.py:1240-1244 | The last cell of a row that contains the point, or none when no cell does. |
| ChiLayout.LastHit | Chi_2_Goodness_Fit.py:1239-1245 | The cell `active_cell` ends on: it contains the point and no later cell in row-by-row order does. With no hit there is none. |
| ChiLayout.ClickSelectsCell | Chi_2_Goodness_Fit.py:1239-1245 | A click inside cell (i, j) of a laid-out table makes exactly that cell active. |
| ChiLayout.ClickOutsideSelectsNothing | Chi_2_Goodness_Fit.py:1239-1245 | A click outside the table's cells leaves no cell active. |
| ChiLayout.MenuButtons | Chi_2_Goodness_Fit.py:624-626 | Goodness of Fit above Independence above Tutorial. |
| ChiLayout.TutorialButtons | Chi_2_Goodness_Fit.py:1011-1013 | From 500 px wide, Previous and Next do not overlap. |
| ChiLayout.MinHeightAsWritten | Chi_2_Goodness_Fit.py:1071-1089 | `calculate_min_height` as written is at least 700. |
| ChiLayout.MinHeightAsWrittenClipsButtons | Chi_2_Goodness_Fit.py:1071-1089 | The as-written minimum is 855. At that height the independence screen's buttons end at 863, below the window, and the chart is 288 px. |
| ChiLayout.MinHeight | Chi_2_Goodness_Fit.py:1071-1089 | The corrected minimum counts the 300 px independence panel and exceeds the as-written one. |
| ChiLayout.LayoutFitsAtMinHeight | Chi_2_Goodness_Fit.py:402-445 | From the corrected minimum up, on every screen the buttons keep a bottom margin inside the window and the chart is at least 300 px. |
| ChiApp.Edit | Chi_2_Goodness_Fit.py:1129-1152 | Backspace gives `Backspace(v)` and a digit key gives `TypeDigit(v, d)`, so their text behaviour carries over to the cell. A Backspace or digit key keeps a cell value within [0, 999]. |
| ChiApp.Action | Chi_2_Goodness_Fit.py:1194-1199 | Each branch is stated as an iff, in the source's order. Menu is taken exactly when the click is on the Menu button. Calculate is taken exactly when the click is on the Calculate button, the result is stale and Menu was not hit. Reset is taken exactly when the click is on the Reset button and neither earlier branch applies. |
| ChiApp.PlaceColumn | Chi_2_Goodness_Fit.py:448-466 | The layout loop moves slider i of a column to its row of that column, at the minimum width. |
| ChiApp.ResetValues | Chi_2_Goodness_Fit.py:1034-1045 | The reset loop gives every slider its default value back, and nothing else changes. |
| ChiApp.PlaceCells | Chi_2_Goodness_Fit.py:468-484 | The layout loop gives cell (i, j) the rectangle of its table position, and nothing else changes. |
| ChiApp.ClearActive | Chi_2_Goodness_Fit.py:1232-1236 | Every cell is made inactive, and nothing else changes. |
| ChiApp.ResetCells | Chi_2_Goodness_Fit.py:1047-1062 | Every cell gets its default count back and is made inactive. |
| ChiApp.ActivateRow | Chi_2_Goodness_Fit.py:1240-1245 | The cells of a row under the point become active. `hit` is the last of them. |
| ChiApp.ActivateHits | Chi_2_Goodness_Fit.py:1239-1245 | Every cell under the point becomes active, and `active_cell` ends on `LastHit`. |
| ChiApp.Visualizer.constructor | Chi_2_Goodness_Fit.py:86-160 | Start-up: the menu, the default counts, percentages and table, no active cell, the hard-coded result (57.82, 0.0, df 2) marked calculated, layout for 1200 × 800. |
| ChiApp.Visualizer.ResetGoodnessOfFit | Chi_2_Goodness_Fit.py:1034-1045 | Default slider values back, the result marked stale, everything else kept. |
| ChiApp.Visualizer.ResetIndependence | Chi_2_Goodness_Fit.py:1047-1062 | Default table back, no active cell, the result marked stale, everything else kept. |
| ChiApp.Visualizer.CalculateGoodnessOfFit | Chi_2_Goodness_Fit.py:162-203 | The result is the guarded goodness-of-fit test of the slider values, and it is marked calculated. |
| ChiApp.Visualizer.CalculateIndependence | Chi_2_Goodness_Fit.py:205-234 | The result is the guarded independence test of the cell values, and it is marked calculated. |
| ChiApp.Visualizer.Resize | Chi_2_Goodness_Fit.py:1098-1119 | The width is clamped to ≥ 1000 and the height to ≥ `calculate_min_height()` as written (855). The layout is recomputed for the current screen. The sliders are re-placed only on the goodness-of-fit screen and the cells only on the independence screen. Every drag is cancelled and no cell is active. |
| ChiApp.Visualizer.Resized | Chi_2_Goodness_Fit.py:1099-1109 | The width is clamped to at least 1000 and the height to at least the as-written minimum height (855), not the corrected one. The layout is recomputed for that size and the current screen. |
| ChiApp.Visualizer.RelayoutSliders | Chi_2_Goodness_Fit.py:448-466 | On the goodness-of-fit screen the sliders move to their rows; every drag is cancelled. |
| ChiApp.Visualizer.RelayoutCells | Chi_2_Goodness_Fit.py:468-484 | On the independence screen the cells move to their table positions; every cell is deactivated. |
| ChiApp.Visualizer.KeyDown | Chi_2_Goodness_Fit.py:1121-1152 | Escape leaves any non-menu screen and marks the result stale. With an active cell on the independence screen, Backspace and digits edit that cell only and mark the result stale. |
| ChiApp.Visualizer.ClickMenu | Chi_2_Goodness_Fit.py:1157-1169 | Goodness of Fit and Independence enter their screen with that screen's data reset and the result stale; the other screen's data, the tutorial page and the instructions flag are kept. Tutorial opens page 0 and keeps all data and the result flag. Elsewhere nothing changes. |
| ChiApp.Visualizer.ClickTutorial | Chi_2_Goodness_Fit.py:1171-1183 | Menu leaves. Previous goes down a page only above page 0. Next goes up a page, and on the last page returns to the menu. The page stays in [0, 3]. |
| ChiApp.Visualizer.ClickGoodnessOfFit | Chi_2_Goodness_Fit.py:1185-1214 | The toggle flips the instructions. Then Menu, else Calculate (only while stale), else Reset takes effect. Then every slider is pressed, and any slider hit marks the result stale. |
| ChiApp.Visualizer.ButtonsGoodnessOfFit | Chi_2_Goodness_Fit.py:1187-1199 | The toggle and the Menu / Calculate / Reset chain alone. |
| ChiApp.Visualizer.PressSliders | Chi_2_Goodness_Fit.py:1201-1214 | Every slider is pressed. The result becomes stale exactly when some hit area contains the cursor. |
| ChiApp.Visualizer.ClickIndependence | Chi_2_Goodness_Fit.py:1216-1245 | The toggle and the Menu / Calculate / Reset chain. Then every cell is deactivated and those under the cursor activated. The last of them becomes the active cell and marks the result stale. |
| ChiApp.Visualizer.ButtonsIndependence | Chi_2_Goodness_Fit.py:1218-1230 | The toggle and the Menu / Calculate / Reset chain alone. |
| ChiApp.Visualizer.SelectCell | Chi_2_Goodness_Fit.py:1232-1245 | The active cell is `LastHit` of the table; the result is stale exactly when some cell was hit. |
| ChiApp.Visualizer.Release | Chi_2_Goodness_Fit.py:1247-1250 | Every slider stops dragging and keeps its value. |
| ChiApp.Visualizer.Motion | Chi_2_Goodness_Fit.py:1252-1266 | Dragged sliders follow the cursor. The result becomes stale exactly when some slider was dragging. |

## Left out

- Rendering and windowing are left out: every `draw_*` function, fonts, `set_mode`, `clock.tick`, tooltips and the icon. Button rectangles returned by draw functions are reproduced as functions of the window size.
- matplotlib figure building (`create_*_plot`, `create_*_surface`) is pixel output. The only part modelled is the extra-df loop of `create_chisquare_surface`.
- scipy and numpy numerics are parameters. No p-value, quantile or random draw is computed. `np.random.seed(42)` and the start-up draw of t_test.py are an arbitrary initial group pair (`TTestApp.Visualizer.constructor` takes it as a parameter).
- Floating-point rounding is not modelled: floats are reals, so "the proportions sum to 1" holds exactly here.
- The hard-coded initial result χ² = 57.82, p = 0 of Chi_2_Goodness_Fit.py is copied as a constant. It is not checked against the data.
- The code after the `return` in t_test.py's `calculate_min_height` (lines 967-984) is unreachable and not modelled.
- The event loops' polling, `QUIT` and the mouse-position query are left out. Each handler takes the cursor position as a parameter.
- The `RESULTS` state of t_test.py is never entered by any handler, so it is not a screen of the model.
- Widgets.Trunc: Python's `int()` of a float beyond the float range, or of NaN, raises. Neither can happen on the slider ranges, and the model does not capture it.
- PairedApp.TableHit: requires a data panel taller than 100 px. At 100 px the source divides by zero. The resize handler keeps the panel at least 500 px high, so this never happens in the program.
- OneSampleApp.Session.PressSlider: the press sets the handle to the raw cursor x without clamping, as the source does. The model records this faithfully, and the slider's invariant only keeps μ in [0, 100].
- ChiApp.Visualizer: `calculate_layout` runs only at start-up and on resize, so sliders and cells keep the positions of the screen that was current at the last resize. The model keeps those stale positions as the source does.
- TTestApp.Visualizer.Escape and ChiSquareApp.Viewer.Escape leave `has_calculated` / `has_updated` as they are (only Chi_2_Goodness_Fit.py clears it). The model follows each file.
- TTestApp.Visualizer.ClickGame: the Calculate button has no "only when stale" guard in t_test.py, unlike Chi_2_Goodness_Fit.py. The model follows the code.
- TTestStats.Draw: the random generator's state is a call index within one `reset_data` (0 for the first group, 1 for the second). Between two `reset_data` calls the caller passes the routines again, so each reset may be given a fresh generator. The model does not thread one generator state through the whole session.
- In PairedApp and OneSampleApp, numpy arrays mutated in place are sequence fields reassigned by the handlers. No aliasing between the working and the original arrays is modelled: the source copies them.
- Pixel truncation of `pygame.Rect` is modelled where the handlers compute with the rectangle's integer fields: the paired and one-sample data tables and the one-sample slider. Elsewhere rectangles stay real-valued.

## Findings

| source | as written | input that shows it | evidently intended | confidence | as-written member | corrected member |
|---|---|---|---|---|---|---|
| Chi_2_Goodness_Fit.py:1071-1089 | `calculate_min_height` counts a 250 px input panel, the goodness-of-fit height, but the independence panel is 300 px (line 402). | A window resized to 1000 × 855 (the allowed minimum) on the independence screen puts the buttons' bottom at 863 px, below the window, and the chart at 288 px, under its 300 px minimum. | The minimum height should count the taller 300 px panel: 905 px, at which every screen fits. | not executed | ChiLayout.MinHeightAsWrittenClipsButtons | ChiLayout.LayoutFitsAtMinHeight |
| Week1_Simple_Effect/one_sample_ttest.py:471-494 | The click handler floors the offsets into a column and a row and accepts any `row * cols + col` in [0, n). A click left of the first column gives column −1, which lands on the previous row's last value. | In the 1200 × 800 window (data panel 840, 80, 320, 600; three 100 px columns), a click at (845, 175) lies in no cell but selects value 2. | Select a value only when the click lies inside that value's cell. | not executed | OneSampleGrid.AsWrittenSelectsOutsideCell | OneSampleGrid.HitFindsCell |

=== FILE: chi_app.dfy ===
/**
 * The state of the chi-square visualiser and its event handlers: the module
 * globals of the program (window size, current screen, the two slider
 * columns, the cell table, the active cell, the last result, the
 * "has been calculated" flag and the tutorial page) as the fields of one
 * object, and the branches of the event loop as its methods.
 */
module ChiApp {
  import opened Widgets
  import opened ChiTests
  import opened ChiCells
  import opened ChiLayout

  /** A cell dict of the independence table. */
  datatype Cell = Cell(value: int, active: bool, rect: Rect)

  /** The keys the event loop reacts to. */
  datatype Key = EscapeKey | BackspaceKey | DigitKey(d: nat) | OtherKey

  function Values(sliders: seq<Slider>): (r: seq<real>)
    ensures |r| == |sliders| && forall i :: 0 <= i < |sliders| ==> r[i] == sliders[i].value
  {
    seq(|sliders|, i requires 0 <= i < |sliders| => sliders[i].value)
  }

  function CellValues(cells: seq<seq<Cell>>): (t: seq<seq<int>>)
    ensures |t| == |cells| && forall i :: 0 <= i < |cells| ==> |t[i]| == |cells[i]|
    ensures forall i, j :: 0 <= i < |cells| && 0 <= j < |cells[i]| ==> t[i][j] == cells[i][j].value
  {
    seq(|cells|, i requires 0 <= i < |cells| => seq(|cells[i]|, j requires 0 <= j < |cells[i]| => cells[i][j].value))
  }

  function RowRects(row: seq<Cell>): (g: seq<Rect>)
    ensures |g| == |row| && forall j :: 0 <= j < |row| ==> g[j] == row[j].rect
  {
    seq(|row|, j requires 0 <= j < |row| => row[j].rect)
  }

  function Rects(cells: seq<seq<Cell>>): (g: seq<seq<Rect>>)
    ensures |g| == |cells| && forall i :: 0 <= i < |cells| ==> g[i] == RowRects(cells[i])
  {
    seq(|cells|, i requires 0 <= i < |cells| => RowRects(cells[i]))
  }

  /** Tables whose cells have the same rectangles have the same `Rects`. */
  lemma SameRects(a: seq<seq<Cell>>, b: seq<seq<Cell>>)
    requires SameShape(a, b)
    requires forall i, j :: 0 <= i < |a| && 0 <= j < |a[i]| ==> a[i][j].rect == b[i][j].rect
    ensures Rects(a) == Rects(b)
  {
    forall i | 0 <= i < |a| ensures RowRects(a[i]) == RowRects(b[i]) {
    }
  }

  /** `CellValues` is determined by the values cell by cell. */
  lemma CellValuesAre(a: seq<seq<Cell>>, t: seq<seq<int>>)
    requires |a| == |t| && forall i :: 0 <= i < |a| ==> |a[i]| == |t[i]|
    requires forall i, j :: 0 <= i < |a| && 0 <= j < |a[i]| ==> a[i][j].value == t[i][j]
    ensures CellValues(a) == t
  {
    forall i | 0 <= i < |a| ensures CellValues(a)[i] == t[i] {
    }
  }

  /** Two tables with the same shape. */
  predicate SameShape(a: seq<seq<Cell>>, b: seq<seq<Cell>>) {
    |a| == |b| && forall i :: 0 <= i < |a| ==> |a[i]| == |b[i]|
  }

  /** The 2 x 3 table of the program, every value within three digits. */
  predicate ValidTable(cells: seq<seq<Cell>>) {
    |cells| == 2 && (forall i :: 0 <= i < 2 ==> |cells[i]| == 3) &&
    forall i, j :: 0 <= i < 2 && 0 <= j < 3 ==> 0 <= cells[i][j].value <= 999
  }

  /** The new value of the active cell for an editing key. */
  function Edit(v: nat, key: Key): (r: nat)
    requires key.BackspaceKey? || (key.DigitKey? && key.d <= 9)
    ensures v <= 999 ==> r <= 999
    ensures key.BackspaceKey? ==> r == Backspace(v)
    ensures key.DigitKey? ==> r == TypeDigit(v, key.d)
  {
    if key.BackspaceKey? then
      BackspaceDropsLastDigit(v);
      Backspace(v)
    else TypeDigit(v, key.d)
  }

  /** A slider after a resize: moved to its place when its screen is the current one, never dragging. */
  function Relaid(s: Slider, l: Layout, column: nat, i: nat, place: bool): Slider {
    (if place then s.(x := SliderX(l, column), y := SliderY(l, i), width := SliderMinWidth) else s).(dragging := false)
  }

  /** A cell after a resize: moved to its place when its screen is the current one, never active. */
  function RelaidCell(c: Cell, l: Layout, i: nat, j: nat, place: bool): Cell {
    (if place then c.(rect := CellRect(l.tableLeft, l.tableTop, i, j)) else c).(active := false)
  }

  /** The Menu / Calculate / Reset branch a click on a test screen takes. */
  datatype ButtonAction = Back | Calculate | Reset | NoAction

  /**
   * The `if back / elif calc and not has_calculated / elif reset` chain:
   * Calculate is only taken while the result is stale.
   */
  function Action(l: Layout, x: real, y: real, hasCalculated: bool): (a: ButtonAction)
    ensures a == Back <==> BackButton.Contains(x, y)
    ensures a == Calculate <==> !BackButton.Contains(x, y) && l.calcButton.Contains(x, y) && !hasCalculated
    ensures a == Reset <==>
      !BackButton.Contains(x, y) && !(l.calcButton.Contains(x, y) && !hasCalculated) && l.resetButton.Contains(x, y)
  {
    if BackButton.Contains(x, y) then Back
    else if l.calcButton.Contains(x, y) && !hasCalculated then Calculate
    else if l.resetButton.Contains(x, y) then Reset
    else NoAction
  }

  /** A value after the button branch: the default after Reset, unchanged otherwise. */
  function ResetValue<T>(current: T, default: T, a: ButtonAction): T {
    if a == Reset then default else current
  }

  /** The flag after the button branch: set by Calculate, cleared by Reset. */
  function Recalculated(hasCalculated: bool, a: ButtonAction): bool {
    match a
    case Calculate => true
    case Reset => false
    case _ => hasCalculated
  }

  /** The layout loop over one slider column: each slider moves to its row of the column. */
  method PlaceColumn(sliders: seq<Slider>, l: Layout, column: nat) returns (r: seq<Slider>)
    requires AllValid(sliders)
    ensures |r| == |sliders| && AllValid(r)
    ensures forall i :: 0 <= i < |r| ==>
      r[i] == sliders[i].(x := SliderX(l, column), y := SliderY(l, i), width := SliderMinWidth)
  {
    r := [];
    for k := 0 to |sliders|
      invariant |r| == k && AllValid(r)
      invariant forall i :: 0 <= i < k ==>
        r[i] == sliders[i].(x := SliderX(l, column), y := SliderY(l, i), width := SliderMinWidth)
    {
      r := r + [sliders[k].(x := SliderX(l, column), y := SliderY(l, k), width := SliderMinWidth)];
    }
  }

  /** The reset loop over a slider column: every slider gets its default value back. */
  method ResetValues(sliders: seq<Slider>, defaults: seq<real>) returns (r: seq<Slider>)
    requires AllValid(sliders) && |defaults| == |sliders|
    requires forall i :: 0 <= i < |sliders| ==> sliders[i].lo <= defaults[i] <= sliders[i].hi
    ensures |r| == |sliders| && AllValid(r) && Values(r) == defaults
    ensures forall i :: 0 <= i < |r| ==> r[i] == sliders[i].(value := defaults[i])
  {
    r := [];
    for k := 0 to |sliders|
      invariant |r| == k && AllValid(r)
      invariant forall i :: 0 <= i < k ==> r[i] == sliders[i].(value := defaults[i])
    {
      r := r + [sliders[k].(value := defaults[k])];
    }
  }

  /** The layout loop over the cell table: cell (i, j) gets the rectangle of its table position. */
  method PlaceCells(cells: seq<seq<Cell>>, l: Layout) returns (r: seq<seq<Cell>>)
    ensures SameShape(r, cells)
    ensures forall i, j :: 0 <= i < |r| && 0 <= j < |r[i]| ==>
      r[i][j] == cells[i][j].(rect := CellRect(l.tableLeft, l.tableTop, i, j))
  {
    r := [];
    for i := 0 to |cells|
      invariant |r| == i && forall k :: 0 <= k < i ==> |r[k]| == |cells[k]|
      invariant forall k, j :: 0 <= k < i && 0 <= j < |r[k]| ==>
        r[k][j] == cells[k][j].(rect := CellRect(l.tableLeft, l.tableTop, k, j))
    {
      var row := [];
      for j := 0 to |cells[i]|
        invariant |row| == j
        invariant forall m :: 0 <= m < j ==> row[m] == cells[i][m].(rect := CellRect(l.tableLeft, l.tableTop, i, m))
      {
        row := row + [cells[i][j].(rect := CellRect(l.tableLeft, l.tableTop, i, j))];
      }
      r := r + [row];
    }
  }

  /** The loop that clears every cell's `active` flag. */
  method ClearActive(cells: seq<seq<Cell>>) returns (r: seq<seq<Cell>>)
    ensures SameShape(r, cells)
    ensures forall i, j :: 0 <= i < |r| && 0 <= j < |r[i]| ==> r[i][j] == cells[i][j].(active := false)
  {
    r := [];
    for i := 0 to |cells|
      invariant |r| == i && forall k :: 0 <= k < i ==> |r[k]| == |cells[k]|
      invariant forall k, j :: 0 <= k < i && 0 <= j < |r[k]| ==> r[k][j] == cells[k][j].(active := false)
    {
      var row := [];
      for j := 0 to |cells[i]|
        invariant |row| == j
        invariant forall m :: 0 <= m < j ==> row[m] == cells[i][m].(active := false)
      {
        row := row + [cells[i][j].(active := false)];
      }
      r := r + [row];
    }
  }

  /** `reset_independence`'s loop: every cell gets its default count back and is made inactive. */
  method ResetCells(cells: seq<seq<Cell>>, defaults: seq<seq<int>>) returns (r: seq<seq<Cell>>)
    requires |defaults| == |cells| && forall i :: 0 <= i < |cells| ==> |defaults[i]| == |cells[i]|
    ensures SameShape(r, cells) && CellValues(r) == defaults
    ensures forall i, j :: 0 <= i < |r| && 0 <= j < |r[i]| ==>
      r[i][j] == cells[i][j].(value := defaults[i][j], active := false)
  {
    r := [];
    for i := 0 to |cells|
      invariant |r| == i && forall k :: 0 <= k < i ==> |r[k]| == |cells[k]|
      invariant forall k, j :: 0 <= k < i && 0 <= j < |r[k]| ==>
        r[k][j] == cells[k][j].(value := defaults[k][j], active := false)
    {
      var row := [];
      for j := 0 to |cells[i]|
        invariant |row| == j
        invariant forall m :: 0 <= m < j ==> row[m] == cells[i][m].(value := defaults[i][m], active := false)
      {
        row := row + [cells[i][j].(value := defaults[i][j], active := false)];
      }
      r := r + [row];
    }
    CellValuesAre(r, defaults);
  }

  /** r is row with every cell under the point made active. */
  predicate RowActivated(r: seq<Cell>, row: seq<Cell>, x: real, y: real) {
    |r| == |row| &&
    forall j :: 0 <= j < |row| ==> r[j] == row[j].(active := row[j].active || row[j].rect.Contains(x, y))
  }

  /** The cell-click loop over one row: the cells under the point become active; `hit` is the last of them. */
  method ActivateRow(row: seq<Cell>, x: real, y: real) returns (r: seq<Cell>, hit: Option<nat>)
    ensures RowActivated(r, row, x, y)
    ensures hit == LastHitInRow(RowRects(row), x, y)
  {
    ghost var g := RowRects(row);
    r, hit := [], None;
    for j := 0 to |row|
      invariant |r| == j
      invariant forall m :: 0 <= m < j ==> r[m] == row[m].(active := row[m].active || row[m].rect.Contains(x, y))
      invariant hit == LastHitInRow(g[..j], x, y)
    {
      assert g[..j + 1][..j] == g[..j];
      var cell := row[j];
      if cell.rect.Contains(x, y) {
        cell := cell.(active := true);
        hit := Some(j);
      }
      r := r + [cell];
    }
    assert g[..|row|] == g;
  }

  /** Scanning one more row: its last hit, if any, replaces the hit of the rows before. */
  lemma LastHitExtends(rows: seq<seq<Rect>>, i: nat, x: real, y: real)
    requires i < |rows|
    ensures LastHit(rows[..i + 1], x, y) ==
      match LastHitInRow(rows[i], x, y)
      case Some(j) => Some((i, j))
      case None => LastHit(rows[..i], x, y)
  {
    assert rows[..i + 1][..i] == rows[..i] && rows[..i + 1][i] == rows[i];
  }

  /**
   * The cell-click loop: every cell whose rectangle contains the point
   * becomes active, and `active_cell` ends on the last of them in row-by-row
   * order.
   */
  method ActivateHits(cells: seq<seq<Cell>>, x: real, y: real) returns (r: seq<seq<Cell>>, last: Option<(nat, nat)>)
    ensures |r| == |cells| && forall i :: 0 <= i < |r| ==> RowActivated(r[i], cells[i], x, y)
    ensures last == LastHit(Rects(cells), x, y)
  {
    ghost var g := Rects(cells);
    r, last := [], None;
    for i := 0 to |cells|
      invariant |r| == i && forall k :: 0 <= k < i ==> RowActivated(r[k], cells[k], x, y)
      invariant last == LastHit(g[..i], x, y)
    {
      var row, hit := ActivateRow(cells[i], x, y);
      LastHitExtends(g, i, x, y);
      if hit.Some? {
        last := Some((i, hit.value));
      }
      r := r + [row];
    }
    assert g[..|cells|] == g;
  }

  class Visualizer {
    var width: int
    var height: int
    var screen: Screen
    var observedSliders: seq<Slider>
    var expectedSliders: seq<Slider>
    var cells: seq<seq<Cell>>
    var activeCell: Option<(nat, nat)>
    var result: ChiResult
    var hasCalculated: bool
    var tutorialPage: int
    var showInstructions: bool
    var layout: Layout

    /** The slider ranges of the program, the 2 x 3 table and the four tutorial pages. */
    predicate Valid()
      reads this
    {
      |observedSliders| == 3 && |expectedSliders| == 3 &&
      AllValid(observedSliders) && AllValid(expectedSliders) &&
      (forall i :: 0 <= i < 3 ==> observedSliders[i].lo == 0.0 && observedSliders[i].hi == 150.0) &&
      (forall i :: 0 <= i < 3 ==> expectedSliders[i].lo == 0.0 && expectedSliders[i].hi == 100.0) &&
      ValidTable(cells) &&
      (activeCell.Some? ==> activeCell.value.0 < 2 && activeCell.value.1 < 3) &&
      0 <= tutorialPage < 4 && width >= 1000
    }

    /** The program's start-up state: menu, default data, the displayed initial result, layout for 1200 x 800. */
    constructor ()
      ensures Valid()
      ensures screen == Menu && width == 1200 && height == 800 && tutorialPage == 0
      ensures Values(observedSliders) == DefaultObserved && Values(expectedSliders) == DefaultPercents
      ensures CellValues(cells) == DefaultTable && activeCell == None
      ensures hasCalculated && result == ChiResult(57.82, 0.0, 2)
      ensures layout == CalculateLayout(1200, 800, Menu)
    {
      width, height, screen := 1200, 800, Menu;
      observedSliders := [
        Slider(0.0, 0.0, 200.0, 74.0, 0.0, 150.0, false),
        Slider(0.0, 0.0, 200.0, 50.0, 0.0, 150.0, false),
        Slider(0.0, 0.0, 200.0, 20.0, 0.0, 150.0, false)];
      expectedSliders := [
        Slider(0.0, 0.0, 200.0, 25.0, 0.0, 100.0, false),
        Slider(0.0, 0.0, 200.0, 42.7, 0.0, 100.0, false),
        Slider(0.0, 0.0, 200.0, 33.5, 0.0, 100.0, false)];
      var r0 := Rect(0.0, 0.0, CellWidth, CellHeight);
      cells := [
        [Cell(15, false, r0), Cell(20, false, r0), Cell(25, false, r0)],
        [Cell(25, false, r0), Cell(20, false, r0), Cell(15, false, r0)]];
      activeCell := None;
      result := ChiResult(57.82, 0.0, 2);
      hasCalculated := true;
      tutorialPage := 0;
      showInstructions := true;
      layout := CalculateLayout(1200, 800, Menu);
      new;
      CellValuesAre(cells, DefaultTable);
    }

    /** `reset_goodness_of_fit`: default slider values back, result marked stale. */
    method ResetGoodnessOfFit()
      requires Valid()
      modifies this`observedSliders, this`expectedSliders, this`hasCalculated
      ensures Valid()
      ensures Values(observedSliders) == DefaultObserved && Values(expectedSliders) == DefaultPercents
      ensures forall i :: 0 <= i < 3 ==>
        observedSliders[i] == old(observedSliders[i]).(value := DefaultObserved[i]) &&
        expectedSliders[i] == old(expectedSliders[i]).(value := DefaultPercents[i])
      ensures !hasCalculated
    {
      observedSliders := ResetValues(observedSliders, DefaultObserved);
      expectedSliders := ResetValues(expectedSliders, DefaultPercents);
      hasCalculated := false;
    }

    /** `reset_independence`: default counts back, no active cell, result marked stale. */
    method ResetIndependence()
      requires Valid()
      modifies this`cells, this`activeCell, this`hasCalculated
      ensures Valid()
      ensures CellValues(cells) == DefaultTable && activeCell == None
      ensures forall i, j :: 0 <= i < 2 && 0 <= j < 3 ==>
        cells[i][j] == old(cells[i][j]).(value := DefaultTable[i][j], active := false)
      ensures !hasCalculated
    {
      cells := ResetCells(cells, DefaultTable);
      activeCell := None;
      hasCalculated := false;
    }

    /** `calculate_goodness_of_fit` on the current slider values. */
    method CalculateGoodnessOfFit(chisquare: GoodnessRoutine)
      requires Valid()
      modifies this`result, this`hasCalculated
      ensures result == GoodnessOfFitTest(Values(observedSliders), Values(expectedSliders), chisquare)
      ensures hasCalculated
    {
      result := GoodnessOfFitTest(Values(observedSliders), Values(expectedSliders), chisquare);
      hasCalculated := true;
    }

    /** `calculate_independence` on the current cell values. */
    method CalculateIndependence(contingency: ContingencyRoutine)
      requires Valid()
      modifies this`result, this`hasCalculated
      ensures result == IndependenceTest(CellValues(cells), contingency)
      ensures hasCalculated
    {
      result := IndependenceTest(CellValues(cells), contingency);
      hasCalculated := true;
    }

    /**
     * VIDEORESIZE: the window is kept at least 1000 wide and at least the
     * minimum height, the layout is recomputed (slider positions or cell
     * rectangles only for the current screen), every drag stops and no cell
     * stays active.
     */
    method Resize(w: int, h: int)
      requires Valid()
      modifies this`width, this`height, this`layout, this`observedSliders, this`expectedSliders,
        this`cells, this`activeCell
      ensures Valid()
      ensures width == (if w >= 1000 then w else 1000) && width >= 1000
      ensures height == (if h >= MinHeightAsWritten() then h else MinHeightAsWritten()) && height >= MinHeightAsWritten()
      ensures layout == CalculateLayout(width, height, screen)
      ensures forall i :: 0 <= i < 3 ==>
        observedSliders[i] == Relaid(old(observedSliders[i]), layout, 0, i, screen == GoodnessOfFit) &&
        expectedSliders[i] == Relaid(old(expectedSliders[i]), layout, 1, i, screen == GoodnessOfFit)
      ensures forall i, j :: 0 <= i < 2 && 0 <= j < 3 ==>
        cells[i][j] == RelaidCell(old(cells[i][j]), layout, i, j, screen == Independence)
      ensures activeCell == None
      ensures screen == old(screen) && result == old(result) && hasCalculated == old(hasCalculated)
      ensures tutorialPage == old(tutorialPage) && showInstructions == old(showInstructions)
    {
      Resized(w, h);
      RelayoutSliders();
      RelayoutCells();
    }

    /** The window half of a resize: the clamped size and the layout computed for it. */
    method Resized(w: int, h: int)
      requires Valid()
      modifies this`width, this`height, this`layout
      ensures Valid()
      ensures width == (if w >= 1000 then w else 1000) && width >= 1000
      ensures height == (if h >= MinHeightAsWritten() then h else MinHeightAsWritten()) && height >= MinHeightAsWritten()
      ensures layout == CalculateLayout(width, height, screen)
    {
      width := MaxI(MaxI(w, 800), 1000);
      height := MaxI(h, MinHeightAsWritten());
      layout := CalculateLayout(width, height, screen);
    }

    /** The slider half of a resize: the layout loop (goodness-of-fit screen only), then the release loop. */
    method RelayoutSliders()
      requires Valid()
      modifies this`observedSliders, this`expectedSliders
      ensures Valid()
      ensures forall i :: 0 <= i < 3 ==>
        observedSliders[i] == Relaid(old(observedSliders[i]), layout, 0, i, screen == GoodnessOfFit) &&
        expectedSliders[i] == Relaid(old(expectedSliders[i]), layout, 1, i, screen == GoodnessOfFit)
    {
      var observed, expected := observedSliders, expectedSliders;
      if screen == GoodnessOfFit {
        observed := PlaceColumn(observed, layout, 0);
        expected := PlaceColumn(expected, layout, 1);
      }
      var released: bool;
      observed, released := ReleaseAll(observed);
      expected, released := ReleaseAll(expected);
      observedSliders, expectedSliders := observed, expected;
    }

    /** The cell half of a resize: the layout loop (independence screen only), then no cell stays active. */
    method RelayoutCells()
      requires Valid()
      modifies this`cells, this`activeCell
      ensures Valid()
      ensures forall i, j :: 0 <= i < 2 && 0 <= j < 3 ==>
        cells[i][j] == RelaidCell(old(cells[i][j]), layout, i, j, screen == Independence)
      ensures activeCell == None
    {
      var table := cells;
      if screen == Independence {
        table := PlaceCells(table, layout);
      }
      activeCell := None;
      table := ClearActive(table);
      cells := table;
    }

    /**
     * KEYDOWN: Escape leaves a test or tutorial screen for the menu and
     * marks the result stale; on the independence screen with an active
     * cell, Backspace and the digit keys edit that cell and mark the result
     * stale.
     */
    method KeyDown(key: Key)
      requires Valid() && (key.DigitKey? ==> key.d <= 9)
      modifies this
      ensures Valid()
      ensures screen == (if key == EscapeKey && old(screen) != Menu then Menu else old(screen))
      ensures var editing := old(activeCell).Some? && screen == Independence && (key.BackspaceKey? || key.DigitKey?);
        && (editing ==>
              var (i, j) := old(activeCell).value;
              cells == old(cells)[i := old(cells)[i][j := old(cells)[i][j].(value := Edit(old(cells)[i][j].value, key))]])
        && (!editing ==> cells == old(cells))
        && hasCalculated == (if editing || (key == EscapeKey && old(screen) != Menu) then false else old(hasCalculated))
      ensures activeCell == old(activeCell) && observedSliders == old(observedSliders) && expectedSliders == old(expectedSliders)
      ensures width == old(width) && height == old(height) && layout == old(layout)
      ensures result == old(result) && tutorialPage == old(tutorialPage) && showInstructions == old(showInstructions)
    {
      if key == EscapeKey && screen != Menu {
        screen := Menu;
        hasCalculated := false;
      }
      if activeCell.Some? && screen == Independence && (key.BackspaceKey? || key.DigitKey?) {
        var (i, j) := activeCell.value;
        var cell := cells[i][j];
        cells := cells[i := cells[i][j := cell.(value := Edit(cell.value, key))]];
        hasCalculated := false;
      }
    }

    /** MOUSEBUTTONDOWN on the menu: the three buttons open a test screen (with its data reset) or the tutorial. */
    method ClickMenu(x: real, y: real)
      requires Valid() && screen == Menu
      modifies this`screen, this`tutorialPage, this`observedSliders, this`expectedSliders,
        this`cells, this`activeCell, this`hasCalculated
      ensures Valid()
      ensures var (gof, ind, tut) := MenuButtons(width, height);
        && (gof.Contains(x, y) ==>
              screen == GoodnessOfFit && !hasCalculated &&
              Values(observedSliders) == DefaultObserved && Values(expectedSliders) == DefaultPercents &&
              (forall i :: 0 <= i < 3 ==>
                 observedSliders[i] == old(observedSliders[i]).(value := DefaultObserved[i]) &&
                 expectedSliders[i] == old(expectedSliders[i]).(value := DefaultPercents[i])) &&
              unchanged(this`cells, this`activeCell, this`tutorialPage))
        && (!gof.Contains(x, y) && ind.Contains(x, y) ==>
              screen == Independence && !hasCalculated &&
              CellValues(cells) == DefaultTable && activeCell == None &&
              (forall i, j :: 0 <= i < 2 && 0 <= j < 3 ==>
                 cells[i][j] == old(cells[i][j]).(value := DefaultTable[i][j], active := false)) &&
              unchanged(this`observedSliders, this`expectedSliders, this`tutorialPage))
        && (!gof.Contains(x, y) && !ind.Contains(x, y) && tut.Contains(x, y) ==>
              screen == Tutorial && tutorialPage == 0 &&
              unchanged(this`hasCalculated, this`cells, this`activeCell, this`observedSliders, this`expectedSliders))
        && (!gof.Contains(x, y) && !ind.Contains(x, y) && !tut.Contains(x, y) ==>
              screen == Menu && unchanged(this))
    {
      var (gof, ind, tut) := MenuButtons(width, height);
      if gof.Contains(x, y) {
        screen := GoodnessOfFit;
        ResetGoodnessOfFit();
      } else if ind.Contains(x, y) {
        screen := Independence;
        ResetIndependence();
      } else if tut.Contains(x, y) {
        screen := Tutorial;
        tutorialPage := 0;
      }
    }

    /**
     * MOUSEBUTTONDOWN on the tutorial: Menu leaves, Previous goes back a page
     * when there is one, Next advances and leaves for the menu from the last
     * page. The page stays within the four pages.
     */
    method ClickTutorial(x: real, y: real)
      requires Valid() && screen == Tutorial
      modifies this`screen, this`tutorialPage
      ensures Valid()
      ensures var (menu, back, next) := TutorialButtons(width, height);
        && (menu.Contains(x, y) ==> screen == Menu && tutorialPage == old(tutorialPage))
        && (!menu.Contains(x, y) && back.Contains(x, y) && old(tutorialPage) > 0 ==>
              screen == Tutorial && tutorialPage == old(tutorialPage) - 1)
        && (!menu.Contains(x, y) && !(back.Contains(x, y) && old(tutorialPage) > 0) && next.Contains(x, y) ==>
              if old(tutorialPage) < 3 then screen == Tutorial && tutorialPage == old(tutorialPage) + 1
              else screen == Menu && tutorialPage == old(tutorialPage))
        && (!menu.Contains(x, y) && !(back.Contains(x, y) && old(tutorialPage) > 0) && !next.Contains(x, y) ==>
              screen == Tutorial && tutorialPage == old(tutorialPage))
    {
      var (menu, back, next) := TutorialButtons(width, height);
      if menu.Contains(x, y) {
        screen := Menu;
      } else if back.Contains(x, y) && tutorialPage > 0 {
        tutorialPage := tutorialPage - 1;
      } else if next.Contains(x, y) {
        if tutorialPage < 4 - 1 {
          tutorialPage := tutorialPage + 1;
        } else {
          screen := Menu;
        }
      }
    }

    /**
     * MOUSEBUTTONDOWN on the goodness-of-fit screen: the instruction toggle,
     * then Menu / Calculate (only when the result is stale) / Reset, then
     * every slider whose track is hit jumps to the cursor, which marks the
     * result stale.
     */
    method ClickGoodnessOfFit(x: real, y: real, chisquare: GoodnessRoutine)
      requires Valid() && screen == GoodnessOfFit
      modifies this
      ensures Valid()
      ensures var action := Action(layout, x, y, old(hasCalculated));
        && showInstructions == (old(showInstructions) != layout.toggle.Contains(x, y))
        && screen == (if action == Back then Menu else GoodnessOfFit)
        && result == (if action == Calculate
                      then GoodnessOfFitTest(old(Values(observedSliders)), old(Values(expectedSliders)), chisquare)
                      else old(result))
        && (forall i :: 0 <= i < 3 ==>
              observedSliders[i] == Press(old(observedSliders[i]).(value := ResetValue(old(observedSliders[i].value), DefaultObserved[i], action)), x, y) &&
              expectedSliders[i] == Press(old(expectedSliders[i]).(value := ResetValue(old(expectedSliders[i].value), DefaultPercents[i], action)), x, y))
        && hasCalculated == (
              if exists i :: 0 <= i < 3 && (old(observedSliders[i]).HitRect().Contains(x, y) ||
                                            old(expectedSliders[i]).HitRect().Contains(x, y))
              then false
              else Recalculated(old(hasCalculated), action))
      ensures cells == old(cells) && activeCell == old(activeCell)
      ensures width == old(width) && height == old(height) && layout == old(layout) && tutorialPage == old(tutorialPage)
    {
      ButtonsGoodnessOfFit(x, y, chisquare);
      PressSliders(x, y);
    }

    /** The toggle and the Menu / Calculate / Reset branch of a goodness-of-fit click. */
    method ButtonsGoodnessOfFit(x: real, y: real, chisquare: GoodnessRoutine)
      requires Valid() && screen == GoodnessOfFit
      modifies this
      ensures Valid()
      ensures var action := Action(layout, x, y, old(hasCalculated));
        && showInstructions == (old(showInstructions) != layout.toggle.Contains(x, y))
        && screen == (if action == Back then Menu else GoodnessOfFit)
        && result == (if action == Calculate
                      then GoodnessOfFitTest(old(Values(observedSliders)), old(Values(expectedSliders)), chisquare)
                      else old(result))
        && (forall i :: 0 <= i < 3 ==>
              observedSliders[i] == old(observedSliders[i]).(value := ResetValue(old(observedSliders[i].value), DefaultObserved[i], action)) &&
              expectedSliders[i] == old(expectedSliders[i]).(value := ResetValue(old(expectedSliders[i].value), DefaultPercents[i], action)))
        && hasCalculated == Recalculated(old(hasCalculated), action)
      ensures cells == old(cells) && activeCell == old(activeCell)
      ensures width == old(width) && height == old(height) && layout == old(layout) && tutorialPage == old(tutorialPage)
    {
      if layout.toggle.Contains(x, y) {
        showInstructions := !showInstructions;
      }
      if BackButton.Contains(x, y) {
        screen := Menu;
      } else if layout.calcButton.Contains(x, y) && !hasCalculated {
        CalculateGoodnessOfFit(chisquare);
      } else if layout.resetButton.Contains(x, y) {
        ResetGoodnessOfFit();
      }
    }

    /** The slider loop of a goodness-of-fit click: a hit track grabs its slider and marks the result stale. */
    method PressSliders(x: real, y: real)
      requires Valid()
      modifies this`observedSliders, this`expectedSliders, this`hasCalculated
      ensures Valid()
      ensures forall i :: 0 <= i < 3 ==>
        observedSliders[i] == Press(old(observedSliders[i]), x, y) &&
        expectedSliders[i] == Press(old(expectedSliders[i]), x, y)
      ensures hasCalculated == (
        if exists i :: 0 <= i < 3 && (old(observedSliders[i]).HitRect().Contains(x, y) ||
                                      old(expectedSliders[i]).HitRect().Contains(x, y))
        then false
        else old(hasCalculated))
    {
      var hitObserved, hitExpected;
      observedSliders, hitObserved := PressAll(observedSliders, x, y);
      expectedSliders, hitExpected := PressAll(expectedSliders, x, y);
      if hitObserved || hitExpected {
        hasCalculated := false;
      }
    }

    /**
     * MOUSEBUTTONDOWN on the independence screen: the instruction toggle,
     * then Menu / Calculate (only when the result is stale) / Reset, then
     * every cell is deactivated and the cells under the cursor activated;
     * the last of them becomes the active cell and the result is marked
     * stale.
     */
    method ClickIndependence(x: real, y: real, contingency: ContingencyRoutine)
      requires Valid() && screen == Independence
      modifies this
      ensures Valid()
      ensures var action := Action(layout, x, y, old(hasCalculated));
        && showInstructions == (old(showInstructions) != layout.toggle.Contains(x, y))
        && screen == (if action == Back then Menu else Independence)
        && result == (if action == Calculate then IndependenceTest(old(CellValues(cells)), contingency) else old(result))
        && (forall i, j :: 0 <= i < 2 && 0 <= j < 3 ==>
              cells[i][j] == old(cells[i][j]).(value := ResetValue(old(cells[i][j].value), DefaultTable[i][j], action),
                                               active := old(cells[i][j].rect).Contains(x, y)))
        && activeCell == LastHit(Rects(old(cells)), x, y)
        && hasCalculated == (if activeCell.Some? then false else Recalculated(old(hasCalculated), action))
      ensures observedSliders == old(observedSliders) && expectedSliders == old(expectedSliders)
      ensures width == old(width) && height == old(height) && layout == old(layout) && tutorialPage == old(tutorialPage)
    {
      ButtonsIndependence(x, y, contingency);
      SameRects(cells, old(cells));
      SelectCell(x, y);
    }

    /** The toggle and the Menu / Calculate / Reset branch of an independence click. */
    method ButtonsIndependence(x: real, y: real, contingency: ContingencyRoutine)
      requires Valid() && screen == Independence
      modifies this
      ensures Valid()
      ensures var action := Action(layout, x, y, old(hasCalculated));
        && showInstructions == (old(showInstructions) != layout.toggle.Contains(x, y))
        && screen == (if action == Back then Menu else Independence)
        && result == (if action == Calculate then IndependenceTest(old(CellValues(cells)), contingency) else old(result))
        && (forall i, j :: 0 <= i < 2 && 0 <= j < 3 ==>
              cells[i][j] == (if action == Reset then old(cells[i][j]).(value := DefaultTable[i][j], active := false)
                              else old(cells[i][j])))
        && activeCell == (if action == Reset then None else old(activeCell))
        && hasCalculated == Recalculated(old(hasCalculated), action)
      ensures observedSliders == old(observedSliders) && expectedSliders == old(expectedSliders)
      ensures width == old(width) && height == old(height) && layout == old(layout) && tutorialPage == old(tutorialPage)
    {
      if layout.toggle.Contains(x, y) {
        showInstructions := !showInstructions;
      }
      if BackButton.Contains(x, y) {
        screen := Menu;
      } else if layout.calcButton.Contains(x, y) && !hasCalculated {
        CalculateIndependence(contingency);
      } else if layout.resetButton.Contains(x, y) {
        ResetIndependence();
      }
    }

    /**
     * The cell loop of an independence click: all cells are deactivated,
     * the ones under the cursor activated, the last of them becomes the
     * active cell and the result is marked stale.
     */
    method SelectCell(x: real, y: real)
      requires Valid()
      modifies this`cells, this`activeCell, this`hasCalculated
      ensures Valid()
      ensures forall i, j :: 0 <= i < 2 && 0 <= j < 3 ==>
        cells[i][j] == old(cells[i][j]).(active := old(cells[i][j].rect).Contains(x, y))
      ensures activeCell == LastHit(Rects(old(cells)), x, y)
      ensures hasCalculated == (if activeCell.Some? then false else old(hasCalculated))
    {
      var table := ClearActive(cells);
      SameRects(table, cells);
      var last;
      table, last := ActivateHits(table, x, y);
      cells, activeCell := table, last;
      if last.Some? {
        hasCalculated := false;
      }
    }

    /** MOUSEBUTTONUP: every slider stops dragging and keeps its value. */
    method Release()
      requires Valid()
      modifies this`observedSliders, this`expectedSliders
      ensures Valid()
      ensures forall i :: 0 <= i < 3 ==>
        observedSliders[i] == old(observedSliders[i]).(dragging := false) &&
        expectedSliders[i] == old(expectedSliders[i]).(dragging := false)
    {
      var released: bool;
      observedSliders, released := ReleaseAll(observedSliders);
      expectedSliders, released := ReleaseAll(expectedSliders);
    }

    /** MOUSEMOTION: dragged sliders follow the cursor; if any was dragged, the result is stale. */
    method Motion(x: real)
      requires Valid()
      modifies this`observedSliders, this`expectedSliders, this`hasCalculated
      ensures Valid()
      ensures forall i :: 0 <= i < 3 ==>
        observedSliders[i] == Drag(old(observedSliders[i]), x) &&
        expectedSliders[i] == Drag(old(expectedSliders[i]), x)
      ensures hasCalculated == (old(hasCalculated) &&
        forall i :: 0 <= i < 3 ==> !old(observedSliders[i]).dragging && !old(expectedSliders[i]).dragging)
    {
      var movedObserved, movedExpected;
      observedSliders, movedObserved := DragAll(observedSliders, x);
      expectedSliders, movedExpected := DragAll(expectedSliders, x);
      if movedObserved || movedExpected {
        hasCalculated := false;
      }
    }
  }
}

=== FILE: chi_cells.dfy ===
/**
 * The keyboard editor of the contingency-table cells: a digit key appends
 * to the decimal text of the value (at most three digits, a lone 0 is
 * replaced), Backspace removes the last character of that text.
 */
module ChiCells {

  predicate IsDigits(s: string) {
    forall i :: 0 <= i < |s| ==> '0' <= s[i] <= '9'
  }

  function DigitChar(d: nat): (c: char)
    requires d <= 9
    ensures '0' <= c <= '9'
  {
    ('0' as int + d) as char
  }

  function DigitValue(c: char): (d: nat)
    requires '0' <= c <= '9'
    ensures d <= 9 && DigitChar(d) == c
  {
    c as int - '0' as int
  }

  /** Python's `str(n)` for a non-negative int: no leading zero, "0" for zero. */
  function Str(n: nat): (s: string)
    ensures |s| >= 1 && IsDigits(s)
    ensures |s| > 1 <==> n >= 10
  {
    if n < 10 then [DigitChar(n)] else Str(n / 10) + [DigitChar(n % 10)]
  }

  /** Python's `int(s)` on a non-empty string of decimal digits. */
  function ParseInt(s: string): nat
    requires |s| >= 1 && IsDigits(s)
  {
    if |s| == 1 then DigitValue(s[0])
    else ParseInt(s[..|s| - 1]) * 10 + DigitValue(s[|s| - 1])
  }

  /** Reading back the decimal text of a value gives the value. */
  lemma {:induction false} ParseStr(n: nat)
    ensures ParseInt(Str(n)) == n
  {
    if n >= 10 {
      var s := Str(n);
      assert s[..|s| - 1] == Str(n / 10);
      ParseStr(n / 10);
      assert DigitValue(DigitChar(n % 10)) == n % 10;
    }
  }

  /** 10^k. */
  function Pow10(k: nat): (r: nat)
    ensures r >= 1
  {
    if k == 0 then 1 else 10 * Pow10(k - 1)
  }

  /** The decimal text of n has at most k >= 1 characters exactly when n < 10^k. */
  lemma {:induction false} StrLength(n: nat, k: nat)
    requires k >= 1
    ensures |Str(n)| <= k <==> n < Pow10(k)
  {
    if n >= 10 {
      if k == 1 {
        assert Pow10(1) == 10;
      } else {
        StrLength(n / 10, k - 1);
      }
    } else {
      assert Pow10(k) >= 10 by { Pow10Grows(k); }
    }
  }

  lemma {:induction false} Pow10Grows(k: nat)
    requires k >= 1
    ensures Pow10(k) >= 10
  {
    if k > 1 {
      Pow10Grows(k - 1);
    }
  }

  /**
   * Backspace on the active cell: the text without its last character, or 0
   * when the text is a single digit.
   */
  function Backspace(v: nat): (r: nat)
    ensures |Str(v)| > 1 ==> Str(r) == Str(v)[..|Str(v)| - 1]
    ensures |Str(v)| == 1 ==> r == 0
  {
    var s := Str(v);
    if |s| > 1 then
      assert s[..|s| - 1] == Str(v / 10);
      ParseStr(v / 10);
      ParseInt(s[..|s| - 1])
    else 0
  }

  /** Backspace drops the last decimal digit: v becomes v div 10. */
  lemma BackspaceDropsLastDigit(v: nat)
    ensures Backspace(v) == v / 10
  {
    if v >= 10 {
      var s := Str(v);
      assert s[..|s| - 1] == Str(v / 10);
      ParseStr(v / 10);
    }
  }

  /**
   * A digit key on the active cell: a value of 0 is replaced by the digit, a
   * value below 100 gets the digit appended, a longer value is left alone.
   */
  function TypeDigit(v: nat, d: nat): (r: nat)
    requires d <= 9
    ensures v == 0 ==> Str(r) == [DigitChar(d)]
    ensures 0 < v < 100 ==> Str(r) == Str(v) + [DigitChar(d)]
    ensures v >= 100 ==> r == v
    ensures v < 1000 ==> r < 1000
  {
    if v == 0 then d
    else if v < 100 then
      assert (v * 10 + d) / 10 == v && (v * 10 + d) % 10 == d;
      v * 10 + d
    else v
  }

  /** The three-digit cap in terms of the text: a value of at most three digits keeps at most three. */
  lemma TypeDigitKeepsThreeDigits(v: nat, d: nat)
    requires d <= 9 && |Str(v)| <= 3
    ensures |Str(TypeDigit(v, d))| <= 3
  {
    StrLength(v, 3);
    StrLength(TypeDigit(v, d), 3);
  }

  /** A digit appended to a value below 100 is removed again by Backspace. */
  lemma BackspaceUndoesDigit(v: nat, d: nat)
    requires d <= 9 && v < 100
    ensures Backspace(TypeDigit(v, d)) == v
  {
    BackspaceDropsLastDigit(TypeDigit(v, d));
  }
}

=== FILE: chi_layout.dfy ===
/**
 * Screen geometry of the chi-square visualiser: the vertical stack of
 * results, chart, instructions, input panel and buttons, the slider and
 * table positions inside the panel, the fixed button rectangles of the menu
 * and tutorial pages, and the minimum window height.
 */
module ChiLayout {
  import opened Widgets

  datatype Screen = Menu | GoodnessOfFit | Independence | Tutorial

  const HeaderHeight: real := 60.0
  const ResultMargin: real := 20.0
  const PanelMargin: real := 15.0
  const CellWidth: real := 100.0
  const CellHeight: real := 50.0
  const SliderMinWidth: real := 200.0
  /** Label column + slider + value column + the two gaps + both side margins. */
  const MinPanelWidth: real := 140.0 + 200.0 + 70.0 + 20.0 + 16.0 + 20.0 * 2.0
  const ButtonWidth: int := 200
  const ButtonSpacing: int := 20

  /** The dict `calculate_layout` returns, plus the two button rectangles it stores globally. */
  datatype Layout = Layout(
    results: Rect, chart: Rect, instructions: Rect, panel: Rect,
    toggle: Rect, calcButton: Rect, resetButton: Rect,
    tableLeft: real, tableTop: real)

  function PanelHeight(screen: Screen): real {
    if screen == GoodnessOfFit then 250.0 else 300.0
  }

  /** Each region starts PANEL_MARGIN below the bottom of the one above; the buttons 2 PANEL_MARGIN below the panel. */
  predicate Stacked(l: Layout) {
    l.chart.top == l.results.Bottom() + PanelMargin &&
    l.instructions.top == l.chart.Bottom() + PanelMargin &&
    l.panel.top == l.instructions.Bottom() + PanelMargin &&
    l.calcButton.top == l.panel.Bottom() + 2.0 * PanelMargin &&
    l.resetButton.top == l.calcButton.top
  }

  /** The regions of the page, top to bottom, then left to right. */
  function Regions(l: Layout): seq<Rect> {
    [l.results, l.chart, l.instructions, l.panel, l.calcButton, l.resetButton]
  }

  predicate NoOverlap(rs: seq<Rect>) {
    forall i, j :: 0 <= i < j < |rs| ==> Disjoint(rs[i], rs[j])
  }

  /** `calculate_layout` for a window of the given size on the given screen. */
  function CalculateLayout(width: int, height: int, screen: Screen): (l: Layout)
    ensures Stacked(l)
    ensures l.results.top == HeaderHeight + ResultMargin
    ensures 0.0 <= l.results.height && l.instructions.height >= 0.0 && l.calcButton.height >= 0.0
    ensures l.chart.height <= 450.0 && l.chart.width <= 700.0
    ensures l.panel.height == PanelHeight(screen) && l.panel.width >= MinPanelWidth
    ensures height >= 135 ==> l.chart.height >= 0.0
    ensures width >= 486 ==> 0.0 <= l.panel.left && l.panel.Right() <= width as real
    ensures l.calcButton.Right() + ButtonSpacing as real == l.resetButton.left
    ensures l.toggle.left == l.panel.left && l.toggle.top == l.instructions.top
  {
    var availableHeight := height as real - HeaderHeight - PanelMargin;
    var resultsTop := HeaderHeight + ResultMargin;
    var remainingHeight := availableHeight - 40.0 - ResultMargin;
    var chartHeight := MinR(remainingHeight * 0.4, 450.0);
    var chartWidth := MinR(width as real * 0.8, 700.0);
    var chartLeft := Half(width as real - chartWidth);
    var chartTop := resultsTop + 40.0 + PanelMargin;
    var instructionsTop := chartTop + chartHeight + PanelMargin;
    var panelWidth := MaxR(MinR(width as real * 0.8, 800.0), MinPanelWidth);
    var panelLeft := Half(width as real - panelWidth);
    var panelTop := instructionsTop + 40.0 + PanelMargin;
    var buttonTop := panelTop + PanelHeight(screen) + PanelMargin * 2.0;
    var leftButtonLeft := (width - 2 * ButtonWidth - ButtonSpacing) / 2;
    var rightButtonLeft := leftButtonLeft + ButtonWidth + ButtonSpacing;
    Layout(
      Rect(chartLeft, resultsTop, chartWidth, 40.0),
      Rect(chartLeft, chartTop, chartWidth, chartHeight),
      Rect(panelLeft, instructionsTop, panelWidth, 40.0),
      Rect(panelLeft, panelTop, panelWidth, PanelHeight(screen)),
      Rect(panelLeft, instructionsTop, 30.0, 30.0),
      Rect(leftButtonLeft as real, buttonTop, ButtonWidth as real, 40.0),
      Rect(rightButtonLeft as real, buttonTop, ButtonWidth as real, 40.0),
      panelLeft + Half(panelWidth - CellWidth * 4.0),
      panelTop + 80.0)
  }

  /** Once the chart has a non-negative height, no two regions of the page overlap. */
  lemma RegionsDoNotOverlap(width: int, height: int, screen: Screen)
    requires height >= 135
    ensures NoOverlap(Regions(CalculateLayout(width, height, screen)))
  {
    var l := CalculateLayout(width, height, screen);
    var rs := Regions(l);
    forall i, j | 0 <= i < j < |rs| ensures Disjoint(rs[i], rs[j]) {
      if j == 5 && i == 4 {
        assert rs[i].Right() <= rs[j].left;
      } else {
        assert rs[i].Bottom() <= rs[j].top;
      }
    }
  }

  /** Where `calculate_layout` puts observed slider i (column 0) and expected slider i (column 1). */
  function SliderX(l: Layout, column: nat): real {
    if column == 0 then l.panel.left + 100.0 + 80.0
    else l.panel.left + Half(l.panel.width) + 100.0 + 80.0
  }

  function SliderY(l: Layout, i: nat): real {
    l.panel.top + 100.0 + i as real * 40.0
  }

  /** The track hit area of slider i in the given column, as placed by `calculate_layout`. */
  function PlacedHitRect(l: Layout, column: nat, i: nat): Rect {
    Slider(SliderX(l, column), SliderY(l, i), SliderMinWidth, 0.0, 0.0, 1.0, false).HitRect()
  }

  /**
   * The six goodness-of-fit sliders do not share a pixel of their hit areas,
   * so a click grabs at most one of them.
   */
  lemma SliderHitAreasDisjoint(width: int, height: int, c1: nat, i1: nat, c2: nat, i2: nat)
    requires c1 <= 1 && c2 <= 1 && (c1, i1) != (c2, i2)
    ensures Disjoint(PlacedHitRect(CalculateLayout(width, height, GoodnessOfFit), c1, i1),
                     PlacedHitRect(CalculateLayout(width, height, GoodnessOfFit), c2, i2))
  {
    var l := CalculateLayout(width, height, GoodnessOfFit);
    var a := PlacedHitRect(l, c1, i1);
    var b := PlacedHitRect(l, c2, i2);
    if c1 != c2 {
      assert SliderX(l, 1) - SliderX(l, 0) >= 240.0;
      if c1 == 0 {
        assert a.Right() <= b.left;
      } else {
        assert b.Right() <= a.left;
      }
    } else if i1 < i2 {
      assert SliderY(l, i2) - SliderY(l, i1) == (i2 - i1) as real * 40.0;
      assert a.Bottom() <= b.top;
    } else {
      assert SliderY(l, i1) - SliderY(l, i2) == (i1 - i2) as real * 40.0;
      assert b.Bottom() <= a.top;
    }
  }

  /** Cell (i, j) of the independence table; row 0 and column 0 hold the headers. */
  function CellRect(tableLeft: real, tableTop: real, i: nat, j: nat): Rect {
    Rect(tableLeft + (j + 1) as real * CellWidth, tableTop + (i + 1) as real * CellHeight, CellWidth, CellHeight)
  }

  /** The cell rectangles `calculate_layout` writes for a rows x cols table. */
  function GridRects(tableLeft: real, tableTop: real, rows: nat, cols: nat): (g: seq<seq<Rect>>)
    ensures |g| == rows && forall i :: 0 <= i < rows ==> |g[i]| == cols
    ensures forall i, j :: 0 <= i < rows && 0 <= j < cols ==> g[i][j] == CellRect(tableLeft, tableTop, i, j)
  {
    seq(rows, i requires 0 <= i => seq(cols, j requires 0 <= j => CellRect(tableLeft, tableTop, i, j)))
  }

  /** Distinct cells of the table are disjoint. */
  lemma CellsDisjoint(tableLeft: real, tableTop: real, i1: nat, j1: nat, i2: nat, j2: nat)
    requires (i1, j1) != (i2, j2)
    ensures Disjoint(CellRect(tableLeft, tableTop, i1, j1), CellRect(tableLeft, tableTop, i2, j2))
  {
    var a := CellRect(tableLeft, tableTop, i1, j1);
    var b := CellRect(tableLeft, tableTop, i2, j2);
    if j1 < j2 {
      assert (j1 + 1) as real * CellWidth + CellWidth <= (j2 + 1) as real * CellWidth;
      assert a.Right() <= b.left;
    } else if j2 < j1 {
      assert (j2 + 1) as real * CellWidth + CellWidth <= (j1 + 1) as real * CellWidth;
      assert b.Right() <= a.left;
    } else if i1 < i2 {
      assert (i1 + 1) as real * CellHeight + CellHeight <= (i2 + 1) as real * CellHeight;
      assert a.Bottom() <= b.top;
    } else {
      assert (i2 + 1) as real * CellHeight + CellHeight <= (i1 + 1) as real * CellHeight;
      assert b.Bottom() <= a.top;
    }
  }

  /** The 2 x 3 table sits inside the independence panel. */
  lemma TableInsidePanel(width: int, height: int, i: nat, j: nat)
    requires i < 2 && j < 3
    ensures var l := CalculateLayout(width, height, Independence);
      var c := CellRect(l.tableLeft, l.tableTop, i, j);
      l.panel.left <= c.left && c.Right() <= l.panel.Right() &&
      l.panel.top <= c.top && c.Bottom() <= l.panel.Bottom()
  {
  }

  /** Whether cell position (i2, j2) comes after (i1, j1) in the row-by-row scan of the click loop. */
  predicate ScannedAfter(i1: nat, j1: nat, i2: nat, j2: nat) {
    i2 > i1 || (i2 == i1 && j2 > j1)
  }

  /** The last rectangle of a row, in scan order, that contains the point. */
  function LastHitInRow(row: seq<Rect>, x: real, y: real): (r: Option<nat>)
    ensures r.Some? ==> (r.value < |row| && row[r.value].Contains(x, y) &&
      forall k :: r.value < k < |row| ==> !row[k].Contains(x, y))
    ensures r.None? ==> forall k :: 0 <= k < |row| ==> !row[k].Contains(x, y)
  {
    if row == [] then None
    else if row[|row| - 1].Contains(x, y) then Some(|row| - 1)
    else LastHitInRow(row[..|row| - 1], x, y)
  }

  /**
   * The cell the click loop leaves in `active_cell`: the last one, in
   * row-by-row order, whose rectangle contains the point.
   */
  function LastHit(rows: seq<seq<Rect>>, x: real, y: real): (r: Option<(nat, nat)>)
    ensures r.Some? ==> (r.value.0 < |rows| && r.value.1 < |rows[r.value.0]| &&
      rows[r.value.0][r.value.1].Contains(x, y) &&
      forall i, j :: 0 <= i < |rows| && 0 <= j < |rows[i]| && ScannedAfter(r.value.0, r.value.1, i, j) ==>
        !rows[i][j].Contains(x, y))
    ensures r.None? ==> forall i, j :: 0 <= i < |rows| && 0 <= j < |rows[i]| ==> !rows[i][j].Contains(x, y)
  {
    if rows == [] then None
    else
      match LastHitInRow(rows[|rows| - 1], x, y)
      case Some(j) => Some((|rows| - 1, j))
      case None => LastHit(rows[..|rows| - 1], x, y)
  }

  /** Clicking inside cell (i, j) of a freshly laid-out table makes exactly that cell the active one. */
  lemma ClickSelectsCell(tableLeft: real, tableTop: real, rows: nat, cols: nat, i: nat, j: nat, dx: real, dy: real)
    requires i < rows && j < cols
    requires 0.0 <= dx < CellWidth && 0.0 <= dy < CellHeight
    ensures LastHit(GridRects(tableLeft, tableTop, rows, cols),
                    CellRect(tableLeft, tableTop, i, j).left + dx,
                    CellRect(tableLeft, tableTop, i, j).top + dy) == Some((i, j))
  {
    var g: seq<seq<Rect>> := GridRects(tableLeft, tableTop, rows, cols);
    var c := CellRect(tableLeft, tableTop, i, j);
    var x: real, y: real := c.left + dx, c.top + dy;
    assert g[i][j].Contains(x, y);
    forall i2, j2 | 0 <= i2 < rows && 0 <= j2 < cols && (i2, j2) != (i, j)
      ensures !g[i2][j2].Contains(x, y)
    {
      CellsDisjoint(tableLeft, tableTop, i, j, i2, j2);
    }
  }

  /** A click outside every cell leaves no cell active. */
  lemma ClickOutsideSelectsNothing(tableLeft: real, tableTop: real, rows: nat, cols: nat, x: real, y: real)
    requires x < tableLeft + CellWidth || y < tableTop + CellHeight ||
             x >= tableLeft + (cols + 1) as real * CellWidth || y >= tableTop + (rows + 1) as real * CellHeight
    ensures LastHit(GridRects(tableLeft, tableTop, rows, cols), x, y).None?
  {
    var g: seq<seq<Rect>> := GridRects(tableLeft, tableTop, rows, cols);
    forall i, j | 0 <= i < rows && 0 <= j < cols ensures !g[i][j].Contains(x, y) {
      assert (j + 1) as real * CellWidth >= CellWidth && (i + 1) as real * CellHeight >= CellHeight;
      assert (j + 2) as real * CellWidth <= (cols + 1) as real * CellWidth;
      assert (i + 2) as real * CellHeight <= (rows + 1) as real * CellHeight;
    }
  }

  /** The three buttons `draw_menu` returns. */
  function MenuButtons(width: int, height: int): (b: (Rect, Rect, Rect))
    ensures Above(b.0, b.1) && Above(b.1, b.2)
  {
    (Rect((width / 2 - 200) as real, (height / 2 + 100) as real, 400.0, 60.0),
     Rect((width / 2 - 200) as real, (height / 2 + 180) as real, 400.0, 60.0),
     Rect((width / 2 - 150) as real, (height / 2 + 260) as real, 300.0, 60.0))
  }

  /** The menu, previous and next buttons `draw_tutorial` returns. */
  function TutorialButtons(width: int, height: int): (b: (Rect, Rect, Rect))
    ensures width >= 500 ==> Disjoint(b.1, b.2)
  {
    (Rect(30.0, 10.0, 100.0, 40.0),
     Rect(50.0, (height - 100) as real, 200.0, 50.0),
     Rect((width - 250) as real, (height - 100) as real, 200.0, 50.0))
  }

  /**
   * `calculate_min_height` as written: the sum of the minimum component
   * heights, which counts the goodness-of-fit panel (250) for every screen.
   */
  function MinHeightAsWritten(): (h: int)
    ensures h >= 700
  {
    var required := 60 + 20 + 40 + 15 + 300 + 15 + 40 + 15 + 250 + 15 * 3 + 40 + 15;
    if required >= 700 then required else 700
  }

  /**
   * At the height `calculate_min_height` allows, the independence screen's
   * buttons reach below the window and the chart is under its 300 px minimum.
   */
  lemma MinHeightAsWrittenClipsButtons()
    ensures MinHeightAsWritten() == 855
    ensures var l := CalculateLayout(1000, MinHeightAsWritten(), Independence);
      l.calcButton.Bottom() == 863.0 && l.calcButton.Bottom() > MinHeightAsWritten() as real &&
      l.chart.height == 288.0
  {
  }

  /** The minimum height with the taller independence panel (300) in the sum. */
  function MinHeight(): (h: int)
    ensures h >= 700 && h > MinHeightAsWritten()
  {
    var required := 60 + 20 + 40 + 15 + 300 + 15 + 40 + 15 + 300 + 15 * 3 + 40 + 15;
    if required >= 700 then required else 700
  }

  /**
   * From the corrected minimum height up, every screen keeps its buttons and
   * a bottom margin inside the window, and the chart is at least 300 px high.
   */
  lemma LayoutFitsAtMinHeight(width: int, height: int, screen: Screen)
    requires height >= MinHeight()
    ensures var l := CalculateLayout(width, height, screen);
      l.calcButton.Bottom() + PanelMargin <= height as real && l.chart.height >= 300.0
  {
    var l := CalculateLayout(width, height, screen);
    var h := height as real;
    assert l.chart.height <= (h - 135.0) * 0.4;
    assert l.calcButton.Bottom() <= 135.0 + (h - 135.0) * 0.4 + 15.0 + 55.0 + 300.0 + 30.0 + 40.0;
  }
}

=== FILE: chi_tests.dfy ===
/**
 * The goodness-of-fit and independence calculations of the chi-square
 * visualiser, without the library routines: which counts reach the library,
 * how the expected percentages are normalised, and when the library is not
 * consulted at all.
 */
module ChiTests {
  import opened Widgets

  /** The globals `chi2_stat`, `p_value` and `df` after a calculation. */
  datatype ChiResult = ChiResult(stat: real, p: real, df: int)

  /** What both calculations report when they short-circuit or catch an exception. */
  function Neutral(df: int): ChiResult {
    ChiResult(0.0, 1.0, df)
  }

  /** `chisquare(observed, expected)`: statistic and p-value, or an exception. */
  type GoodnessRoutine = (seq<int>, seq<real>) -> Outcome<(real, real)>

  /** `chi2_contingency(observed)`: statistic, p-value and df, or an exception. */
  type ContingencyRoutine = seq<seq<int>> -> Outcome<(real, real, int)>

  /** `gof_observed`, `gof_expected` and `independence_data`. */
  const DefaultObserved: seq<real> := [74.0, 50.0, 20.0]
  const DefaultPercents: seq<real> := [25.0, 42.7, 33.5]
  const DefaultTable: seq<seq<int>> := [[15, 20, 25], [25, 20, 15]]

  function Sum(s: seq<real>): real {
    if s == [] then 0.0 else s[0] + Sum(s[1..])
  }

  function SumInt(s: seq<int>): int {
    if s == [] then 0 else s[0] + SumInt(s[1..])
  }

  /** `[x / d for x in s]`. */
  function DivideAll(s: seq<real>, d: real): (r: seq<real>)
    requires d != 0.0
    ensures |r| == |s|
    ensures forall i :: 0 <= i < |s| ==> r[i] == s[i] / d
  {
    if s == [] then [] else [s[0] / d] + DivideAll(s[1..], d)
  }

  /** `[x * c for x in s]`. */
  function MultiplyAll(s: seq<real>, c: real): (r: seq<real>)
    ensures |r| == |s|
    ensures forall i :: 0 <= i < |s| ==> r[i] == s[i] * c
  {
    if s == [] then [] else [s[0] * c] + MultiplyAll(s[1..], c)
  }

  /** `[x] * k`. */
  function Repeat(x: real, k: nat): (r: seq<real>)
    ensures |r| == k
    ensures forall i :: 0 <= i < k ==> r[i] == x
  {
    if k == 0 then [] else [x] + Repeat(x, k - 1)
  }

  /** `[int(v) for v in values]`. */
  function TruncAll(s: seq<real>): (r: seq<int>)
    ensures |r| == |s|
    ensures forall i :: 0 <= i < |s| ==> r[i] == Trunc(s[i])
  {
    if s == [] then [] else [Trunc(s[0])] + TruncAll(s[1..])
  }

  lemma {:induction false} SumDivide(s: seq<real>, d: real)
    requires d != 0.0
    ensures Sum(DivideAll(s, d)) == Sum(s) / d
  {
    if s != [] {
      SumDivide(s[1..], d);
      assert DivideAll(s, d)[1..] == DivideAll(s[1..], d);
      assert s[0] / d + Sum(s[1..]) / d == (s[0] + Sum(s[1..])) / d;
    }
  }

  lemma {:induction false} SumMultiply(s: seq<real>, c: real)
    ensures Sum(MultiplyAll(s, c)) == Sum(s) * c
  {
    if s != [] {
      SumMultiply(s[1..], c);
      assert MultiplyAll(s, c)[1..] == MultiplyAll(s[1..], c);
    }
  }

  lemma {:induction false} SumRepeat(x: real, k: nat)
    ensures Sum(Repeat(x, k)) == k as real * x
  {
    if k > 0 {
      SumRepeat(x, k - 1);
      assert Repeat(x, k)[1..] == Repeat(x, k - 1);
    }
  }

  lemma {:induction false} SumNonNegative(s: seq<real>)
    requires forall i :: 0 <= i < |s| ==> s[i] >= 0.0
    ensures Sum(s) >= 0.0
  {
    if s != [] {
      SumNonNegative(s[1..]);
    }
  }

  /**
   * The expected proportions: percentages over 100, renormalised by their
   * sum when it is positive, `1/k` each otherwise. An empty list makes
   * `1/len` raise, which is `None` here.
   */
  function ExpectedProportions(percents: seq<real>): (r: Option<seq<real>>)
    ensures r.Some? <==> |percents| > 0
    ensures r.Some? ==> |r.value| == |percents|
  {
    var props := DivideAll(percents, 100.0);
    var total := Sum(props);
    if total > 0.0 then Some(DivideAll(props, total))
    else if |props| == 0 then None
    else Some(Repeat(1.0 / |props| as real, |props|))
  }

  /** With a positive percentage sum, each proportion is that category's share of the sum. */
  lemma ProportionsFollowPercents(percents: seq<real>)
    requires Sum(percents) > 0.0
    ensures ExpectedProportions(percents).Some?
    ensures forall i :: 0 <= i < |percents| ==>
      ExpectedProportions(percents).value[i] == percents[i] / Sum(percents)
  {
    var props := DivideAll(percents, 100.0);
    var st := Sum(props);
    SumDivide(percents, 100.0);
    assert st > 0.0;
    var e := ExpectedProportions(percents);
    assert e == Some(DivideAll(props, st));
    forall i | 0 <= i < |percents| ensures e.value[i] == percents[i] / Sum(percents) {
      ShareOfTotal(percents[i], Sum(percents), props[i], st);
    }
  }

  /** A hundredth divided by the total's hundredth is the share of the total. */
  lemma ShareOfTotal(p: real, total: real, hundredth: real, totalHundredth: real)
    requires total > 0.0 && hundredth == p / 100.0 && totalHundredth == total / 100.0
    ensures hundredth / totalHundredth == p / total
  {
  }

  /** With a percentage sum of 0 (or below), every category gets `1/k`. */
  lemma ProportionsUniform(percents: seq<real>)
    requires |percents| > 0 && Sum(percents) <= 0.0
    ensures forall i :: 0 <= i < |percents| ==>
      ExpectedProportions(percents).value[i] == 1.0 / |percents| as real
  {
    SumDivide(percents, 100.0);
  }

  /** Whenever there is a category, the proportions sum to exactly 1 (over the reals). */
  lemma ProportionsSumToOne(percents: seq<real>)
    requires |percents| > 0
    ensures Sum(ExpectedProportions(percents).value) == 1.0
  {
    var props := DivideAll(percents, 100.0);
    var total := Sum(props);
    if total > 0.0 {
      SumDivide(props, total);
    } else {
      var k := |props|;
      SumRepeat(1.0 / k as real, k);
      assert k as real * (1.0 / k as real) == 1.0;
    }
  }

  /** Percentages from sliders that never go below 0 give non-negative proportions. */
  lemma ProportionsNonNegative(percents: seq<real>)
    requires |percents| > 0
    requires forall i :: 0 <= i < |percents| ==> percents[i] >= 0.0
    ensures forall i :: 0 <= i < |percents| ==> ExpectedProportions(percents).value[i] >= 0.0
  {
    var props := DivideAll(percents, 100.0);
    var total := Sum(props);
    if total > 0.0 {
      forall i | 0 <= i < |percents| ensures props[i] / total >= 0.0 {
        assert props[i] >= 0.0;
      }
    } else {
      assert 1.0 / |props| as real >= 0.0;
    }
  }

  /** `[prop * total_observed for prop in expected_props]`, or `None` where that raises. */
  function ExpectedCounts(observed: seq<int>, percents: seq<real>): (r: Option<seq<real>>)
    ensures r.Some? <==> |percents| > 0
    ensures r.Some? ==> |r.value| == |percents|
  {
    match ExpectedProportions(percents)
    case None => None
    case Some(props) => Some(MultiplyAll(props, SumInt(observed) as real))
  }

  /** The expected counts handed to the library add up to the observed total. */
  lemma ExpectedCountsSumToTotal(observed: seq<int>, percents: seq<real>)
    requires |percents| > 0
    ensures Sum(ExpectedCounts(observed, percents).value) == SumInt(observed) as real
  {
    ProportionsSumToOne(percents);
    SumMultiply(ExpectedProportions(percents).value, SumInt(observed) as real);
  }

  /**
   * `calculate_goodness_of_fit` on the slider values: observed counts are the
   * truncated observed-slider values; a zero total short-circuits to the
   * neutral result with df = k - 1; otherwise the library gets the observed
   * and expected counts, and an exception (from the library, or from `1/len`
   * on an empty list) gives the neutral result with the df of the default data.
   */
  function GoodnessOfFitTest(values: seq<real>, percents: seq<real>, chisquare: GoodnessRoutine): (r: ChiResult)
    ensures SumInt(TruncAll(values)) == 0 ==> r == Neutral(|values| - 1)
    ensures r.df == |values| - 1 || r.df == |DefaultObserved| - 1
    ensures SumInt(TruncAll(values)) != 0 && |percents| > 0 ==>
      match chisquare(TruncAll(values), ExpectedCounts(TruncAll(values), percents).value)
      case Raised => r == Neutral(|DefaultObserved| - 1)
      case Returned(sp) => r == ChiResult(sp.0, sp.1, |values| - 1)
  {
    var observed := TruncAll(values);
    if SumInt(observed) == 0 then Neutral(|observed| - 1)
    else
      match ExpectedCounts(observed, percents)
      case None => Neutral(|DefaultObserved| - 1)
      case Some(expected) =>
        match chisquare(observed, expected)
        case Raised => Neutral(|DefaultObserved| - 1)
        case Returned(sp) => ChiResult(sp.0, sp.1, |observed| - 1)
  }

  /** A zero observed total never reaches the library: any two libraries give the same neutral result. */
  lemma ZeroTotalSkipsLibrary(values: seq<real>, percents: seq<real>, lib1: GoodnessRoutine, lib2: GoodnessRoutine)
    requires SumInt(TruncAll(values)) == 0
    ensures GoodnessOfFitTest(values, percents, lib1) == GoodnessOfFitTest(values, percents, lib2) == Neutral(|values| - 1)
  {
  }

  /** Rows of equal, positive length: what `np.array` of the cell table is. */
  predicate Rectangular(t: seq<seq<int>>) {
    |t| > 0 && |t[0]| > 0 && forall i :: 0 <= i < |t| ==> |t[i]| == |t[0]|
  }

  function ColumnSum(t: seq<seq<int>>, j: nat): int
    requires Rectangular(t) && j < |t[0]|
  {
    if |t| == 1 then t[0][j] else t[0][j] + ColumnSum(t[1..], j)
  }

  /** `any(row_sums == 0) or any(col_sums == 0)`. */
  predicate HasZeroMargin(t: seq<seq<int>>)
    requires Rectangular(t)
  {
    (exists i :: 0 <= i < |t| && SumInt(t[i]) == 0) ||
    (exists j :: 0 <= j < |t[0]| && ColumnSum(t, j) == 0)
  }

  /**
   * `calculate_independence` on the cell values: a zero row or column sum
   * short-circuits to the neutral result with df = (rows-1)(cols-1); otherwise
   * the library's result is taken as is, and an exception gives the neutral
   * result with the df of the default table's shape.
   */
  function IndependenceTest(t: seq<seq<int>>, contingency: ContingencyRoutine): (r: ChiResult)
    requires Rectangular(t)
    ensures HasZeroMargin(t) ==> r == Neutral((|t| - 1) * (|t[0]| - 1))
    ensures !HasZeroMargin(t) ==>
      match contingency(t)
      case Raised => r == Neutral((|DefaultTable| - 1) * (|DefaultTable[0]| - 1))
      case Returned(res) => r == ChiResult(res.0, res.1, res.2)
  {
    if HasZeroMargin(t) then Neutral((|t| - 1) * (|t[0]| - 1))
    else
      match contingency(t)
      case Raised => Neutral((|DefaultTable| - 1) * (|DefaultTable[0]| - 1))
      case Returned(res) => ChiResult(res.0, res.1, res.2)
  }

  /** A zero margin never reaches the library: any two libraries give the same neutral result. */
  lemma ZeroMarginSkipsLibrary(t: seq<seq<int>>, lib1: ContingencyRoutine, lib2: ContingencyRoutine)
    requires Rectangular(t) && HasZeroMargin(t)
    ensures IndependenceTest(t, lib1) == IndependenceTest(t, lib2) == Neutral((|t| - 1) * (|t[0]| - 1))
  {
  }

  /** Clearing every cell of one row is enough to short-circuit the independence test. */
  lemma ZeroRowShortCircuits(t: seq<seq<int>>, i: nat, lib: ContingencyRoutine)
    requires Rectangular(t) && i < |t|
    requires forall j :: 0 <= j < |t[i]| ==> t[i][j] == 0
    ensures IndependenceTest(t, lib) == Neutral((|t| - 1) * (|t[0]| - 1))
  {
    SumIntZero(t[i]);
  }

  /** A table whose every count is positive always reaches the library. */
  lemma PositiveTableReachesLibrary(t: seq<seq<int>>)
    requires Rectangular(t)
    requires forall i, j :: 0 <= i < |t| && 0 <= j < |t[i]| ==> t[i][j] > 0
    ensures !HasZeroMargin(t)
  {
    forall i | 0 <= i < |t| ensures SumInt(t[i]) > 0 {
      SumIntPositive(t[i]);
    }
    forall j | 0 <= j < |t[0]| ensures ColumnSum(t, j) > 0 {
      ColumnSumPositive(t, j);
    }
  }

  lemma {:induction false} SumIntZero(s: seq<int>)
    requires forall j :: 0 <= j < |s| ==> s[j] == 0
    ensures SumInt(s) == 0
  {
    if s != [] {
      SumIntZero(s[1..]);
    }
  }

  lemma {:induction false} SumIntPositive(s: seq<int>)
    requires |s| > 0
    requires forall j :: 0 <= j < |s| ==> s[j] > 0
    ensures SumInt(s) > 0
  {
    if |s| > 1 {
      SumIntPositive(s[1..]);
    }
  }

  lemma {:induction false} ColumnSumPositive(t: seq<seq<int>>, j: nat)
    requires Rectangular(t) && j < |t[0]|
    requires forall i :: 0 <= i < |t| ==> t[i][j] > 0
    ensures ColumnSum(t, j) > 0
  {
    if |t| > 1 {
      ColumnSumPositive(t[1..], j);
    }
  }
}

=== FILE: chisq_app.dfy ===
/**
 * The state of the chi-square distribution viewer and its event handlers:
 * window size, current screen, the four sliders (df, alpha, axis limit,
 * number of curves), the parameters last applied, the critical-region
 * switch, the "has been updated" flag, the tutorial page and the layout.
 */
module ChiSquareApp {
  import opened Widgets
  import opened Pages
  import opened ChiSquareParams
  import opened ChiSquareLayout

  const TutorialPages: int := 5

  /** The slider ranges of the program, list order. */
  const Lows: seq<real> := [1.0, 0.01, 5.0, 1.0]
  const Highs: seq<real> := [30.0, 0.2, 40.0, 5.0]

  /** Slider k moved to row k of the panel grid, keeping its value, range and drag state. */
  function Placed(s: Slider, l: Layout, k: nat): Slider {
    s.(x := l.sliderColumn, y := Row(l, k), width := l.sliderWidth)
  }

  /** `update_parameters` on the current slider values. */
  function ParamsFrom(sliders: seq<Slider>, ppf: QuantileRoutine): Params
    requires |sliders| == 4
  {
    UpdateParameters(sliders[0].value, sliders[1].value, sliders[2].value, sliders[3].value, ppf)
  }

  class Viewer {
    var width: int
    var height: int
    var screen: Screen
    var sliders: seq<Slider>
    var params: Params
    var showCritical: bool
    var hasUpdated: bool
    var tutorialPage: int
    var showInstructions: bool
    var layout: Layout

    /** Four sliders with the program's ranges, a page among the five, a window at least 1000 wide. */
    predicate Valid()
      reads this
    {
      |sliders| == 4 && AllValid(sliders) &&
      (forall i :: 0 <= i < 4 ==> sliders[i].lo == Lows[i] && sliders[i].hi == Highs[i]) &&
      0 <= tutorialPage < TutorialPages && width >= 1000
    }

    /**
     * Start-up: the menu, df 3, alpha 0.05, axis limit 20, five curves, the
     * critical value for them, the critical region shown, sliders placed by
     * the layout of a 1200 x 800 window, nothing updated yet.
     */
    constructor (ppf: QuantileRoutine)
      ensures Valid()
      ensures screen == Menu && width == 1200 && height == 800 && tutorialPage == 0
      ensures layout == CalculateLayout(1200, 800)
      ensures forall k :: 0 <= k < 4 ==>
        sliders[k].x == layout.sliderColumn && sliders[k].y == Row(layout, k) && sliders[k].width == layout.sliderWidth
      ensures [sliders[0].value, sliders[1].value, sliders[2].value, sliders[3].value] == [3.0, 0.05, 20.0, 5.0]
      ensures params == Params(3, 0.05, 20.0, 5, ppf(1.0 - 0.05, 3))
      ensures showCritical && !hasUpdated
    {
      width, height, screen := 1200, 800, Menu;
      var l := CalculateLayout(1200, 800);
      layout := l;
      sliders := [
        Placed(Slider(0.0, 0.0, 200.0, 3.0, 1.0, 30.0, false), l, 0),
        Placed(Slider(0.0, 0.0, 200.0, 0.05, 0.01, 0.2, false), l, 1),
        Placed(Slider(0.0, 0.0, 200.0, 20.0, 5.0, 40.0, false), l, 2),
        Placed(Slider(0.0, 0.0, 200.0, 5.0, 1.0, 5.0, false), l, 3)];
      params := Params(3, 0.05, 20.0, 5, ppf(1.0 - 0.05, 3));
      showCritical := true;
      hasUpdated := false;
      tutorialPage := 0;
      showInstructions := true;
    }

    /** `update_parameters`: the parameters follow the sliders and the chart is marked as updated. */
    method Update(ppf: QuantileRoutine)
      requires Valid()
      modifies this`params, this`hasUpdated
      ensures params == ParamsFrom(sliders, ppf) && hasUpdated
      ensures params.df == Trunc(sliders[0].value) && 1 <= params.df <= 30
      ensures params.alpha == sliders[1].value && 1 <= params.curves <= 5
      ensures |ExtraDfs(params.df, params.curves)| <= 3
    {
      params := ParamsFrom(sliders, ppf);
      hasUpdated := true;
      ParametersOnSliderRanges(sliders[0].value, sliders[1].value, sliders[2].value, sliders[3].value, ppf);
    }

    /**
     * VIDEORESIZE: the window is kept at least at the computed minimum
     * width, 1000 and the minimum height; the layout is recomputed, every
     * slider moves to its row and no slider stays grabbed.
     */
    method Resize(w: int, h: int)
      requires Valid()
      modifies this`width, this`height, this`layout, this`sliders
      ensures Valid()
      ensures width == MaxI(w, 1000) && height == MaxI(h, MinHeight())
      ensures layout == CalculateLayout(width, height)
      ensures forall k :: 0 <= k < 4 ==> sliders[k] == Placed(old(sliders[k]), layout, k).(dragging := false)
    {
      ComputedMinWidthNeverBinds(w);
      width, height := MaxI(MaxI(w, MinWidth), 1000), MaxI(h, MinHeight());
      var l := CalculateLayout(width, height);
      layout := l;
      var placed := [Placed(sliders[0], l, 0), Placed(sliders[1], l, 1), Placed(sliders[2], l, 2), Placed(sliders[3], l, 3)];
      var released;
      sliders, released := ReleaseAll(placed);
    }

    /** KEYDOWN Escape: back to the menu from any other screen. */
    method Escape()
      modifies this`screen
      ensures screen == Menu
    {
      if screen != Menu {
        screen := Menu;
      }
    }

    /** MOUSEBUTTONDOWN on the menu: Start enters the viewer with the parameters applied, Tutorial opens page 0. */
    method ClickMenu(x: real, y: real, ppf: QuantileRoutine)
      requires Valid() && screen == Menu
      modifies this`screen, this`tutorialPage, this`params, this`hasUpdated
      ensures Valid()
      ensures var (start, tutorial) := MenuButtons(width, height);
        && (start.Contains(x, y) ==>
              screen == Game && params == ParamsFrom(sliders, ppf) && hasUpdated && tutorialPage == old(tutorialPage))
        && (!start.Contains(x, y) && tutorial.Contains(x, y) ==>
              screen == Tutorial && tutorialPage == 0 && unchanged(this`params, this`hasUpdated))
        && (!start.Contains(x, y) && !tutorial.Contains(x, y) ==>
              unchanged(this`screen, this`tutorialPage, this`params, this`hasUpdated))
    {
      var (start, tutorial) := MenuButtons(width, height);
      if start.Contains(x, y) {
        screen := Game;
        Update(ppf);
      } else if tutorial.Contains(x, y) {
        screen := Tutorial;
        tutorialPage := 0;
      }
    }

    /**
     * MOUSEBUTTONDOWN on the tutorial: Menu leaves, Back goes back a page
     * when there is one, Next advances, and from the last page enters the
     * viewer with the parameters applied. The page stays within the five
     * pages.
     */
    method ClickTutorial(x: real, y: real, ppf: QuantileRoutine)
      requires Valid() && screen == Tutorial
      modifies this`screen, this`tutorialPage, this`params, this`hasUpdated
      ensures Valid()
      ensures var (back, next) := TutorialButtons(width, height);
        && (BackButton.Contains(x, y) ==>
              screen == Menu && unchanged(this`tutorialPage, this`params, this`hasUpdated))
        && (!BackButton.Contains(x, y) && back.Contains(x, y) && old(tutorialPage) > 0 ==>
              screen == Tutorial && tutorialPage == old(tutorialPage) - 1 && unchanged(this`params, this`hasUpdated))
        && (!BackButton.Contains(x, y) && !(back.Contains(x, y) && old(tutorialPage) > 0) && next.Contains(x, y) ==>
              if old(tutorialPage) < TutorialPages - 1
              then screen == Tutorial && tutorialPage == old(tutorialPage) + 1 && unchanged(this`params, this`hasUpdated)
              else screen == Game && tutorialPage == old(tutorialPage) && params == ParamsFrom(sliders, ppf) && hasUpdated)
        && (!BackButton.Contains(x, y) && !(back.Contains(x, y) && old(tutorialPage) > 0) && !next.Contains(x, y) ==>
              unchanged(this`screen, this`tutorialPage, this`params, this`hasUpdated))
    {
      var (back, next) := TutorialButtons(width, height);
      if BackButton.Contains(x, y) {
        screen := Menu;
      } else if back.Contains(x, y) && tutorialPage > 0 {
        tutorialPage := tutorialPage - 1;
      } else if next.Contains(x, y) {
        if tutorialPage < TutorialPages - 1 {
          tutorialPage := tutorialPage + 1;
        } else {
          screen := Game;
          Update(ppf);
        }
      }
    }

    /**
     * MOUSEBUTTONDOWN in the viewer: the instruction toggle, then Menu /
     * Update / Toggle Critical (which flips the critical region and applies
     * the parameters), then every slider whose track is hit jumps to the
     * cursor. A slider press alone applies nothing.
     */
    method ClickGame(x: real, y: real, ppf: QuantileRoutine)
      requires Valid() && screen == Game
      modifies this`showInstructions, this`screen, this`params, this`hasUpdated, this`showCritical, this`sliders
      ensures Valid()
      ensures showInstructions == (old(showInstructions) != layout.toggle.Contains(x, y))
      ensures BackButton.Contains(x, y) ==>
        screen == Menu && unchanged(this`params, this`hasUpdated, this`showCritical)
      ensures !BackButton.Contains(x, y) && layout.updateButton.Contains(x, y) ==>
        screen == Game && params == ParamsFrom(old(sliders), ppf) && hasUpdated && unchanged(this`showCritical)
      ensures !BackButton.Contains(x, y) && !layout.updateButton.Contains(x, y) && layout.criticalButton.Contains(x, y) ==>
        screen == Game && params == ParamsFrom(old(sliders), ppf) && hasUpdated && showCritical == !old(showCritical)
      ensures !BackButton.Contains(x, y) && !layout.updateButton.Contains(x, y) && !layout.criticalButton.Contains(x, y) ==>
        screen == Game && unchanged(this`params, this`hasUpdated, this`showCritical)
      ensures forall k :: 0 <= k < 4 ==> sliders[k] == Press(old(sliders[k]), x, y)
    {
      ButtonsGame(x, y, ppf);
      PressSliders(x, y);
    }

    /** The toggle and the Menu / Update / Toggle Critical branch of a click in the viewer. */
    method ButtonsGame(x: real, y: real, ppf: QuantileRoutine)
      requires Valid() && screen == Game
      modifies this`showInstructions, this`screen, this`params, this`hasUpdated, this`showCritical
      ensures Valid()
      ensures showInstructions == (old(showInstructions) != layout.toggle.Contains(x, y))
      ensures BackButton.Contains(x, y) ==>
        screen == Menu && unchanged(this`params, this`hasUpdated, this`showCritical)
      ensures !BackButton.Contains(x, y) && layout.updateButton.Contains(x, y) ==>
        screen == Game && params == ParamsFrom(sliders, ppf) && hasUpdated && unchanged(this`showCritical)
      ensures !BackButton.Contains(x, y) && !layout.updateButton.Contains(x, y) && layout.criticalButton.Contains(x, y) ==>
        screen == Game && params == ParamsFrom(sliders, ppf) && hasUpdated && showCritical == !old(showCritical)
      ensures !BackButton.Contains(x, y) && !layout.updateButton.Contains(x, y) && !layout.criticalButton.Contains(x, y) ==>
        screen == Game && unchanged(this`params, this`hasUpdated, this`showCritical)
    {
      if layout.toggle.Contains(x, y) {
        showInstructions := !showInstructions;
      }
      if BackButton.Contains(x, y) {
        screen := Menu;
      } else if layout.updateButton.Contains(x, y) {
        Update(ppf);
      } else if layout.criticalButton.Contains(x, y) {
        showCritical := !showCritical;
        Update(ppf);
      }
    }

    /** The slider loop of a click: every slider whose track is hit is grabbed and jumps to the cursor. */
    method PressSliders(x: real, y: real)
      requires Valid()
      modifies this`sliders
      ensures Valid()
      ensures forall k :: 0 <= k < 4 ==> sliders[k] == Press(old(sliders[k]), x, y)
    {
      var hit;
      sliders, hit := PressAll(sliders, x, y);
    }

    /** MOUSEBUTTONUP: every slider stops dragging and keeps its value; nothing is applied. */
    method Release()
      requires Valid()
      modifies this`sliders
      ensures Valid()
      ensures forall k :: 0 <= k < 4 ==> sliders[k] == old(sliders[k]).(dragging := false)
    {
      var released;
      sliders, released := ReleaseAll(sliders);
    }

    /** MOUSEMOTION: sliders being dragged follow the cursor; nothing is applied. */
    method Motion(x: real)
      requires Valid()
      modifies this`sliders
      ensures Valid()
      ensures forall k :: 0 <= k < 4 ==> sliders[k] == Drag(old(sliders[k]), x)
    {
      var moved;
      sliders, moved := DragAll(sliders, x);
    }
  }
}

=== FILE: chisq_layout.dfy ===
/**
 * The window layout of the chi-square distribution viewer: results line,
 * chart, instructions, one parameter panel with four slider rows, and the
 * Update and Toggle buttons, with the panel shrunk (down to a floor) when
 * the window is short, and the minimum window size the resize handler
 * enforces.
 */
module ChiSquareLayout {
  import opened Widgets

  const HeaderHeight: real := 60.0
  const ResultMargin: real := 20.0
  const PanelMargin: real := 15.0
  const HMargin: real := 20.0
  const TitleHeight: real := 40.0
  const LabelColumnWidth: real := 160.0
  const ValueColumnWidth: real := 50.0
  const SliderMinWidth: real := 150.0
  const LabelSliderGap: real := 20.0
  const SliderValueGap: real := 16.0
  const ButtonWidth: real := 200.0
  const ButtonHeight: real := 40.0

  /** Label column, slider, value column and both margins side by side: 436. */
  const MinPanelWidth: real := LabelColumnWidth + SliderMinWidth + ValueColumnWidth + LabelSliderGap + SliderValueGap + HMargin * 2.0

  /** The nominal panel height and the room it needs with its margins and the buttons: 265. */
  const PanelHeight: int := 180
  const NeededRoom: real := 180.0 + PanelMargin * 3.0 + ButtonHeight

  /** The dictionary `calculate_layout` returns, with the panel's slider grid and the two buttons. */
  datatype Layout = Layout(
    results: Rect, chart: Rect, instructions: Rect, panel: Rect, toggle: Rect,
    updateButton: Rect, criticalButton: Rect,
    sliderColumn: real, sliderWidth: real, rowHeight: real)

  /** The centre line of slider row k (0 to 3): half a row into the k-th band below the title. */
  function Row(l: Layout, k: nat): real {
    l.panel.top + TitleHeight + l.rowHeight * (k as real + 0.5)
  }

  /**
   * The panel height for the room left below the instructions: nominal
   * when the room suffices, otherwise scaled by the shortfall and floored
   * at 120.
   */
  function PanelHeightFor(room: real): (ph: int)
    ensures 120 <= ph <= PanelHeight
    ensures ph == PanelHeight <==> room >= NeededRoom
    ensures room < NeededRoom ==>
      ph as real <= MaxR(120.0, 180.0 * (room / NeededRoom)) && ph as real > 180.0 * (room / NeededRoom) - 1.0
  {
    if NeededRoom > room then
      var scaled := Trunc(180.0 * (room / NeededRoom));
      assert 180.0 * (room / NeededRoom) < 180.0;
      if scaled >= 120 then scaled else 120
    else PanelHeight
  }

  /** Regions that follow each other from top to bottom, each PANEL_MARGIN below the previous one. */
  predicate Stacked(l: Layout) {
    l.chart.top == l.results.Bottom() + PanelMargin &&
    l.instructions.top == l.chart.Bottom() + PanelMargin &&
    l.panel.top == l.instructions.Bottom() + PanelMargin
  }

  /** `calculate_layout` for a window of the given size. */
  function CalculateLayout(W: int, H: int): (l: Layout)
    ensures Stacked(l) && l.results.top == HeaderHeight + ResultMargin
    ensures l.chart.height <= 450.0 && l.chart.width <= 800.0
    ensures 120.0 <= l.panel.height <= 180.0
    ensures l.panel.height == 180.0 <==> H as real - l.instructions.Bottom() - PanelMargin >= NeededRoom
    ensures l.panel.top + TitleHeight < Row(l, 0) < Row(l, 1) < Row(l, 2) < Row(l, 3) < l.panel.Bottom()
    ensures l.rowHeight >= 15.0
    ensures l.updateButton.Bottom() + PanelMargin <= H as real
    ensures l.updateButton.height == ButtonHeight == l.criticalButton.height
    ensures l.updateButton.width == ButtonWidth == l.criticalButton.width
    ensures l.criticalButton.top == l.updateButton.top && l.criticalButton.left == l.updateButton.Right() + 20.0
    ensures l.sliderColumn == l.panel.left + HMargin + LabelColumnWidth + LabelSliderGap
    ensures l.sliderColumn + l.sliderWidth + SliderValueGap + ValueColumnWidth + HMargin == l.panel.Right()
    ensures l.sliderWidth >= SliderMinWidth
    ensures W >= 1000 ==> 200.0 <= l.panel.left && l.panel.Right() <= W as real - 200.0
    ensures l.toggle == Rect(l.panel.left, l.instructions.top, 30.0, 30.0)
  {
    var w, h := W as real, H as real;
    var available := h - HeaderHeight - PanelMargin;
    var resultsTop := HeaderHeight + ResultMargin;
    var remaining := available - 40.0 - ResultMargin;
    var chartHeight := MinR(remaining * 0.5, 450.0);
    var chartWidth := MinR(w * 0.7, 800.0);
    var chartLeft := Half(w - chartWidth);
    var chartTop := resultsTop + 40.0 + PanelMargin;
    var instructionsTop := chartTop + chartHeight + PanelMargin;
    var room := h - instructionsTop - 40.0 - PanelMargin;
    var ph := PanelHeightFor(room);
    var panelWidth := MaxR(MinR(w * 0.8, 600.0), MinPanelWidth);
    var panelLeft := Half(w - panelWidth);
    var panelTop := instructionsTop + 40.0 + PanelMargin;
    var rowHeight := (ph as real - TitleHeight - 20.0) / 4.0;
    var top0 := panelTop + ph as real + PanelMargin;
    var buttonTop := if top0 + ButtonHeight + PanelMargin > h then h - ButtonHeight - PanelMargin else top0;
    var leftButton := ((W - 2 * 200 - 20) / 2) as real;
    Layout(
      Rect(chartLeft, resultsTop, chartWidth, 40.0),
      Rect(chartLeft, chartTop, chartWidth, chartHeight),
      Rect(panelLeft, instructionsTop, w - 2.0 * panelLeft, 40.0),
      Rect(panelLeft, panelTop, panelWidth, ph as real),
      Rect(panelLeft, instructionsTop, 30.0, 30.0),
      Rect(leftButton, buttonTop, ButtonWidth, ButtonHeight),
      Rect(leftButton + ButtonWidth + 20.0, buttonTop, ButtonWidth, ButtonHeight),
      panelLeft + HMargin + LabelColumnWidth + LabelSliderGap,
      panelWidth - LabelColumnWidth - ValueColumnWidth - HMargin * 2.0 - LabelSliderGap - SliderValueGap,
      rowHeight)
  }

  /** `calculate_min_height`: the component minimums and their margins, but never below 700. */
  function MinHeight(): (h: int)
    ensures h >= 700
  {
    var sum := 60 + 20 + 40 + 15 + 300 + 15 + 40 + 15 + 120 + 15 * 3 + 40 + 15;
    if sum >= 700 then sum else 700
  }

  /** The resize handler's computed minimum width. */
  const MinWidth: int := 2 * (160 + 150 + 50) + 15 * 3 + 20 * 4

  /**
   * The resize handler keeps the width at least the computed minimum and at
   * least 1000; the computed minimum is the smaller floor, so only 1000 binds.
   */
  lemma ComputedMinWidthNeverBinds(w: int)
    ensures MinWidth < 1000
    ensures MaxI(MaxI(w, MinWidth), 1000) == MaxI(w, 1000)
  {
  }

  /**
   * At any height the resize handler allows, the panel may be shrunk but
   * keeps at least 152 px (rows at least 23 px apart), and the buttons keep
   * their place one margin below it, so every region lies below the
   * previous one.
   */
  lemma FitsAtMinHeight(W: int, H: int)
    requires H >= MinHeight()
    ensures var l := CalculateLayout(W, H);
      l.panel.height >= 152.0 && l.rowHeight >= 23.0 &&
      l.updateButton.top == l.panel.Bottom() + PanelMargin && l.chart.height > 0.0 &&
      Above(l.results, l.chart) && Above(l.chart, l.instructions) && Above(l.instructions, l.panel) &&
      Above(l.panel, l.updateButton)
  {
    var l := CalculateLayout(W, H);
    var h := H as real;
    var room := h - l.instructions.Bottom() - PanelMargin;
    assert l.chart.height <= 0.5 * (h - 135.0);
    assert room >= 225.0;
    if room < NeededRoom {
      assert 180.0 * (room / NeededRoom) >= 152.0;
      assert l.panel.height as real <= 180.0 * (room / NeededRoom);
      assert 180.0 * (room / NeededRoom) + 70.0 <= room;
    }
  }

  /** The hit area of the slider track in row k. */
  function RowHitRect(l: Layout, k: nat): Rect {
    Rect(l.sliderColumn - 5.0, Row(l, k) - 10.0, l.sliderWidth + 10.0, 20.0)
  }

  /** Rows i < j of a layout whose rows are at least 20 apart lie at least 20 apart. */
  lemma RowsApart(l: Layout, i: nat, j: nat)
    requires l.rowHeight >= 20.0 && i < j
    ensures Row(l, i) + 20.0 <= Row(l, j)
  {
    var d := (j - i) as real;
    assert l.rowHeight * (j as real + 0.5) == l.rowHeight * (i as real + 0.5) + l.rowHeight * d;
    MulNonNeg(l.rowHeight, d - 1.0);
  }

  /** At any height the resize handler allows, the four slider hit areas never overlap. */
  lemma SliderHitAreasDisjoint(W: int, H: int, i: nat, j: nat)
    requires H >= MinHeight() && i < j < 4
    ensures Disjoint(RowHitRect(CalculateLayout(W, H), i), RowHitRect(CalculateLayout(W, H), j))
  {
    FitsAtMinHeight(W, H);
    RowsApart(CalculateLayout(W, H), i, j);
  }
}

=== FILE: chisq_params.dfy ===
/**
 * The parameters of the chi-square distribution viewer: how
 * `update_parameters` turns the four slider values into degrees of
 * freedom, significance level, axis limit and number of curves, and which
 * extra curves the chart draws beside the main one.
 */
module ChiSquareParams {
  import opened Widgets

  /** `stats.chi2.ppf(q, df)`. */
  type QuantileRoutine = (real, int) -> real

  /** The globals `update_parameters` assigns. */
  datatype Params = Params(df: int, alpha: real, maxX: real, curves: int, critical: real)

  /**
   * `update_parameters`: df is the slider value truncated but at least 1,
   * alpha is clamped to [0.01, 0.2], the curve count is truncated, and the
   * critical value is the upper alpha quantile for df.
   */
  function UpdateParameters(dfValue: real, alphaValue: real, maxXValue: real, curvesValue: real,
                            ppf: QuantileRoutine): (p: Params)
    ensures p.df >= 1 && (Trunc(dfValue) >= 1 ==> p.df == Trunc(dfValue)) && (Trunc(dfValue) < 1 ==> p.df == 1)
    ensures 0.01 <= p.alpha <= 0.2 && (0.01 <= alphaValue <= 0.2 ==> p.alpha == alphaValue)
    ensures alphaValue < 0.01 ==> p.alpha == 0.01
    ensures alphaValue > 0.2 ==> p.alpha == 0.2
    ensures p.maxX == maxXValue && p.curves == Trunc(curvesValue)
    ensures p.critical == ppf(1.0 - p.alpha, p.df)
  {
    var df := if 1 >= Trunc(dfValue) then 1 else Trunc(dfValue);
    var alpha := Clamp(0.01, 0.2, alphaValue);
    Params(df, alpha, maxXValue, Trunc(curvesValue), ppf(1.0 - alpha, df))
  }

  /** On the program's slider ranges the floors never bind: df in 1..30, 1 to 5 curves. */
  lemma ParametersOnSliderRanges(dfValue: real, alphaValue: real, maxXValue: real, curvesValue: real,
                                 ppf: QuantileRoutine)
    requires 1.0 <= dfValue <= 30.0 && 0.01 <= alphaValue <= 0.2 && 1.0 <= curvesValue <= 5.0
    ensures var p := UpdateParameters(dfValue, alphaValue, maxXValue, curvesValue, ppf);
      p.df == Trunc(dfValue) && 1 <= p.df <= 30 && p.alpha == alphaValue && 1 <= p.curves <= 5
  {
  }

  /** `int(min(num_distributions, 5))`, the end of the extra-curve loop. */
  function CurveBound(curves: int): int {
    if curves <= 5 then curves else 5
  }

  /**
   * The extra-curve loop from index i on: curve i has df max(1, df - 2 + 2i)
   * and is left out when that equals the main df. From i = 2 on, every
   * candidate is kept and the list counts up in steps of two.
   */
  function ExtraFrom(df: int, i: int, stop: int): (r: seq<int>)
    decreases stop - i
    ensures forall k :: 0 <= k < |r| ==> r[k] >= 1 && r[k] != df
    ensures df >= 1 && i >= 2 ==>
      |r| == (if stop > i then stop - i else 0) &&
      forall k :: 0 <= k < |r| ==> r[k] == df + 2 * (i + k) - 2
  {
    if i >= stop then []
    else
      var candidate := if 1 >= df - 2 + i * 2 then 1 else df - 2 + i * 2;
      (if candidate != df then [candidate] else []) + ExtraFrom(df, i + 1, stop)
  }

  /**
   * The degrees of freedom of the extra curves: for a df of at least 1,
   * the first candidate is the main df itself and is skipped, so the curves
   * are df + 2, df + 4, ... and there are at most three of them.
   */
  function ExtraDfs(df: int, curves: int): (r: seq<int>)
    ensures forall k :: 0 <= k < |r| ==> r[k] >= 1 && r[k] != df
    ensures df >= 1 ==>
      |r| == (if CurveBound(curves) > 2 then CurveBound(curves) - 2 else 0) && |r| <= 3 &&
      forall k :: 0 <= k < |r| ==> r[k] == df + 2 * (k + 1)
  {
    ExtraFrom(df, 1, CurveBound(curves))
  }

  /** The extra curves are all different: the list is strictly increasing. */
  lemma ExtraDfsDistinct(df: int, curves: int)
    requires df >= 1
    ensures forall j, k :: 0 <= j < k < |ExtraDfs(df, curves)| ==> ExtraDfs(df, curves)[j] < ExtraDfs(df, curves)[k]
  {
  }
}

=== FILE: moments.dfy ===
/**
 * The sample statistics the paired and the one-sample t-test programs
 * compute with numpy before handing the data to scipy: sums, means, the
 * n - 1 sample variance behind `np.std(x, ddof=1)`, and elementwise
 * differences. Square roots and Student-t quantiles come from the
 * libraries and are parameters here.
 */
module Moments {

  /** `np.sqrt` on a non-negative number. */
  type SqrtRoutine = real -> real

  /** `stats.t.ppf(q, df)`. */
  type TQuantileRoutine = (real, int) -> real

  /** A square-root routine that is exact: non-negative, squaring back to its argument, and 0 at 0. */
  ghost predicate IsSqrt(sqrt: SqrtRoutine) {
    sqrt(0.0) == 0.0 && forall x :: 0.0 <= x ==> 0.0 <= sqrt(x) && sqrt(x) * sqrt(x) == x
  }

  function Sum(s: seq<real>): real {
    if |s| == 0 then 0.0 else s[0] + Sum(s[1..])
  }

  function Mean(s: seq<real>): real
    requires |s| > 0
  {
    Sum(s) / |s| as real
  }

  /** The sum of squared deviations from m. */
  function SquaredDeviations(s: seq<real>, m: real): (r: real)
    ensures r >= 0.0
  {
    if |s| == 0 then 0.0
    else
      var d := s[0] - m;
      assert d * d >= 0.0 by { Square(d); }
      d * d + SquaredDeviations(s[1..], m)
  }

  lemma Square(x: real)
    ensures x * x >= 0.0
  {
    if x < 0.0 {
      assert x * x == (-x) * (-x);
    }
  }

  /** The sample variance with n - 1 in the denominator. */
  function SampleVariance(s: seq<real>): (v: real)
    requires |s| >= 2
    ensures v >= 0.0
  {
    SquaredDeviations(s, Mean(s)) / (|s| - 1) as real
  }

  /** `np.std(s, ddof=1)`. */
  function SampleStd(s: seq<real>, sqrt: SqrtRoutine): (sd: real)
    requires |s| >= 2 && IsSqrt(sqrt)
    ensures sd >= 0.0 && sd * sd == SampleVariance(s)
  {
    sqrt(SampleVariance(s))
  }

  /** `np.std(s, ddof=1) / np.sqrt(len(s))`, the standard error of the mean. */
  function StandardError(s: seq<real>, sqrt: SqrtRoutine): (se: real)
    requires |s| >= 2 && IsSqrt(sqrt)
    ensures se >= 0.0 && se * se * |s| as real == SampleVariance(s)
  {
    var root := sqrt(|s| as real);
    DivideByRoot(SampleStd(s, sqrt), root, |s| as real, SampleVariance(s));
    SampleStd(s, sqrt) / root
  }

  /** sd / root squared and scaled by root * root gives back sd * sd. */
  lemma DivideByRoot(sd: real, root: real, n: real, v: real)
    requires sd >= 0.0 && root >= 0.0 && root * root == n && n > 0.0 && sd * sd == v
    ensures root > 0.0 && sd / root >= 0.0 && (sd / root) * (sd / root) * n == v
  {
    var se := sd / root;
    assert se * root == sd;
    assert (se * root) * (se * root) == se * se * (root * root);
  }

  /** numpy's `a - b` on two arrays of the same length. */
  function Differences(a: seq<real>, b: seq<real>): seq<real>
    requires |a| == |b|
  {
    seq(|a|, i requires 0 <= i < |a| => a[i] - b[i])
  }

  /** Summing the differences is the difference of the sums. */
  lemma {:induction false} SumOfDifferences(a: seq<real>, b: seq<real>)
    requires |a| == |b|
    ensures Sum(Differences(a, b)) == Sum(a) - Sum(b)
  {
    if |a| > 0 {
      assert Differences(a, b)[1..] == Differences(a[1..], b[1..]);
      SumOfDifferences(a[1..], b[1..]);
    }
  }

  /** The mean of the differences is the difference of the means. */
  lemma MeanOfDifferences(a: seq<real>, b: seq<real>)
    requires |a| == |b| > 0
    ensures Mean(Differences(a, b)) == Mean(a) - Mean(b)
  {
    SumOfDifferences(a, b);
  }

  /** A sample whose entries all equal c sums to n * c and has no deviations from c. */
  lemma {:induction false} ConstantSample(s: seq<real>, c: real)
    requires forall i :: 0 <= i < |s| ==> s[i] == c
    ensures Sum(s) == |s| as real * c && SquaredDeviations(s, c) == 0.0
  {
    if |s| > 0 {
      ConstantSample(s[1..], c);
    }
  }

  /** A constant sample has that constant as its mean and no spread. */
  lemma ConstantSampleHasNoSpread(s: seq<real>, c: real)
    requires |s| >= 2 && forall i :: 0 <= i < |s| ==> s[i] == c
    ensures Mean(s) == c && SampleVariance(s) == 0.0
  {
    ConstantSample(s, c);
  }
}

=== FILE: one_sample_app.dfy ===
/**
 * The event loop of the one-sample t-test program: the value grid whose
 * cells are selected by a click and edited by a vertical drag, the slider
 * that sets the hypothesised mean, the Reset Data and Toggle Info buttons,
 * and the resize handler.
 */
module OneSampleApp {
  import opened Widgets
  import TC = ThreeColumns
  import opened OneSampleGrid

  /** The ten sample values the program starts with (an integer array). */
  const OriginalData: seq<int> := [86, 73, 50, 73, 24, 65, 84, 54, 16, 26]

  /** The hypothesised mean the program starts with. */
  const InitialMean: real := 43.4

  /** The shared three-column layout with the chart shortened by 60 px, and the test-value slider's track. */
  datatype Layout = Layout(panels: TC.Layout, slider: Rect)

  /**
   * `calculate_layout`: the shared layout with the chart 60 px shorter. The
   * slider track sits 95 px under the chart, 50 px in from either side of
   * the middle column, at least 300 px long and 10 px high.
   */
  function CalculateLayout(W: int, H: int): (l: Layout)
    ensures var base := TC.CalculateLayout(W, H);
      l.panels == base.(vis := base.vis.(height := base.vis.height - 60.0))
    ensures l.slider.left == l.panels.vis.left + 50.0 && l.slider.Right() + 50.0 == l.panels.vis.Right()
    ensures l.slider.width >= 300.0 && l.slider.height == 10.0
    ensures l.slider.top == (l.panels.controlsTop + 15) as real && l.panels.vis.Bottom() + 95.0 == l.slider.top
  {
    var base := TC.CalculateLayout(W, H);
    Layout(
      base.(vis := base.vis.(height := base.vis.height - 60.0)),
      Rect(base.vis.left + 50.0, (base.controlsTop + 15) as real, base.vis.width - 100.0, 10.0))
  }

  /**
   * Where `calculate_layout` puts the slider handle for the mean mu: a mean
   * in [0, 100] puts it on the track, 0 at its left end and 100 at its
   * right end.
   */
  function RestingPos(l: Layout, mu: real): (pos: real)
    ensures l.slider.width >= 0.0 && 0.0 <= mu <= 100.0 ==> l.slider.left <= pos <= l.slider.Right()
    ensures mu == 0.0 ==> pos == l.slider.left
    ensures mu == 100.0 ==> pos == l.slider.Right()
  {
    if l.slider.width >= 0.0 && 0.0 <= mu <= 100.0 then
      MulNonNeg(l.slider.width, mu);
      MulNonNeg(l.slider.width, 100.0 - mu);
      l.slider.left + l.slider.width * mu / 100.0
    else l.slider.left + l.slider.width * mu / 100.0
  }

  /** The slider's click area: its pygame rectangle grown by 10 px on every side. */
  function Expanded(p: TC.PixelRect): TC.PixelRect {
    TC.PixelRect(p.left - 10, p.top - 10, p.width + 20, p.height + 20)
  }

  /** The hypothesised mean for a handle position: its share of the track, clamped to [0, 100]. */
  function SliderValue(p: TC.PixelRect, pos: real): (mu: real)
    requires p.width > 0
    ensures 0.0 <= mu <= 100.0
    ensures p.left as real <= pos <= (p.left + p.width) as real ==>
      (p.left as real + p.width as real * mu / 100.0 == pos)
  {
    Clamp(0.0, 100.0, (pos - p.left as real) / p.width as real * 100.0)
  }

  /** Moving the handle to the right never lowers the mean. */
  lemma SliderValueMonotone(p: TC.PixelRect, pos1: real, pos2: real)
    requires p.width > 0 && pos1 <= pos2
    ensures SliderValue(p, pos1) <= SliderValue(p, pos2)
  {
    var w := p.width as real;
    var r1, r2 := (pos1 - p.left as real) / w, (pos2 - p.left as real) / w;
    assert r2 - r1 == (pos2 - pos1) / w;
    assert r1 * 100.0 <= r2 * 100.0;
  }

  /** The handle position during a drag: the cursor's x clamped to the track. */
  function DragPos(p: TC.PixelRect, mouseX: int): (pos: int)
    requires p.width >= 0
    ensures p.left <= pos <= p.left + p.width
    ensures p.left <= mouseX <= p.left + p.width ==> pos == mouseX
  {
    if mouseX < p.left then p.left else if mouseX > p.left + p.width then p.left + p.width else mouseX
  }

  /**
   * At every size the resize handler allows, the slider's track is at
   * least 300 px long, and its click area reaches neither the data table
   * nor either button, so a press on it is never also a press on them.
   */
  lemma SliderClear(W: int, H: int, x: int, y: int)
    requires W >= TC.MinWidth && H >= TC.MinHeight
    ensures var l := CalculateLayout(W, H);
      var s := TC.Pixels(l.slider);
      s.width >= 300 &&
      (Expanded(s).Contains(x, y) ==>
         !TC.Pixels(l.panels.data).Contains(x, y) &&
         !l.panels.resetButton.Contains(x as real, y as real) &&
         !l.panels.infoButton.Contains(x as real, y as real))
  {
    var l := CalculateLayout(W, H);
    TC.PanelsApart(W, H);
    TC.DataPanelAtAllowedSizes(W, H);
  }

  /** The data table's panel in pygame pixels and its grid, in a window of the given size. */
  function DataPanel(W: int, H: int): TC.PixelRect {
    TC.Pixels(CalculateLayout(W, H).panels.data)
  }

  /**
   * The value a press at (x, y) selects in a window of the given size, by
   * the handler as written: the floor quotients of the offsets from the
   * first cell combined into an index, kept when it lies in [0, n).
   */
  function PointAt(W: int, H: int, x: int, y: int): (r: Option<nat>)
    requires W >= TC.MinWidth && H >= TC.MinHeight
    ensures r.Some? ==> r.value < |OriginalData| && DataPanel(W, H).Contains(x, y)
  {
    var p := DataPanel(W, H);
    assert Fits(p, GridFor(p, |OriginalData|)) by {
      assert CalculateLayout(W, H).panels.data == TC.CalculateLayout(W, H).data;
      GridAtAllowedSizes(W, H);
    }
    HitAsWritten(p, GridFor(p, |OriginalData|), |OriginalData|, x, y)
  }

  /**
   * A press in the data panel and in value i's cell of the table's grid
   * selects i; a press outside the panel selects nothing.
   */
  lemma PointAtIsCell(W: int, H: int, x: int, y: int, i: nat)
    requires W >= TC.MinWidth && H >= TC.MinHeight && i < |OriginalData|
    ensures var p := DataPanel(W, H);
      var g := GridFor(p, |OriginalData|);
      g.cols > 0 &&
      (p.Contains(x, y) && InCell(g, i, x, y) ==> PointAt(W, H, x, y) == Some(i)) &&
      (!p.Contains(x, y) ==> PointAt(W, H, x, y) == None)
  {
    var p := DataPanel(W, H);
    var g := GridFor(p, |OriginalData|);
    assert CalculateLayout(W, H).panels.data == TC.CalculateLayout(W, H).data;
    GridAtAllowedSizes(W, H);
    if p.Contains(x, y) && InCell(g, i, x, y) {
      HitFindsCell(p, g, |OriginalData|, x, y, i);
    }
  }

  /**
   * In the start-up window a press 5 px left of the first column, on the
   * second row, selects value 2 although it lies in no cell of the grid.
   */
  lemma PointAtLeftOfFirstColumn()
    ensures var p := DataPanel(1200, 800);
      var g := GridFor(p, |OriginalData|);
      g.cols > 0 && PointAt(1200, 800, 845, 175) == Some(2) &&
      forall i :: 0 <= i < |OriginalData| ==> !InCell(g, i, 845, 175)
  {
    assert CalculateLayout(1200, 800).panels.data == TC.CalculateLayout(1200, 800).data;
    AsWrittenSelectsOutsideCell();
    var p := DataPanel(1200, 800);
    var g := GridFor(p, |OriginalData|);
    assert g == Grid(840, 80, 3, 100, 30);
  }

  /** The part of the program's state a mouse press can change. */
  datatype State = State(data: seq<int>, mu: real, sliderPos: real, sliderDragging: bool,
                         selectedPoint: Option<nat>, dragging: bool, showInfo: bool)

  /**
   * The two buttons: Reset Data restores the original values and clears
   * the selection, otherwise Toggle Info flips the info flag.
   */
  function PressButtonsStep(l: Layout, x: int, y: int, s: State): (r: State)
    ensures r.mu == s.mu && r.sliderPos == s.sliderPos && r.sliderDragging == s.sliderDragging && r.dragging == s.dragging
    ensures l.panels.resetButton.Contains(x as real, y as real) ==>
      r.data == OriginalData && r.selectedPoint == None && r.showInfo == s.showInfo
    ensures !l.panels.resetButton.Contains(x as real, y as real) ==>
      r.data == s.data && r.selectedPoint == s.selectedPoint &&
      (r.showInfo != s.showInfo <==> l.panels.infoButton.Contains(x as real, y as real))
  {
    if l.panels.resetButton.Contains(x as real, y as real) then s.(data := OriginalData, selectedPoint := None)
    else if l.panels.infoButton.Contains(x as real, y as real) then s.(showInfo := !s.showInfo)
    else s
  }

  /**
   * The slider: a press in its click area starts a drag, puts the handle
   * at the cursor and sets the mean from it.
   */
  function PressSliderStep(track: TC.PixelRect, x: int, y: int, s: State): (r: State)
    requires track.width > 0
    ensures r.data == s.data && r.selectedPoint == s.selectedPoint && r.dragging == s.dragging && r.showInfo == s.showInfo
    ensures Expanded(track).Contains(x, y) ==>
      r.sliderDragging && r.sliderPos == x as real && 0.0 <= r.mu <= 100.0 && r.mu == SliderValue(track, r.sliderPos)
    ensures !Expanded(track).Contains(x, y) ==> r == s
  {
    if Expanded(track).Contains(x, y) then
      s.(sliderDragging := true, sliderPos := x as real, mu := SliderValue(track, x as real))
    else s
  }

  /** The value grid: a press in a value's cell selects it and starts a drag. */
  function SelectStep(W: int, H: int, x: int, y: int, s: State): (r: State)
    requires W >= TC.MinWidth && H >= TC.MinHeight
    ensures r.data == s.data && r.mu == s.mu && r.sliderPos == s.sliderPos &&
      r.sliderDragging == s.sliderDragging && r.showInfo == s.showInfo
    ensures r != s ==>
      r.dragging && r.selectedPoint.Some? && r.selectedPoint.value < |OriginalData| && DataPanel(W, H).Contains(x, y)
    ensures !DataPanel(W, H).Contains(x, y) ==> r == s
    ensures PointAt(W, H, x, y).Some? ==> r == s.(selectedPoint := PointAt(W, H, x, y), dragging := true)
    ensures PointAt(W, H, x, y).None? ==> r == s
  {
    var hit := PointAt(W, H, x, y);
    if hit.Some? then s.(selectedPoint := hit, dragging := true) else s
  }

  /**
   * A press in the slider's click area, at a size the resize handler
   * allows, is neither a press on a button nor on the value grid.
   */
  lemma SliderPressTouchesNothingElse(W: int, H: int, x: int, y: int, s: State)
    requires W >= TC.MinWidth && H >= TC.MinHeight
    requires Expanded(TC.Pixels(CalculateLayout(W, H).slider)).Contains(x, y)
    ensures PressButtonsStep(CalculateLayout(W, H), x, y, s) == s
    ensures SelectStep(W, H, x, y, s) == s
  {
    SliderClear(W, H, x, y);
  }

  /**
   * A motion by dy while a value is dragged: that value moves by -dy and is
   * floored at 0; every other value stays.
   */
  function PointDragEffect(data: seq<int>, selected: Option<nat>, dragging: bool, dy: int): (r: seq<int>)
    requires selected.Some? ==> selected.value < |data|
    ensures |r| == |data|
    ensures forall j :: 0 <= j < |data| && (!dragging || selected != Some(j)) ==> r[j] == data[j]
    ensures dragging && selected.Some? ==> r[selected.value] == MaxI(0, data[selected.value] - dy)
  {
    if dragging && selected.Some? then
      var i := selected.value;
      data[i := if data[i] - dy >= 0 then data[i] - dy else 0]
    else data
  }

  /** Dragging a non-negative value by dy and back by -dy restores it when it stayed non-negative. */
  lemma DragThereAndBack(data: seq<int>, i: nat, dy: int)
    requires i < |data| && data[i] >= 0 && data[i] - dy >= 0
    ensures PointDragEffect(PointDragEffect(data, Some(i), true, dy), Some(i), true, -dy) == data
  {
    var there := PointDragEffect(data, Some(i), true, dy);
    assert there == data[i := data[i] - dy];
    assert there[i] - -dy == data[i] >= 0;
    assert PointDragEffect(there, Some(i), true, -dy) == there[i := data[i]];
    assert there[i := data[i]] == data;
  }

  /**
   * A motion with the cursor at mouseX while the slider is dragged: the
   * handle follows the cursor within the track and the mean follows the
   * handle; otherwise both stay.
   */
  function SliderDragEffect(s: TC.PixelRect, sliderDragging: bool, mouseX: int, pos: real, mu: real): (r: (real, real))
    requires s.width > 0
    ensures sliderDragging ==>
      s.left as real <= r.0 <= (s.left + s.width) as real && 0.0 <= r.1 <= 100.0 &&
      s.left as real + s.width as real * r.1 / 100.0 == r.0
    ensures sliderDragging && s.left <= mouseX <= s.left + s.width ==> r.0 == mouseX as real
    ensures !sliderDragging ==> r == (pos, mu)
  {
    if sliderDragging then
      var p := DragPos(s, mouseX) as real;
      (p, SliderValue(s, p))
    else (pos, mu)
  }

  /** The state `main` keeps in globals. */
  class Session {
    var width: int
    var height: int
    var data: seq<int>
    var mu: real
    var sliderPos: real
    var sliderDragging: bool
    var selectedPoint: Option<nat>
    var dragging: bool
    var showInfo: bool
    var layout: Layout

    /**
     * Ten values, none negative, a hypothesised mean in [0, 100], a window
     * at least the minimum size laid out for its size, and a selection that
     * names a value.
     */
    predicate Valid()
      reads this
    {
      |data| == |OriginalData| && (forall i :: 0 <= i < |data| ==> data[i] >= 0) &&
      0.0 <= mu <= 100.0 &&
      width >= TC.MinWidth && height >= TC.MinHeight && layout == CalculateLayout(width, height) &&
      TC.Pixels(layout.slider).width >= 300 &&
      (selectedPoint.Some? ==> selectedPoint.value < |data|)
    }

    /** The program's start-up state: a 1200 x 800 window, the original data, mean 43.4, nothing selected. */
    constructor ()
      ensures Valid()
      ensures width == 1200 && height == 800 && data == OriginalData && mu == InitialMean
      ensures sliderPos == RestingPos(layout, mu) && !sliderDragging
      ensures selectedPoint == None && !dragging && showInfo
    {
      width, height := 1200, 800;
      data, mu := OriginalData, InitialMean;
      layout := CalculateLayout(1200, 800);
      SliderClear(1200, 800, 0, 0);
      sliderPos := RestingPos(CalculateLayout(1200, 800), InitialMean);
      sliderDragging := false;
      selectedPoint, dragging, showInfo := None, false, true;
    }

    /** VIDEORESIZE: the window is clamped to the minimum size, laid out again, and the handle placed for mu. */
    method Resize(w: int, h: int)
      requires Valid()
      modifies this`width, this`height, this`layout, this`sliderPos
      ensures Valid()
      ensures width == MaxI(w, TC.MinWidth) && height == MaxI(h, TC.MinHeight)
      ensures layout == CalculateLayout(width, height) && sliderPos == RestingPos(layout, mu)
    {
      width, height := MaxI(w, TC.MinWidth), MaxI(h, TC.MinHeight);
      layout := CalculateLayout(width, height);
      SliderClear(width, height, 0, 0);
      sliderPos := RestingPos(layout, mu);
    }

    /** The fields a press can change, as a value. */
    ghost function Snapshot(): State
      reads this
    {
      State(data, mu, sliderPos, sliderDragging, selectedPoint, dragging, showInfo)
    }

    /**
     * MOUSEBUTTONDOWN: the buttons, then the slider, then the value grid,
     * each seeing what the one before left.
     */
    method Press(x: int, y: int)
      requires Valid()
      modifies this`data, this`selectedPoint, this`showInfo, this`sliderDragging, this`sliderPos, this`mu,
               this`dragging
      ensures Valid()
      ensures Snapshot() ==
        SelectStep(width, height, x, y,
          PressSliderStep(TC.Pixels(layout.slider), x, y, PressButtonsStep(layout, x, y, old(Snapshot()))))
    {
      PressButtons(x, y);
      PressSlider(x, y);
      SelectPoint(x, y);
    }

    /** The buttons of the press handler. */
    method PressButtons(x: int, y: int)
      requires Valid()
      modifies this`data, this`selectedPoint, this`showInfo
      ensures Valid()
      ensures Snapshot() == PressButtonsStep(layout, x, y, old(Snapshot()))
    {
      if layout.panels.resetButton.Contains(x as real, y as real) {
        data, selectedPoint := OriginalData, None;
      } else if layout.panels.infoButton.Contains(x as real, y as real) {
        showInfo := !showInfo;
      }
    }

    /** The slider part of the press handler. */
    method PressSlider(x: int, y: int)
      requires Valid()
      modifies this`sliderDragging, this`sliderPos, this`mu
      ensures Valid()
      ensures Snapshot() == PressSliderStep(TC.Pixels(layout.slider), x, y, old(Snapshot()))
    {
      var s := TC.Pixels(layout.slider);
      if Expanded(s).Contains(x, y) {
        sliderDragging := true;
        sliderPos := x as real;
        mu := SliderValue(s, sliderPos);
      }
    }

    /** The value grid part of the press handler. */
    method SelectPoint(x: int, y: int)
      requires Valid()
      modifies this`selectedPoint, this`dragging
      ensures Valid()
      ensures Snapshot() == SelectStep(width, height, x, y, old(Snapshot()))
    {
      var hit := PointAt(width, height, x, y);
      if hit.Some? {
        selectedPoint, dragging := hit, true;
      }
    }

    /** MOUSEBUTTONUP: both drags end. */
    method Release()
      requires Valid()
      modifies this`dragging, this`sliderDragging
      ensures Valid() && !dragging && !sliderDragging
    {
      dragging, sliderDragging := false, false;
    }

    /**
     * MOUSEMOTION by dy pixels with the cursor at mouseX: a dragged value
     * and a dragged slider both follow the cursor.
     */
    method Motion(dy: int, mouseX: int)
      requires Valid()
      modifies this`data, this`sliderPos, this`mu
      ensures Valid()
      ensures data == PointDragEffect(old(data), selectedPoint, dragging, dy)
      ensures (sliderPos, mu) == SliderDragEffect(TC.Pixels(layout.slider), sliderDragging, mouseX, old(sliderPos), old(mu))
    {
      DragPoint(dy);
      DragSlider(mouseX);
    }

    /** The value part of the motion handler. */
    method DragPoint(dy: int)
      requires Valid()
      modifies this`data
      ensures Valid()
      ensures data == PointDragEffect(old(data), selectedPoint, dragging, dy)
    {
      if dragging && selectedPoint.Some? {
        var i := selectedPoint.value;
        data := data[i := if data[i] - dy >= 0 then data[i] - dy else 0];
      }
    }

    /** The slider part of the motion handler. */
    method DragSlider(mouseX: int)
      requires Valid()
      modifies this`sliderPos, this`mu
      ensures Valid()
      ensures (sliderPos, mu) == SliderDragEffect(TC.Pixels(layout.slider), sliderDragging, mouseX, old(sliderPos), old(mu))
    {
      if sliderDragging {
        var s := TC.Pixels(layout.slider);
        sliderPos := DragPos(s, mouseX) as real;
        mu := SliderValue(s, sliderPos);
      }
    }
  }
}

=== FILE: one_sample_grid.dfy ===
/**
 * The data table of the one-sample t-test program: the values laid out in
 * a grid of up to five columns, and the press handler's arithmetic that
 * turns a click into the index of a value.
 */
module OneSampleGrid {
  import opened Widgets
  import opened ThreeColumns

  /** The grid arithmetic both `draw_data_table` and the press handler compute. */
  datatype Grid = Grid(left: int, top: int, cols: int, cellWidth: int, cellHeight: int)

  /** The number of columns: as many 80 px columns as fit, between one and five. */
  function ColumnsFor(available: int): (cols: int)
    ensures 1 <= cols <= 5
    ensures available >= 80 ==> cols * 80 <= available
  {
    var fit := available / 80;
    assert available >= 80 ==> MaxI(1, MinI(5, fit)) * 80 <= available by {
      if available >= 80 {
        DivAtLeast(available, 80, 1);
        Quotient(available, 80);
        MulMono(MinI(5, fit), fit, 80);
      }
    }
    MaxI(1, MinI(5, fit))
  }

  /** The row height: 30 px unless that many rows do not fit below the title, then an equal share. */
  function RowHeightFor(height: int, rows: int): (h: int)
    requires rows >= 1
    ensures h <= 30
    ensures height >= 80 ==> rows * h <= height - 80
  {
    var maxVisibleRows := (height - 80) / 30;
    if rows > maxVisibleRows then
      assert (height - 80) / rows <= 30 by {
        if height >= 80 {
          DivBelow(height - 80, rows, maxVisibleRows);
        }
      }
      assert height >= 80 ==> rows * ((height - 80) / rows) <= height - 80 by {
        Quotient(height - 80, rows);
      }
      (height - 80) / rows
    else
      assert height >= 80 ==> rows * 30 <= height - 80 by {
        if height >= 80 {
          MulMono(rows, maxVisibleRows, 30);
          Quotient(height - 80, 30);
        }
      }
      30
  }

  /** The width of one cell: the available width shared out among the columns. */
  lemma CellWidthBounds(available: int, cols: int)
    requires cols >= 1
    ensures available >= 0 ==> cols * (available / cols) <= available
    ensures cols * 80 <= available ==> available / cols >= 80
  {
    Quotient(available, cols);
    if cols * 80 <= available {
      DivAtLeast(available, cols, 80);
    }
  }

  /**
   * The grid for n values in the data panel: as many 80 px columns as fit
   * (one to five), the width shared out among them, 30 px rows unless that
   * many rows would not fit below the title, in which case the rows share
   * the height.
   */
  function GridFor(p: PixelRect, n: nat): (g: Grid)
    requires n > 0
    ensures 1 <= g.cols <= 5 && g.left == p.left && g.top == p.top
    ensures p.width - 20 >= 0 ==> g.cols * g.cellWidth <= p.width - 20
    ensures p.width - 20 >= 80 ==> g.cellWidth >= 80
    ensures g.cellHeight <= 30
    ensures p.height >= 80 ==> ((n + g.cols - 1) / g.cols) * g.cellHeight <= p.height - 80
  {
    var available := p.width - 20;
    var cols := ColumnsFor(available);
    var rows := (n + cols - 1) / cols;
    assert rows >= 1 by {
      DivAtLeast(n + cols - 1, cols, 1);
    }
    CellWidthBounds(available, cols);
    Grid(p.left, p.top, cols, available / cols, RowHeightFor(p.height, rows))
  }

  /** a * d <= b * d for a <= b and d >= 0. */
  lemma MulMono(a: int, b: int, d: int)
    requires a <= b && d >= 0
    ensures a * d <= b * d
  {
    assert b * d - a * d == (b - a) * d;
  }

  /** a / d is at least k when a >= d * k. */
  lemma DivAtLeast(a: int, d: int, k: int)
    requires d > 0 && d * k <= a
    ensures a / d >= k
  {
    if a / d < k {
      MulMono(a / d + 1, k, d);
    }
  }

  /** (a / d) * 30 > a leaves a / d <= 30 when d exceeds a / 30. */
  lemma DivBelow(a: int, d: int, m: int)
    requires a >= 0 && d > 0 && m == a / 30 && d > m
    ensures a / d <= 30
  {
    if a / d > 30 {
      MulMono(31, a / d, d);
      MulMono(m + 1, d, 31);
    }
  }

  /** a / d == k exactly when a lies in [k * d, k * d + d). */
  lemma DivBand(a: int, d: int, k: int)
    requires d > 0 && k * d <= a < k * d + d
    ensures a / d == k && a % d == a - k * d
  {
    var q := a / d;
    if q < k {
      MulMono(q + 1, k, d);
    } else if q > k {
      MulMono(k + 1, q, d);
    }
  }

  /** The quotient and remainder of a by a positive d place a in the band [q * d, q * d + d). */
  lemma Quotient(a: int, d: int)
    requires d > 0
    ensures (a / d) * d <= a < (a / d) * d + d
  {
  }

  /** row * cols + col splits back into row and col when col is a column number. */
  lemma IndexSplits(row: int, col: int, cols: int)
    requires 0 <= col < cols
    ensures (row * cols + col) / cols == row && (row * cols + col) % cols == col
  {
    DivBand(row * cols + col, cols, row);
  }

  /**
   * A grid that belongs to the panel: at least one column, both cell
   * dimensions positive (so the press handler's divisions are defined), and
   * the panel's corner.
   */
  predicate Fits(p: PixelRect, g: Grid) {
    g.cols >= 1 && g.cellWidth > 0 && g.cellHeight > 0 && g.left == p.left && g.top == p.top
  }

  /** The top-left corner of value i's cell: column i % cols, row i / cols. */
  function CellX(g: Grid, i: nat): int
    requires g.cols > 0
  {
    g.left + 10 + (i % g.cols) * g.cellWidth
  }

  function CellY(g: Grid, i: nat): int
    requires g.cols > 0
  {
    g.top + 60 + (i / g.cols) * g.cellHeight
  }

  /** The point lies in value i's cell. */
  predicate InCell(g: Grid, i: nat, x: int, y: int)
    requires g.cols > 0
  {
    CellX(g, i) <= x < CellX(g, i) + g.cellWidth && CellY(g, i) <= y < CellY(g, i) + g.cellHeight
  }

  /**
   * The press handler as written: the column and row are floor quotients
   * of the offsets from the first cell, and any index they combine to in
   * [0, n) is selected, even when the column is -1 or equal to the column
   * count or the row is -1.
   */
  function HitAsWritten(p: PixelRect, g: Grid, n: nat, x: int, y: int): (r: Option<nat>)
    requires Fits(p, g)
    ensures r.Some? ==> p.Contains(x, y) && r.value < n
  {
    if !p.Contains(x, y) then None
    else
      var col := (x - (p.left + 10)) / g.cellWidth;
      var row := (y - (p.top + 60)) / g.cellHeight;
      var index := row * g.cols + col;
      if 0 <= index < n then Some(index) else None
  }

  /**
   * The press handler as intended: a click selects value i only when it
   * lies inside the panel and inside i's cell.
   */
  function Hit(p: PixelRect, g: Grid, n: nat, x: int, y: int): (r: Option<nat>)
    requires Fits(p, g)
    ensures r.Some? ==> p.Contains(x, y) && r.value < n && InCell(g, r.value, x, y)
  {
    var relX, relY := x - (p.left + 10), y - (p.top + 60);
    if !p.Contains(x, y) || relX < 0 || relY < 0 then None
    else
      var col := relX / g.cellWidth;
      var row := relY / g.cellHeight;
      if col >= g.cols then None
      else
        var index := row * g.cols + col;
        if 0 <= index < n then
          Quotient(relX, g.cellWidth);
          Quotient(relY, g.cellHeight);
          IndexSplits(row, col, g.cols);
          Some(index)
        else None
  }

  /** A click inside the panel and inside value i's cell selects i, in both versions of the handler. */
  lemma HitFindsCell(p: PixelRect, g: Grid, n: nat, x: int, y: int, i: nat)
    requires Fits(p, g) && p.Contains(x, y) && i < n && InCell(g, i, x, y)
    ensures Hit(p, g, n, x, y) == Some(i) && HitAsWritten(p, g, n, x, y) == Some(i)
  {
    var relX, relY := x - (p.left + 10), y - (p.top + 60);
    var col, row := i % g.cols, i / g.cols;
    MulMono(0, col, g.cellWidth);
    MulMono(0, row, g.cellHeight);
    DivBand(relX, g.cellWidth, col);
    DivBand(relY, g.cellHeight, row);
    assert row * g.cols + col == i;
  }

  /** No point of the panel lies in the cells of two different values. */
  lemma CellsDisjoint(p: PixelRect, g: Grid, n: nat, x: int, y: int, i: nat, j: nat)
    requires Fits(p, g) && p.Contains(x, y) && i < n && j < n
    requires InCell(g, i, x, y) && InCell(g, j, x, y)
    ensures i == j
  {
    HitFindsCell(p, g, n, x, y, i);
    HitFindsCell(p, g, n, x, y, j);
  }

  /**
   * In the 1200 x 800 start-up window the data panel is (840, 80, 320, 600)
   * and the ten values sit in three columns of 100 px. A click 5 px left of
   * the first column on the second row selects value 2, the last value of
   * the first row, although it lies in no cell; the intended handler
   * selects nothing there.
   */
  lemma AsWrittenSelectsOutsideCell()
    ensures var p := Pixels(CalculateLayout(1200, 800).data);
      var g := GridFor(p, 10);
      p == PixelRect(840, 80, 320, 600) && g == Grid(840, 80, 3, 100, 30) && Fits(p, g) &&
      HitAsWritten(p, g, 10, 845, 175) == Some(2) && !InCell(g, 2, 845, 175) &&
      Hit(p, g, 10, 845, 175) == None
  {
    var p := Pixels(CalculateLayout(1200, 800).data);
    assert p == PixelRect(840, 80, 320, 600);
    assert GridFor(p, 10) == Grid(840, 80, 3, 100, 30);
  }

  /**
   * A panel at least 240 px wide and 500 px high gives ten values 30 px
   * rows and two to five columns at least 80 px wide.
   */
  lemma GridForWidePanel(p: PixelRect)
    requires p.width >= 240 && p.height >= 500
    ensures var g := GridFor(p, 10);
      Fits(p, g) && g.cellHeight == 30 && g.cellWidth >= 80 && 2 <= g.cols <= 5
  {
    DivAtLeast(p.width - 20, 80, 2);
    DivAtLeast(p.height - 80, 30, 14);
    var cols := GridFor(p, 10).cols;
    assert (10 + cols - 1) / cols <= 5 by {
      DivAtLeast(10 + cols - 1, cols, 1);
      if (10 + cols - 1) / cols > 5 {
        MulMono(6, (10 + cols - 1) / cols, cols);
        Quotient(10 + cols - 1, cols);
      }
    }
  }

  /** At every size the resize handler allows, the data table's grid fits its panel. */
  lemma GridAtAllowedSizes(W: int, H: int)
    requires W >= MinWidth && H >= MinHeight
    ensures var p := Pixels(CalculateLayout(W, H).data);
      var g := GridFor(p, 10);
      Fits(p, g) && g.cellHeight == 30 && g.cellWidth >= 80 && 2 <= g.cols <= 5
  {
    DataPanelAtAllowedSizes(W, H);
    GridForWidePanel(Pixels(CalculateLayout(W, H).data));
  }
}

=== FILE: one_sample_stats.dfy ===
/**
 * `perform_ttest` of the one-sample t-test program: the sample mean,
 * standard deviation and standard error, the one-sided p-values derived
 * from scipy's two-sided one, the 95% confidence interval of the mean, and
 * the three significance flags. `stats.ttest_1samp` is a parameter.
 */
module OneSampleStats {
  import opened Widgets
  import opened Moments

  /** `stats.ttest_1samp(data, mu)`: the t statistic and the two-sided p-value, either possibly NaN. */
  type OneSampleRoutine = (seq<real>, real) -> (Float, Float)

  /** The significance level the program compares p-values with. */
  const SignificanceLevel: real := 0.05

  /** Python's `p / 2` on a float. */
  function HalfOf(p: Float): Float {
    match p
    case Num(v) => Num(v / 2.0)
    case NaN => NaN
  }

  /** Python's `1 - (p / 2)` on a float. */
  function OneMinusHalf(p: Float): Float {
    match p
    case Num(v) => Num(1.0 - v / 2.0)
    case NaN => NaN
  }

  /**
   * The one-sided p-values: the side t points to gets half the two-sided
   * p-value and the other side the rest; a t of 0 or NaN points to neither
   * side, and both get the rest.
   */
  function OneSided(t: Float, p: Float): (r: (Float, Float))
    ensures t.Above(0.0) ==> r == (HalfOf(p), OneMinusHalf(p))
    ensures t.Below(0.0) ==> r == (OneMinusHalf(p), HalfOf(p))
    ensures !t.Above(0.0) && !t.Below(0.0) ==> r == (OneMinusHalf(p), OneMinusHalf(p))
  {
    (if t.Above(0.0) then HalfOf(p) else OneMinusHalf(p),
     if t.Below(0.0) then HalfOf(p) else OneMinusHalf(p))
  }

  /** The dictionary `perform_ttest` returns. */
  datatype OneSampleResult = OneSampleResult(
    sampleMean: real, sampleStd: real, standardError: real,
    t: Float, pTwoSided: Float, pGreater: Float, pLess: Float,
    ciLower: real, ciUpper: real,
    significantTwoSided: bool, significantGreater: bool, significantLess: bool)

  /**
   * The one-sample t-test of data against mu: the interval is the sample
   * mean plus and minus the 97.5% t-quantile times the standard error, and
   * each flag says that its p-value is below the significance level.
   */
  function PerformTTest(data: seq<real>, mu: real,
                        ttest: OneSampleRoutine, sqrt: SqrtRoutine, ppf: TQuantileRoutine): (r: OneSampleResult)
    requires |data| >= 2 && IsSqrt(sqrt)
    ensures r.sampleMean == Mean(data) && r.sampleStd == SampleStd(data, sqrt)
    ensures r.standardError == StandardError(data, sqrt)
    ensures (r.t, r.pTwoSided) == ttest(data, mu)
    ensures (r.pGreater, r.pLess) == OneSided(r.t, r.pTwoSided)
    ensures r.ciLower == r.sampleMean - ppf(0.975, |data| - 1) * r.standardError
    ensures r.ciUpper == r.sampleMean + ppf(0.975, |data| - 1) * r.standardError
    ensures r.significantTwoSided <==> r.pTwoSided.Below(SignificanceLevel)
    ensures r.significantGreater <==> r.pGreater.Below(SignificanceLevel)
    ensures r.significantLess <==> r.pLess.Below(SignificanceLevel)
  {
    var mean := Mean(data);
    var se := StandardError(data, sqrt);
    var tp := ttest(data, mu);
    var sides := OneSided(tp.0, tp.1);
    var q := ppf(0.975, |data| - 1);
    OneSampleResult(
      mean, SampleStd(data, sqrt), se,
      tp.0, tp.1, sides.0, sides.1,
      mean - q * se, mean + q * se,
      tp.1.Below(SignificanceLevel), sides.0.Below(SignificanceLevel), sides.1.Below(SignificanceLevel))
  }

  /**
   * For a non-zero t and a two-sided p-value in [0, 1], the two one-sided
   * p-values add up to 1, and the one on t's side is the smaller one.
   */
  lemma OneSidedComplementary(t: Float, p: Float)
    requires t.Num? && t.val != 0.0 && p.Num? && 0.0 <= p.val <= 1.0
    ensures var r := OneSided(t, p);
      r.0.Num? && r.1.Num? && r.0.val + r.1.val == 1.0 &&
      (t.val > 0.0 ==> r.0.val <= r.1.val) && (t.val < 0.0 ==> r.1.val <= r.0.val)
  {
  }

  /**
   * With p in [0, 1]: a significant two-sided result with positive t is
   * significant for "greater" and never for "less" (and the other way
   * round for negative t), and a t of 0 or NaN is never significant on
   * either side.
   */
  lemma FlagsAgree(data: seq<real>, mu: real, ttest: OneSampleRoutine, sqrt: SqrtRoutine, ppf: TQuantileRoutine)
    requires |data| >= 2 && IsSqrt(sqrt)
    requires ttest(data, mu).1.Num? && 0.0 <= ttest(data, mu).1.val <= 1.0
    ensures var r := PerformTTest(data, mu, ttest, sqrt, ppf);
      (r.t.Above(0.0) && r.significantTwoSided ==> r.significantGreater && !r.significantLess) &&
      (r.t.Below(0.0) && r.significantTwoSided ==> r.significantLess && !r.significantGreater) &&
      (!r.t.Above(0.0) && !r.t.Below(0.0) ==> !r.significantGreater && !r.significantLess)
  {
  }

  /**
   * The interval is centred on the sample mean, is 2 q se wide, and
   * contains the mean whenever the quantile q is not negative.
   */
  lemma IntervalAroundMean(data: seq<real>, mu: real, ttest: OneSampleRoutine, sqrt: SqrtRoutine, ppf: TQuantileRoutine)
    requires |data| >= 2 && IsSqrt(sqrt)
    ensures var r := PerformTTest(data, mu, ttest, sqrt, ppf);
      r.ciLower + r.ciUpper == 2.0 * r.sampleMean &&
      r.ciUpper - r.ciLower == 2.0 * ppf(0.975, |data| - 1) * r.standardError &&
      (ppf(0.975, |data| - 1) >= 0.0 ==> r.ciLower <= r.sampleMean <= r.ciUpper)
  {
    var r := PerformTTest(data, mu, ttest, sqrt, ppf);
    if ppf(0.975, |data| - 1) >= 0.0 {
      MulNonNeg(ppf(0.975, |data| - 1), r.standardError);
    }
  }

  /**
   * At a fixed sample size and a non-negative quantile, a sample with the
   * larger standard deviation gets the wider interval.
   */
  lemma WiderWithSpread(a: seq<real>, b: seq<real>, mu: real,
                        ttest: OneSampleRoutine, sqrt: SqrtRoutine, ppf: TQuantileRoutine)
    requires |a| == |b| >= 2 && IsSqrt(sqrt)
    requires ppf(0.975, |a| - 1) >= 0.0
    requires SampleStd(a, sqrt) <= SampleStd(b, sqrt)
    ensures var ra := PerformTTest(a, mu, ttest, sqrt, ppf);
      var rb := PerformTTest(b, mu, ttest, sqrt, ppf);
      ra.ciUpper - ra.ciLower <= rb.ciUpper - rb.ciLower
  {
    var ra := PerformTTest(a, mu, ttest, sqrt, ppf);
    var rb := PerformTTest(b, mu, ttest, sqrt, ppf);
    StandardErrorMono(a, b, sqrt);
    WidthOrder(ra.ciLower, ra.ciUpper, ra.sampleMean, rb.ciLower, rb.ciUpper, rb.sampleMean,
               ppf(0.975, |a| - 1), ra.standardError, rb.standardError);
  }

  /** Intervals m -/+ q e with q >= 0 are ordered by width as their e are. */
  lemma WidthOrder(la: real, ua: real, ma: real, lb: real, ub: real, mb: real, q: real, ea: real, eb: real)
    requires q >= 0.0 && ea <= eb
    requires la == ma - q * ea && ua == ma + q * ea
    requires lb == mb - q * eb && ub == mb + q * eb
    ensures ua - la <= ub - lb
  {
    ScaleMono(q, ea, eb);
  }

  /** At a fixed sample size, the larger standard deviation gives the larger standard error. */
  lemma StandardErrorMono(a: seq<real>, b: seq<real>, sqrt: SqrtRoutine)
    requires |a| == |b| >= 2 && IsSqrt(sqrt)
    requires SampleStd(a, sqrt) <= SampleStd(b, sqrt)
    ensures StandardError(a, sqrt) <= StandardError(b, sqrt)
  {
    RootOrder(SampleStd(a, sqrt), SampleStd(b, sqrt), StandardError(a, sqrt), StandardError(b, sqrt), |a| as real);
  }

  /** Roots ea, eb with ea^2 n = sa^2 and eb^2 n = sb^2 keep the order of sa <= sb. */
  lemma RootOrder(sa: real, sb: real, ea: real, eb: real, n: real)
    requires 0.0 <= sa <= sb && 0.0 <= ea && 0.0 <= eb && n > 0.0
    requires ea * ea * n == sa * sa && eb * eb * n == sb * sb
    ensures ea <= eb
  {
    SquareMono(sa, sb);
    CancelFactor(ea * ea, eb * eb, n);
    SquareInverse(ea, eb);
  }

  /** A positive common factor can be cancelled from an inequality. */
  lemma CancelFactor(x: real, y: real, n: real)
    requires n > 0.0 && x * n <= y * n
    ensures x <= y
  {
    if x > y {
      assert false;
    }
  }

  /** On non-negative reals, comparing squares compares the numbers. */
  lemma SquareInverse(x: real, y: real)
    requires 0.0 <= x && 0.0 <= y && x * x <= y * y
    ensures x <= y
  {
    if x > y {
      SquareStrict(y, x);
    }
  }

  /** Multiplying by a non-negative factor keeps the order. */
  lemma ScaleMono(q: real, x: real, y: real)
    requires q >= 0.0 && x <= y
    ensures q * x <= q * y
  {
    MulNonNeg(q, y - x);
    assert q * y - q * x == q * (y - x);
  }

  /** Squaring is strictly monotone on non-negative reals. */
  lemma SquareStrict(x: real, y: real)
    requires 0.0 <= x < y
    ensures x * x < y * y
  {
    MulNonNeg(x, y - x);
    assert x * y - x * x == x * (y - x);
    assert y * y - x * y == (y - x) * y;
    assert (y - x) * y > 0.0;
  }

  /** Squaring is monotone on non-negative reals. */
  lemma SquareMono(x: real, y: real)
    requires 0.0 <= x <= y
    ensures x * x <= y * y
  {
    MulNonNeg(y - x, y + x);
    assert y * y - x * x == (y - x) * (y + x);
  }
}

=== FILE: pages.dfy ===
/**
 * The screens and the fixed buttons the t-test and the chi-square
 * distribution visualisers share: a menu with Start and Tutorial buttons, a
 * Menu button in the top-left corner, and Back / Next along the bottom of
 * the tutorial.
 */
module Pages {
  import opened Widgets

  /** The screens the event loops dispatch on. */
  datatype Screen = Menu | Game | Tutorial

  /** The menu's Start and Tutorial buttons, one above the other. */
  function MenuButtons(W: int, H: int): (r: (Rect, Rect))
    ensures Above(r.0, r.1) && r.0.left == r.1.left
  {
    (Rect((W / 2 - 150) as real, (H / 2 + 100) as real, 300.0, 60.0),
     Rect((W / 2 - 150) as real, (H / 2 + 200) as real, 300.0, 60.0))
  }

  /** The tutorial's Back and Next buttons along the bottom edge: apart from each other and from Menu. */
  function TutorialButtons(W: int, H: int): (r: (Rect, Rect))
    ensures W >= 500 && H >= 150 ==> Disjoint(r.0, r.1) && Disjoint(BackButton, r.0) && Disjoint(BackButton, r.1)
  {
    (Rect(50.0, (H - 100) as real, 200.0, 50.0),
     Rect((W - 250) as real, (H - 100) as real, 200.0, 50.0))
  }
}

=== FILE: paired_app.dfy ===
/**
 * The event loop of the paired t-test program: the before/after
 * measurement table, the click that selects a cell, the vertical drag that
 * edits it, the Reset Data and Toggle Info buttons, and the resize
 * handler.
 */
module PairedApp {
  import opened Widgets
  import opened ThreeColumns

  /** Which column of the table is selected. */
  datatype Column = Before | After

  /** The Amyloid-beta measurements of the ten subjects before and after treatment. */
  const OriginalBefore: seq<real> := [42.5, 38.7, 51.2, 45.8, 49.3, 55.1, 41.2, 47.6, 52.3, 44.9]
  const OriginalAfter: seq<real> := [35.2, 32.1, 45.7, 42.3, 41.8, 49.5, 38.6, 40.2, 48.1, 40.5]

  /** The y coordinate where the data rows of the table start. */
  function DataStart(p: PixelRect): real {
    (p.top + 60 + 10 + 35) as real
  }

  /**
   * The row height of a table with n rows: 30 px, less when the panel is
   * short, so that the n rows never need more than the panel's height less
   * 100 px.
   */
  function RowHeight(p: PixelRect, n: nat): (h: real)
    requires n > 0
    ensures h <= 30.0 && h * n as real <= (p.height - 100) as real
    ensures (p.height - 100) as real >= 30.0 * n as real ==> h == 30.0
  {
    var room := (p.height - 100) as real;
    QuotientBounds(room, n as real, 30.0);
    QuotientBounds(room, n as real, MinR(30.0, room / n as real));
    MinR(30.0, room / n as real)
  }

  /** The top of data row k. */
  function RowTop(p: PixelRect, n: nat, k: int): real
    requires n > 0
  {
    DataStart(p) + k as real * RowHeight(p, n)
  }

  /** The x coordinates of the centres of the before and the after column. */
  function BeforeCentre(p: PixelRect): real { p.left as real + p.width as real * 0.25 }

  function AfterCentre(p: PixelRect): real { p.left as real + p.width as real * 0.75 }

  function AbsR(x: real): real { if x < 0.0 then -x else x }

  /** For a positive divisor, k <= d / h exactly when k * h <= d. */
  lemma QuotientBounds(d: real, h: real, k: real)
    requires h > 0.0
    ensures k <= d / h <==> k * h <= d
  {
    var q := d / h;
    assert q * h == d;
    if k <= q {
      MulNonNeg(q - k, h);
    } else {
      MulNonNeg(k - q, h);
      assert (k - q) * h != 0.0;
    }
  }

  /**
   * The press handler's table test: a click inside the data panel, at or
   * below the first data row, selects the row it falls in when that row
   * exists, and the before column when the click is strictly nearer its
   * centre than the after column's.
   */
  function TableHit(p: PixelRect, n: nat, x: int, y: int): (r: Option<(nat, Column)>)
    requires n > 0 && p.height > 100
    ensures r.Some? ==>
      p.Contains(x, y) && r.value.0 < n &&
      RowTop(p, n, r.value.0) <= y as real < RowTop(p, n, r.value.0 + 1)
    ensures r.Some? ==>
      (r.value.1 == Before <==> AbsR(x as real - BeforeCentre(p)) < AbsR(x as real - AfterCentre(p)))
  {
    if p.Contains(x, y) && y as real >= DataStart(p) then
      var h := RowHeight(p, n);
      var row := Trunc((y as real - DataStart(p)) / h);
      if 0 <= row < n then
        QuotientBounds(y as real - DataStart(p), h, row as real);
        QuotientBounds(y as real - DataStart(p), h, row as real + 1.0);
        var column := if AbsR(x as real - BeforeCentre(p)) < AbsR(x as real - AfterCentre(p)) then Before else After;
        Some((row, column))
      else None
    else None
  }

  /** Every click inside the panel on data row k selects row k. */
  lemma TableHitFindsRow(p: PixelRect, n: nat, x: int, y: int, k: nat)
    requires n > 0 && p.height > 100
    requires p.Contains(x, y) && k < n && RowTop(p, n, k) <= y as real < RowTop(p, n, k + 1)
    ensures TableHit(p, n, x, y).Some? && TableHit(p, n, x, y).value.0 == k
  {
    var h := RowHeight(p, n);
    var d := y as real - DataStart(p);
    MulNonNeg(k as real, h);
    QuotientBounds(d, h, k as real);
    QuotientBounds(d, h, k as real + 1.0);
  }

  /** Strictly nearer the before column's centre means left of the panel's vertical midline. */
  lemma BeforeIsLeftHalf(p: PixelRect, x: int)
    requires p.width > 0
    ensures AbsR(x as real - BeforeCentre(p)) < AbsR(x as real - AfterCentre(p)) <==>
      x as real < p.left as real + p.width as real * 0.5
  {
  }

  /** The state `main` keeps in globals. */
  class Session {
    var width: int
    var height: int
    var before: seq<real>
    var after: seq<real>
    var selectedPoint: Option<nat>
    var selectedColumn: Option<Column>
    var dragging: bool
    var showInfo: bool
    var layout: Layout

    /**
     * Ten subjects in both columns, no negative measurement, a window at
     * least the minimum size laid out for its size, and a selected point
     * exactly when a column is selected.
     */
    predicate Valid()
      reads this
    {
      |before| == |OriginalBefore| && |after| == |OriginalAfter| &&
      (forall i :: 0 <= i < |before| ==> before[i] >= 0.0) &&
      (forall i :: 0 <= i < |after| ==> after[i] >= 0.0) &&
      width >= MinWidth && height >= MinHeight && layout == CalculateLayout(width, height) &&
      (selectedPoint.Some? <==> selectedColumn.Some?) &&
      (selectedPoint.Some? ==> selectedPoint.value < |before|)
    }

    /** The program's start-up state: a 1200 x 800 window, the original data, nothing selected. */
    constructor ()
      ensures Valid()
      ensures width == 1200 && height == 800 && before == OriginalBefore && after == OriginalAfter
      ensures selectedPoint == None && selectedColumn == None && !dragging && showInfo
    {
      width, height := 1200, 800;
      before, after := OriginalBefore, OriginalAfter;
      selectedPoint, selectedColumn := None, None;
      dragging, showInfo := false, true;
      layout := CalculateLayout(1200, 800);
    }

    /** VIDEORESIZE: the window is clamped to the minimum size and laid out again. */
    method Resize(w: int, h: int)
      requires Valid()
      modifies this`width, this`height, this`layout
      ensures Valid()
      ensures width == MaxI(w, MinWidth) && height == MaxI(h, MinHeight)
      ensures layout == CalculateLayout(width, height)
    {
      width, height := MaxI(w, MinWidth), MaxI(h, MinHeight);
      layout := CalculateLayout(width, height);
    }

    /**
     * MOUSEBUTTONDOWN: Reset Data restores both columns and clears the
     * selection, otherwise Toggle Info flips the panel; then a click on a
     * table row selects that row and column and starts a drag. A click
     * elsewhere keeps the previous selection.
     */
    method Press(x: int, y: int)
      requires Valid()
      modifies this`before, this`after, this`selectedPoint, this`selectedColumn, this`dragging, this`showInfo
      ensures Valid()
      ensures var reset := layout.resetButton.Contains(x as real, y as real);
        var toggle := !reset && layout.infoButton.Contains(x as real, y as real);
        (before, after) == (if reset then (OriginalBefore, OriginalAfter) else (old(before), old(after))) &&
        showInfo == (if toggle then !old(showInfo) else old(showInfo))
      ensures var hit := TableHit(Pixels(layout.data), |OriginalBefore|, x, y);
        (hit.Some? ==> selectedPoint == Some(hit.value.0) && selectedColumn == Some(hit.value.1) && dragging) &&
        (hit.None? ==> dragging == old(dragging))
      ensures var hit := TableHit(Pixels(layout.data), |OriginalBefore|, x, y);
        var reset := layout.resetButton.Contains(x as real, y as real);
        (hit.None? && reset ==> selectedPoint == None && selectedColumn == None) &&
        (hit.None? && !reset ==> selectedPoint == old(selectedPoint) && selectedColumn == old(selectedColumn))
    {
      PressButtons(x, y);
      SelectCell(x, y);
    }

    /** The two buttons of the press handler. */
    method PressButtons(x: int, y: int)
      requires Valid()
      modifies this`before, this`after, this`selectedPoint, this`selectedColumn, this`showInfo
      ensures Valid()
      ensures var reset := layout.resetButton.Contains(x as real, y as real);
        var toggle := !reset && layout.infoButton.Contains(x as real, y as real);
        (before, after) == (if reset then (OriginalBefore, OriginalAfter) else (old(before), old(after))) &&
        showInfo == (if toggle then !old(showInfo) else old(showInfo)) &&
        (reset ==> selectedPoint == None && selectedColumn == None) &&
        (!reset ==> selectedPoint == old(selectedPoint) && selectedColumn == old(selectedColumn))
    {
      if layout.resetButton.Contains(x as real, y as real) {
        before, after := OriginalBefore, OriginalAfter;
        selectedPoint, selectedColumn := None, None;
      } else if layout.infoButton.Contains(x as real, y as real) {
        showInfo := !showInfo;
      }
    }

    /** The table part of the press handler. */
    method SelectCell(x: int, y: int)
      requires Valid()
      modifies this`selectedPoint, this`selectedColumn, this`dragging
      ensures Valid()
      ensures var hit := TableHit(Pixels(layout.data), |OriginalBefore|, x, y);
        (hit.Some? ==> selectedPoint == Some(hit.value.0) && selectedColumn == Some(hit.value.1) && dragging) &&
        (hit.None? ==> selectedPoint == old(selectedPoint) && selectedColumn == old(selectedColumn) &&
                       dragging == old(dragging))
    {
      DataPanelAtAllowedSizes(width, height);
      var hit := TableHit(Pixels(layout.data), |before|, x, y);
      if hit.Some? {
        selectedPoint, selectedColumn := Some(hit.value.0), Some(hit.value.1);
        dragging := true;
      }
    }

    /** MOUSEBUTTONUP: the drag ends; the selection stays. */
    method Release()
      requires Valid()
      modifies this`dragging
      ensures Valid() && !dragging
    {
      dragging := false;
    }

    /**
     * MOUSEMOTION by dy pixels: while dragging a selected cell, its value
     * moves by -0.5 * dy and is floored at 0; every other value stays.
     */
    method Motion(dy: int)
      requires Valid()
      modifies this`before, this`after
      ensures Valid()
      ensures dragging && selectedPoint.Some? && selectedColumn == Some(Before) ==>
        before == old(before)[selectedPoint.value := MaxR(0.0, old(before)[selectedPoint.value] - 0.5 * dy as real)] &&
        after == old(after)
      ensures dragging && selectedPoint.Some? && selectedColumn == Some(After) ==>
        after == old(after)[selectedPoint.value := MaxR(0.0, old(after)[selectedPoint.value] - 0.5 * dy as real)] &&
        before == old(before)
      ensures !(dragging && selectedPoint.Some?) ==> before == old(before) && after == old(after)
    {
      if dragging && selectedPoint.Some? && selectedColumn.Some? {
        var i := selectedPoint.value;
        var change := -(dy as real) * 0.5;
        if selectedColumn.value == Before {
          before := before[i := MaxR(0.0, before[i] + change)];
        } else {
          after := after[i := MaxR(0.0, after[i] + change)];
        }
      }
    }
  }
}

=== FILE: paired_stats.dfy ===
/**
 * `perform_paired_ttest` of the paired t-test program: per-subject
 * differences, the descriptive statistics of both measurements and of the
 * differences, the 95% confidence interval of the mean difference, and the
 * significance flag. The test statistic and p-value come from
 * `stats.ttest_rel` and are a parameter.
 */
module PairedStats {
  import opened Widgets
  import opened Moments

  /** `stats.ttest_rel(before, after)`: the t statistic and the two-sided p-value, either possibly NaN. */
  type PairedRoutine = (seq<real>, seq<real>) -> (Float, Float)

  /** The significance level the program compares p-values with. */
  const SignificanceLevel: real := 0.05

  /** The dictionary `perform_paired_ttest` returns. */
  datatype PairedResult = PairedResult(
    t: Float, p: Float,
    meanBefore: real, meanAfter: real, stdBefore: real, stdAfter: real,
    meanDiff: real, stdDiff: real, seDiff: real,
    ciLow: real, ciHigh: real,
    differences: seq<real>, significant: bool)

  /**
   * The paired t-test on equally long measurement arrays of at least two
   * subjects. The difference of subject i is before[i] - after[i], the
   * mean difference equals the difference of the two means, and the
   * interval is the mean difference plus the 2.5% and 97.5% t-quantiles
   * times the standard error.
   */
  function PerformPairedTTest(before: seq<real>, after: seq<real>,
                              ttestRel: PairedRoutine, sqrt: SqrtRoutine, ppf: TQuantileRoutine): (r: PairedResult)
    requires |before| == |after| >= 2 && IsSqrt(sqrt)
    ensures |r.differences| == |before| && forall i :: 0 <= i < |before| ==> r.differences[i] == before[i] - after[i]
    ensures r.meanBefore == Mean(before) && r.meanAfter == Mean(after)
    ensures r.meanDiff == r.meanBefore - r.meanAfter
    ensures r.stdBefore == SampleStd(before, sqrt) && r.stdAfter == SampleStd(after, sqrt)
    ensures r.stdDiff == SampleStd(r.differences, sqrt) && r.seDiff == StandardError(r.differences, sqrt)
    ensures (r.t, r.p) == ttestRel(before, after)
    ensures r.ciLow == ppf(0.025, |before| - 1) * r.seDiff + r.meanDiff
    ensures r.ciHigh == ppf(0.975, |before| - 1) * r.seDiff + r.meanDiff
    ensures r.significant <==> r.p.Below(SignificanceLevel)
  {
    var differences := Differences(before, after);
    var tp := ttestRel(before, after);
    var meanDiff := Mean(differences);
    MeanOfDifferences(before, after);
    var sdBefore, sdAfter, sdDiff := SampleStd(before, sqrt), SampleStd(after, sqrt), SampleStd(differences, sqrt);
    var se := StandardError(differences, sqrt);
    var df := |differences| - 1;
    PairedResult(
      tp.0, tp.1, Mean(before), Mean(after), sdBefore, sdAfter, meanDiff, sdDiff, se,
      ppf(0.025, df) * se + meanDiff, ppf(0.975, df) * se + meanDiff,
      differences, tp.1.Below(SignificanceLevel))
  }

  /**
   * When the lower quantile is at most 0 and the upper one at least 0, the
   * interval contains the mean difference; when the quantiles are
   * symmetric it is centred on it.
   */
  lemma IntervalBracketsMeanDiff(before: seq<real>, after: seq<real>,
                                 ttestRel: PairedRoutine, sqrt: SqrtRoutine, ppf: TQuantileRoutine)
    requires |before| == |after| >= 2 && IsSqrt(sqrt)
    requires ppf(0.025, |before| - 1) <= 0.0 <= ppf(0.975, |before| - 1)
    ensures var r := PerformPairedTTest(before, after, ttestRel, sqrt, ppf);
      r.ciLow <= r.meanDiff <= r.ciHigh &&
      (ppf(0.025, |before| - 1) == -ppf(0.975, |before| - 1) ==> r.ciLow + r.ciHigh == 2.0 * r.meanDiff)
  {
    var r := PerformPairedTTest(before, after, ttestRel, sqrt, ppf);
    MulNonNeg(-ppf(0.025, |before| - 1), r.seDiff);
    MulNonNeg(ppf(0.975, |before| - 1), r.seDiff);
  }

  /**
   * A treatment that lowers every subject's value by the same amount c
   * gives a mean difference of exactly c and a confidence interval that
   * collapses to that single value.
   */
  lemma ConstantEffectCollapsesInterval(before: seq<real>, after: seq<real>, c: real,
                                        ttestRel: PairedRoutine, sqrt: SqrtRoutine, ppf: TQuantileRoutine)
    requires |before| == |after| >= 2 && IsSqrt(sqrt)
    requires forall i :: 0 <= i < |before| ==> before[i] - after[i] == c
    ensures var r := PerformPairedTTest(before, after, ttestRel, sqrt, ppf);
      r.meanDiff == c && r.stdDiff == 0.0 && r.seDiff == 0.0 && r.ciLow == c == r.ciHigh
  {
    var r := PerformPairedTTest(before, after, ttestRel, sqrt, ppf);
    ConstantSampleHasNoSpread(r.differences, c);
  }
}

=== FILE: three_columns.dfy ===
/**
 * The window layout the paired and the one-sample t-test programs share:
 * an information sidebar on the left, the chart in the middle and the data
 * table in a sidebar on the right, with the Toggle Info and Reset Data
 * buttons at the right edge, and the minimum window size both resize
 * handlers enforce.
 */
module ThreeColumns {
  import opened Widgets

  const HeaderHeight: int := 60
  const MinWidth: int := 1000
  const MinHeight: int := 700

  /** A pygame rectangle after the conversion of float coordinates to integers. */
  datatype PixelRect = PixelRect(left: int, top: int, width: int, height: int) {
    predicate Contains(x: int, y: int) {
      left <= x < left + width && top <= y < top + height
    }
  }

  /** `pygame.Rect(left, top, width, height)` built from floats: every coordinate is truncated. */
  function Pixels(r: Rect): (p: PixelRect)
    ensures 0.0 <= r.left ==> p.left as real <= r.left < p.left as real + 1.0
    ensures 0.0 <= r.width ==> p.width as real <= r.width < p.width as real + 1.0
    ensures p.top == Trunc(r.top) && p.height == Trunc(r.height)
  {
    PixelRect(Trunc(r.left), Trunc(r.top), Trunc(r.width), Trunc(r.height))
  }

  /**
   * The widths of a sidebar and of the middle column: the sidebars take 30%
   * of the window but at least 350 px, unless that leaves the middle column
   * under 400 px, in which case the middle column gets 400 px and the
   * sidebars share the rest.
   */
  function Split(W: int): (r: (real, real))
    ensures r.1 >= 400.0
    ensures 2.0 * r.0 + r.1 + 40.0 == W as real
    ensures r.0 == MaxR(350.0, W as real * 0.3) || (r.1 == 400.0 && r.0 < MaxR(350.0, W as real * 0.3))
    ensures W >= MinWidth ==> r.0 >= 280.0
    ensures W >= 1140 ==> r.0 == MaxR(350.0, W as real * 0.3)
  {
    var sidebar := MaxR(350.0, W as real * 0.3);
    var content := W as real - 2.0 * sidebar - 40.0;
    if content < 400.0 then ((W as real - 400.0 - 40.0) / 2.0, 400.0) else (sidebar, content)
  }

  /** The `layout` dictionary and the two buttons `calculate_layout` places. */
  datatype Layout = Layout(info: Rect, vis: Rect, data: Rect, infoButton: Rect, resetButton: Rect, controlsTop: int)

  /** `calculate_layout` for a window of the given size. */
  function CalculateLayout(W: int, H: int): (l: Layout)
    ensures l.info.left == 20.0 && l.info.Right() + 20.0 == l.vis.left
    ensures l.vis.Right() + 20.0 == l.data.left && l.data.Right() == W as real - 40.0
    ensures l.vis.width >= 400.0
    ensures l.info.top == l.vis.top == l.data.top == (HeaderHeight + 20) as real
    ensures l.vis.height == l.data.height == (H - 200) as real && 2.0 * l.info.height <= l.vis.height
    ensures W >= MinWidth ==> l.info.width >= 260.0 && l.data.width >= 240.0
    ensures l.controlsTop == H - 100
    ensures l.infoButton == Rect((W - 150) as real, 20.0, 120.0, 40.0)
    ensures l.resetButton == Rect((W - 150) as real, l.controlsTop as real, 120.0, 40.0)
  {
    var (sidebar, content) := Split(W);
    var top := (HeaderHeight + 20) as real;
    var visHeight := H - (HeaderHeight + 20) - 120;
    Layout(
      Rect(20.0, top, sidebar - 20.0, (visHeight / 2) as real),
      Rect(sidebar + 20.0, top, content, visHeight as real),
      Rect(sidebar + 20.0 + content + 20.0, top, sidebar - 40.0, visHeight as real),
      Rect((W - 150) as real, 20.0, 120.0, 40.0),
      Rect((W - 150) as real, (H - 100) as real, 120.0, 40.0),
      H - 100)
  }

  /**
   * The three panels follow each other from left to right without
   * overlapping, and neither button reaches into the data table, so a
   * click handled by a button is never also a click in the table.
   */
  lemma PanelsApart(W: int, H: int)
    requires W >= MinWidth && H >= MinHeight
    ensures var l := CalculateLayout(W, H);
      Disjoint(l.info, l.vis) && Disjoint(l.vis, l.data) && Disjoint(l.info, l.data) &&
      Disjoint(l.infoButton, l.data) && Disjoint(l.resetButton, l.data) &&
      20.0 <= l.info.left && l.data.Right() <= W as real
  {
  }

  /**
   * At every size the resize handler allows, the data table's pygame
   * rectangle is at least 240 px wide and exactly H - 200 px high, with its
   * top 80 px down.
   */
  lemma DataPanelAtAllowedSizes(W: int, H: int)
    requires W >= MinWidth && H >= MinHeight
    ensures var p := Pixels(CalculateLayout(W, H).data);
      p.width >= 240 && p.height == H - 200 >= 500 && p.top == HeaderHeight + 20 && p.left >= 0
  {
  }
}

=== FILE: ttest_app.dfy ===
/**
 * The state of the two-sample t-test visualiser and its event handlers:
 * window size, current screen, the five sliders (in the order of the
 * program's slider list: mean 1, mean 2, spread 1, spread 2, sample size),
 * the two data groups, the last result, the "has been calculated" flag,
 * the tutorial page and the layout.
 */
module TTestApp {
  import opened Widgets
  import opened TTestStats
  import opened TTestLayout
  import opened Pages

  const TutorialPages: int := 5

  /** The slider ranges of the program, list order. */
  const Lows: seq<real> := [70.0, 70.0, 5.0, 5.0, 5.0]
  const Highs: seq<real> := [130.0, 130.0, 25.0, 25.0, 20000.0]

  /** Slider k moved to its spot in a layout, keeping its value, range and drag state. */
  function Placed(s: Slider, l: Layout, k: nat): Slider
    requires k < 5
  {
    var (x, y, width) := SliderSpot(l, k);
    s.(x := x, y := y, width := width)
  }

  /** The data `reset_data` draws from the current slider values. */
  function DrawFrom(sliders: seq<Slider>, normal: NormalRoutine, uniform: UniformRoutine): Groups
    requires |sliders| == 5
  {
    Draw(sliders[0].value, sliders[2].value, sliders[1].value, sliders[3].value, sliders[4].value, normal, uniform)
  }

  /** Any slider being dragged. */
  predicate AnyDragging(sliders: seq<Slider>) {
    exists i :: 0 <= i < |sliders| && sliders[i].dragging
  }

  class Visualizer {
    var width: int
    var height: int
    var screen: Screen
    var sliders: seq<Slider>
    var groups: Groups
    var result: TResult
    var hasCalculated: bool
    var tutorialPage: int
    var showInstructions: bool
    var layout: Layout

    /** Five sliders with the program's ranges, a page among the five, a window at least 1000 wide. */
    predicate Valid()
      reads this
    {
      |sliders| == 5 && AllValid(sliders) &&
      (forall i :: 0 <= i < 5 ==> sliders[i].lo == Lows[i] && sliders[i].hi == Highs[i]) &&
      0 <= tutorialPage < TutorialPages && width >= 1000
    }

    /**
     * Start-up: the menu, the default slider values placed by the layout of
     * a 1200 x 800 window, the seeded initial samples, t 0 and p 0, nothing
     * calculated.
     */
    constructor (initial: Groups)
      ensures Valid()
      ensures screen == Menu && width == 1200 && height == 800 && tutorialPage == 0
      ensures layout == CalculateLayout(1200, 800)
      ensures forall k :: 0 <= k < 5 ==> SliderSpot(layout, k) == (sliders[k].x, sliders[k].y, sliders[k].width)
      ensures [sliders[0].value, sliders[1].value, sliders[2].value, sliders[3].value, sliders[4].value] ==
              [100.0, 115.0, 15.0, 15.0, 20.0]
      ensures groups == initial && result == TResult(0.0, 0.0) && !hasCalculated
    {
      width, height, screen := 1200, 800, Menu;
      var l := CalculateLayout(1200, 800);
      layout := l;
      sliders := [
        Placed(Slider(0.0, 0.0, 200.0, 100.0, 70.0, 130.0, false), l, 0),
        Placed(Slider(0.0, 0.0, 200.0, 115.0, 70.0, 130.0, false), l, 1),
        Placed(Slider(0.0, 0.0, 200.0, 15.0, 5.0, 25.0, false), l, 2),
        Placed(Slider(0.0, 0.0, 200.0, 15.0, 5.0, 25.0, false), l, 3),
        Placed(Slider(0.0, 0.0, 250.0, 20.0, 5.0, 20000.0, false), l, 4)];
      groups := initial;
      result := TResult(0.0, 0.0);
      hasCalculated := false;
      tutorialPage := 0;
      showInstructions := true;
    }

    /** `reset_data`: new samples from the current slider values; the result is stale. */
    method ResetData(normal: NormalRoutine, uniform: UniformRoutine)
      requires Valid()
      modifies this`groups, this`hasCalculated
      ensures groups == DrawFrom(sliders, normal, uniform) && !hasCalculated
    {
      groups := DrawFrom(sliders, normal, uniform);
      hasCalculated := false;
    }

    /** `calculate_ttest` on the current groups; the result is fresh. */
    method CalculateTTest(ttest: TTestRoutine)
      requires Valid()
      modifies this`result, this`hasCalculated
      ensures result == TTest(groups.control, groups.experimental, ttest) && hasCalculated
    {
      result := TTest(groups.control, groups.experimental, ttest);
      hasCalculated := true;
    }

    /**
     * VIDEORESIZE: the window is kept at least at the computed minimum
     * width, 1000 and the minimum height; the layout is recomputed, every
     * slider moves to its spot and no slider stays grabbed.
     */
    method Resize(w: int, h: int)
      requires Valid()
      modifies this`width, this`height, this`layout, this`sliders
      ensures Valid()
      ensures width == MaxI(w, 1000) && height == MaxI(h, MinHeight())
      ensures layout == CalculateLayout(width, height)
      ensures forall k :: 0 <= k < 5 ==> sliders[k] == Placed(old(sliders[k]), layout, k).(dragging := false)
    {
      ComputedMinWidthNeverBinds(w);
      width, height := MaxI(MaxI(w, MinWidth), 1000), MaxI(h, MinHeight());
      var l := CalculateLayout(width, height);
      layout := l;
      var placed := [Placed(sliders[0], l, 0), Placed(sliders[1], l, 1), Placed(sliders[2], l, 2),
                     Placed(sliders[3], l, 3), Placed(sliders[4], l, 4)];
      var released;
      sliders, released := ReleaseAll(placed);
    }

    /** KEYDOWN Escape: back to the menu from any other screen; the result flag is kept. */
    method Escape()
      modifies this`screen
      ensures screen == Menu
    {
      if screen != Menu {
        screen := Menu;
      }
    }

    /** MOUSEBUTTONDOWN on the menu: Start enters the simulation with fresh data, Tutorial opens page 0. */
    method ClickMenu(x: real, y: real, normal: NormalRoutine, uniform: UniformRoutine)
      requires Valid() && screen == Menu
      modifies this`screen, this`tutorialPage, this`groups, this`hasCalculated
      ensures Valid()
      ensures var (start, tutorial) := MenuButtons(width, height);
        && (start.Contains(x, y) ==>
              screen == Game && groups == DrawFrom(sliders, normal, uniform) && !hasCalculated &&
              tutorialPage == old(tutorialPage))
        && (!start.Contains(x, y) && tutorial.Contains(x, y) ==>
              screen == Tutorial && tutorialPage == 0 && unchanged(this`groups, this`hasCalculated))
        && (!start.Contains(x, y) && !tutorial.Contains(x, y) ==>
              unchanged(this`screen, this`tutorialPage, this`groups, this`hasCalculated))
    {
      var (start, tutorial) := MenuButtons(width, height);
      if start.Contains(x, y) {
        screen := Game;
        ResetData(normal, uniform);
      } else if tutorial.Contains(x, y) {
        screen := Tutorial;
        tutorialPage := 0;
      }
    }

    /**
     * MOUSEBUTTONDOWN on the tutorial: Menu leaves, Back goes back a page
     * when there is one, Next advances, and from the last page enters the
     * simulation with fresh data. The page stays within the five pages.
     */
    method ClickTutorial(x: real, y: real, normal: NormalRoutine, uniform: UniformRoutine)
      requires Valid() && screen == Tutorial
      modifies this`screen, this`tutorialPage, this`groups, this`hasCalculated
      ensures Valid()
      ensures var (back, next) := TutorialButtons(width, height);
        && (BackButton.Contains(x, y) ==>
              screen == Menu && unchanged(this`tutorialPage, this`groups, this`hasCalculated))
        && (!BackButton.Contains(x, y) && back.Contains(x, y) && old(tutorialPage) > 0 ==>
              screen == Tutorial && tutorialPage == old(tutorialPage) - 1 && unchanged(this`groups, this`hasCalculated))
        && (!BackButton.Contains(x, y) && !(back.Contains(x, y) && old(tutorialPage) > 0) && next.Contains(x, y) ==>
              if old(tutorialPage) < TutorialPages - 1
              then screen == Tutorial && tutorialPage == old(tutorialPage) + 1 && unchanged(this`groups, this`hasCalculated)
              else screen == Game && tutorialPage == old(tutorialPage) &&
                   groups == DrawFrom(sliders, normal, uniform) && !hasCalculated)
        && (!BackButton.Contains(x, y) && !(back.Contains(x, y) && old(tutorialPage) > 0) && !next.Contains(x, y) ==>
              unchanged(this`screen, this`tutorialPage, this`groups, this`hasCalculated))
    {
      var (back, next) := TutorialButtons(width, height);
      if BackButton.Contains(x, y) {
        screen := Menu;
      } else if back.Contains(x, y) && tutorialPage > 0 {
        tutorialPage := tutorialPage - 1;
      } else if next.Contains(x, y) {
        if tutorialPage < TutorialPages - 1 {
          tutorialPage := tutorialPage + 1;
        } else {
          screen := Game;
          ResetData(normal, uniform);
        }
      }
    }

    /**
     * MOUSEBUTTONDOWN in the simulation: the instruction toggle, then
     * Menu / Calculate / Reset, then every slider whose track is hit jumps
     * to the cursor. Calculate runs whether or not the result is fresh; a
     * slider press alone leaves the data and the flag as they are.
     */
    method ClickGame(x: real, y: real, normal: NormalRoutine, uniform: UniformRoutine, ttest: TTestRoutine)
      requires Valid() && screen == Game
      modifies this`showInstructions, this`screen, this`result, this`groups, this`hasCalculated, this`sliders
      ensures Valid()
      ensures showInstructions == (old(showInstructions) != layout.toggle.Contains(x, y))
      ensures BackButton.Contains(x, y) ==>
        screen == Menu && unchanged(this`result, this`groups, this`hasCalculated)
      ensures !BackButton.Contains(x, y) && layout.calcButton.Contains(x, y) ==>
        screen == Game && result == TTest(groups.control, groups.experimental, ttest) && hasCalculated &&
        unchanged(this`groups)
      ensures !BackButton.Contains(x, y) && !layout.calcButton.Contains(x, y) && layout.resetButton.Contains(x, y) ==>
        screen == Game && groups == DrawFrom(old(sliders), normal, uniform) && !hasCalculated &&
        unchanged(this`result)
      ensures !BackButton.Contains(x, y) && !layout.calcButton.Contains(x, y) && !layout.resetButton.Contains(x, y) ==>
        screen == Game && unchanged(this`result, this`groups, this`hasCalculated)
      ensures forall k :: 0 <= k < 5 ==> sliders[k] == Press(old(sliders[k]), x, y)
    {
      GameButtons(x, y, normal, uniform, ttest);
      var hit;
      sliders, hit := PressAll(sliders, x, y);
    }

    /** The instruction toggle and the Menu / Calculate / Reset chain of the simulation's press handler. */
    method GameButtons(x: real, y: real, normal: NormalRoutine, uniform: UniformRoutine, ttest: TTestRoutine)
      requires Valid() && screen == Game
      modifies this`showInstructions, this`screen, this`result, this`groups, this`hasCalculated
      ensures Valid()
      ensures showInstructions == (old(showInstructions) != layout.toggle.Contains(x, y))
      ensures BackButton.Contains(x, y) ==>
        screen == Menu && unchanged(this`result, this`groups, this`hasCalculated)
      ensures !BackButton.Contains(x, y) && layout.calcButton.Contains(x, y) ==>
        screen == Game && result == TTest(groups.control, groups.experimental, ttest) && hasCalculated &&
        unchanged(this`groups)
      ensures !BackButton.Contains(x, y) && !layout.calcButton.Contains(x, y) && layout.resetButton.Contains(x, y) ==>
        screen == Game && groups == DrawFrom(old(sliders), normal, uniform) && !hasCalculated &&
        unchanged(this`result)
      ensures !BackButton.Contains(x, y) && !layout.calcButton.Contains(x, y) && !layout.resetButton.Contains(x, y) ==>
        screen == Game && unchanged(this`result, this`groups, this`hasCalculated)
    {
      if layout.toggle.Contains(x, y) {
        showInstructions := !showInstructions;
      }
      if BackButton.Contains(x, y) {
        screen := Menu;
      } else if layout.calcButton.Contains(x, y) {
        CalculateTTest(ttest);
      } else if layout.resetButton.Contains(x, y) {
        ResetData(normal, uniform);
      }
    }

    /**
     * MOUSEBUTTONUP: each slider that was being dragged is let go and new
     * data is drawn from the slider values; when none was, the data and the
     * flag are left alone.
     */
    method Release(normal: NormalRoutine, uniform: UniformRoutine)
      requires Valid()
      modifies this`sliders, this`groups, this`hasCalculated
      ensures Valid()
      ensures forall k :: 0 <= k < 5 ==> sliders[k] == old(sliders[k]).(dragging := false)
      ensures AnyDragging(old(sliders)) ==> groups == DrawFrom(old(sliders), normal, uniform) && !hasCalculated
      ensures !AnyDragging(old(sliders)) ==> unchanged(this`groups, this`hasCalculated)
    {
      for k := 0 to 5
        invariant Valid()
        invariant forall i :: 0 <= i < k ==> sliders[i] == old(sliders[i]).(dragging := false)
        invariant forall i :: k <= i < 5 ==> sliders[i] == old(sliders[i])
        invariant (exists i :: 0 <= i < k && old(sliders[i]).dragging) ==>
          groups == DrawFrom(old(sliders), normal, uniform) && !hasCalculated
        invariant !(exists i :: 0 <= i < k && old(sliders[i]).dragging) ==>
          groups == old(groups) && hasCalculated == old(hasCalculated)
      {
        if sliders[k].dragging {
          sliders := sliders[k := sliders[k].(dragging := false)];
          assert DrawFrom(sliders, normal, uniform) == DrawFrom(old(sliders), normal, uniform);
          ResetData(normal, uniform);
        }
      }
    }

    /** MOUSEMOTION: sliders being dragged follow the cursor; nothing else changes. */
    method Motion(x: real)
      requires Valid()
      modifies this`sliders
      ensures Valid()
      ensures forall k :: 0 <= k < 5 ==> sliders[k] == Drag(old(sliders[k]), x)
    {
      var moved;
      sliders, moved := DragAll(sliders, x);
    }
  }
}

=== FILE: ttest_layout.dfy ===
/**
 * The window layout of the two-sample t-test visualiser: results line,
 * chart, instructions, the control and experimental panels side by side,
 * the sample-size panel below them and the two buttons at the bottom, with
 * the panels shrunk (down to a floor) when the window is short, and the
 * minimum window size the resize handler enforces.
 */
module TTestLayout {
  import opened Widgets

  const HeaderHeight: real := 60.0
  const ResultMargin: real := 20.0
  const PanelMargin: real := 15.0
  const HMargin: real := 20.0
  const TitleHeight: real := 40.0
  const LabelColumnWidth: real := 140.0
  const ValueColumnWidth: real := 50.0
  const SliderMinWidth: real := 150.0
  const LabelSliderGap: real := 20.0
  const SliderValueGap: real := 16.0
  const SampleLabelWidth: real := 180.0
  const ButtonWidth: real := 200.0
  const ButtonSpacing: real := 20.0

  /** Label column, slider, value column and both margins side by side: 416. */
  const MinPanelWidth: real := LabelColumnWidth + SliderMinWidth + ValueColumnWidth + LabelSliderGap + SliderValueGap + HMargin * 2.0

  /** The nominal panel heights and the room they need with their margins and the buttons: 270. */
  const PanelHeight: int := 120
  const SamplePanelHeight: int := 50
  const NeededRoom: real := 120.0 + PanelMargin + 50.0 + PanelMargin * 3.0 + 40.0

  /**
   * The dictionary `calculate_layout` returns, with the slider grid of each
   * panel (slider column, slider width, row) and the two buttons.
   */
  datatype Layout = Layout(
    results: Rect, chart: Rect, instructions: Rect,
    controlPanel: Rect, expPanel: Rect, samplePanel: Rect, toggle: Rect,
    calcButton: Rect, resetButton: Rect,
    controlColumn: real, expColumn: real, sliderWidth: real, row1: real, row2: real,
    sampleColumn: real, sampleWidth: real, sampleRow: real)

  /**
   * The two panel heights for the room left below the instructions: nominal
   * when the room suffices, otherwise scaled by the shortfall and floored.
   */
  function PanelHeights(room: real): (r: (int, int))
    ensures 80 <= r.0 <= PanelHeight && 40 <= r.1 <= SamplePanelHeight
    ensures r == (PanelHeight, SamplePanelHeight) <==> room >= NeededRoom
  {
    if NeededRoom > room then
      var scale := room / NeededRoom;
      var p := Trunc(120.0 * scale);
      var s := Trunc(50.0 * scale);
      assert 120.0 * scale < 120.0 && 50.0 * scale < 50.0;
      (if p >= 80 then p else 80, if s >= 40 then s else 40)
    else (PanelHeight, SamplePanelHeight)
  }

  /** More room never gives smaller panels. */
  lemma PanelHeightsMonotone(room1: real, room2: real)
    requires room1 <= room2
    ensures PanelHeights(room1).0 <= PanelHeights(room2).0
    ensures PanelHeights(room1).1 <= PanelHeights(room2).1
  {
    if room2 < NeededRoom {
      TruncMonotone(120.0 * (room1 / NeededRoom), 120.0 * (room2 / NeededRoom));
      TruncMonotone(50.0 * (room1 / NeededRoom), 50.0 * (room2 / NeededRoom));
    }
  }

  lemma TruncMonotone(x: real, y: real)
    requires x <= y
    ensures Trunc(x) <= Trunc(y)
  {
  }

  /** Regions that follow each other from top to bottom, each PANEL_MARGIN below the previous one. */
  predicate Stacked(l: Layout) {
    l.chart.top == l.results.Bottom() + PanelMargin &&
    l.instructions.top == l.chart.Bottom() + PanelMargin &&
    l.controlPanel.top == l.instructions.Bottom() + PanelMargin &&
    l.expPanel.top == l.controlPanel.top && l.expPanel.height == l.controlPanel.height &&
    l.samplePanel.top == l.controlPanel.Bottom() + PanelMargin
  }

  /** The slider grid of a panel: label, gap, slider, gap, value column between the two margins. */
  predicate Grid(panel: Rect, column: real, width: real, labelWidth: real) {
    column == panel.left + HMargin + labelWidth + LabelSliderGap &&
    column + width + SliderValueGap + ValueColumnWidth + HMargin == panel.Right()
  }

  /** `calculate_layout` for a window of the given size. */
  function CalculateLayout(W: int, H: int): (l: Layout)
    ensures Stacked(l) && l.results.top == HeaderHeight + ResultMargin
    ensures l.chart.height <= 450.0 && l.chart.width <= 700.0
    ensures 80.0 <= l.controlPanel.height <= 120.0 && 40.0 <= l.samplePanel.height <= 50.0
    ensures l.controlPanel.height == 120.0 && l.samplePanel.height == 50.0 <==>
      H as real - l.instructions.Bottom() - PanelMargin >= NeededRoom
    ensures l.calcButton.Bottom() + PanelMargin <= H as real
    ensures l.resetButton.top == l.calcButton.top && l.resetButton.height == l.calcButton.height
    ensures l.calcButton.width == ButtonWidth == l.resetButton.width
    ensures l.resetButton.left == l.calcButton.Right() + ButtonSpacing
    ensures l.controlPanel.top + TitleHeight < l.row1 && l.row1 + 20.0 <= l.row2 < l.controlPanel.Bottom()
    ensures l.samplePanel.top + 20.0 <= l.sampleRow < l.samplePanel.Bottom()
    ensures Grid(l.controlPanel, l.controlColumn, l.sliderWidth, LabelColumnWidth)
    ensures Grid(l.expPanel, l.expColumn, l.sliderWidth, LabelColumnWidth)
    ensures Grid(l.samplePanel, l.sampleColumn, l.sampleWidth, SampleLabelWidth)
    ensures l.sliderWidth >= SliderMinWidth
    ensures l.expPanel.left == l.controlPanel.Right() + PanelMargin
    ensures W >= 1000 ==> HMargin <= l.controlPanel.left && l.expPanel.Right() <= W as real - HMargin
    ensures W >= 1000 ==> l.sampleWidth > 0.0
    ensures l.toggle == Rect(l.controlPanel.left, l.instructions.top, 30.0, 30.0)
  {
    var w, h := W as real, H as real;
    var available := h - HeaderHeight - PanelMargin;
    var resultsTop := HeaderHeight + ResultMargin;
    var remaining := available - 40.0 - ResultMargin;
    var chartHeight := MinR(remaining * 0.4, 450.0);
    var chartWidth := MinR(w * 0.6, 700.0);
    var chartLeft := Half(w - chartWidth);
    var chartTop := resultsTop + 40.0 + PanelMargin;
    var instructionsTop := chartTop + chartHeight + PanelMargin;
    var room := h - instructionsTop - 40.0 - PanelMargin;
    var (ph, sph) := PanelHeights(room);
    var panelWidth := MaxR(MinR(w * 0.4, 450.0), MinPanelWidth);
    var leftPanel := MaxR(Half(w - 2.0 * panelWidth - PanelMargin), HMargin);
    var rightPanel := leftPanel + panelWidth + PanelMargin;
    var panelTop := instructionsTop + 40.0 + PanelMargin;
    var space := ph as real - TitleHeight;
    var samplePanelWidth := MinR(w * 0.6, 550.0);
    var samplePanelLeft := Half(w - samplePanelWidth);
    var sampleTop := panelTop + ph as real + PanelMargin;
    var buttonRoom := h - (sampleTop + sph as real) - PanelMargin * 3.0;
    var buttonHeight := MinR(40.0, buttonRoom);
    var top0 := sampleTop + sph as real + PanelMargin * 3.0;
    var buttonTop := if top0 + buttonHeight + PanelMargin > h then h - buttonHeight - PanelMargin else top0;
    var leftButton := ((W - 2 * 200 - 20) / 2) as real;
    var sliderWidth := panelWidth - LabelColumnWidth - ValueColumnWidth - HMargin * 2.0 - LabelSliderGap - SliderValueGap;
    Layout(
      Rect(chartLeft, resultsTop, chartWidth, 40.0),
      Rect(chartLeft, chartTop, chartWidth, chartHeight),
      Rect(leftPanel, instructionsTop, w - 2.0 * leftPanel, 40.0),
      Rect(leftPanel, panelTop, panelWidth, ph as real),
      Rect(rightPanel, panelTop, panelWidth, ph as real),
      Rect(samplePanelLeft, sampleTop, samplePanelWidth, sph as real),
      Rect(leftPanel, instructionsTop, 30.0, 30.0),
      Rect(leftButton, buttonTop, ButtonWidth, buttonHeight),
      Rect(leftButton + ButtonWidth + ButtonSpacing, buttonTop, ButtonWidth, buttonHeight),
      leftPanel + HMargin + LabelColumnWidth + LabelSliderGap,
      rightPanel + HMargin + LabelColumnWidth + LabelSliderGap,
      sliderWidth,
      panelTop + TitleHeight + space * 0.25,
      panelTop + TitleHeight + space * 0.75,
      samplePanelLeft + HMargin + SampleLabelWidth + LabelSliderGap,
      samplePanelWidth - SampleLabelWidth - ValueColumnWidth - HMargin * 2.0 - LabelSliderGap - SliderValueGap,
      sampleTop + (sph / 2) as real)
  }

  /** `calculate_min_height`: the component minimums and their margins, but never below 700. */
  function MinHeight(): (h: int)
    ensures h >= 700
  {
    var sum := 60 + 20 + 40 + 15 + 300 + 15 + 40 + 15 + 80 + 15 + 40 + 15 * 3 + 40 + 15;
    if sum >= 700 then sum else 700
  }

  /** The resize handler's computed minimum width: two panels of label, slider and value, plus margins. */
  const MinWidth: int := 2 * (140 + 150 + 50) + 15 * 3 + 20 * 4

  /**
   * The resize handler keeps the width at least the computed minimum and at
   * least 1000; the computed minimum is the smaller floor, so only 1000 binds.
   */
  lemma ComputedMinWidthNeverBinds(w: int)
    ensures MinWidth < 1000
    ensures MaxI(MaxI(w, MinWidth), 1000) == MaxI(w, 1000)
  {
  }

  /**
   * At any height the resize handler allows, nothing is shrunk or pulled
   * up: both panels keep their nominal heights, the buttons their 40 px and
   * their place three margins below the sample panel, so every region lies
   * below the previous one.
   */
  lemma NominalAtMinHeight(W: int, H: int)
    requires H >= MinHeight()
    ensures var l := CalculateLayout(W, H);
      l.controlPanel.height == 120.0 && l.samplePanel.height == 50.0 &&
      l.calcButton.height == 40.0 && l.calcButton.top == l.samplePanel.Bottom() + PanelMargin * 3.0 &&
      l.chart.height > 0.0 &&
      Above(l.results, l.chart) && Above(l.chart, l.instructions) && Above(l.instructions, l.controlPanel) &&
      Above(l.controlPanel, l.samplePanel) && Above(l.samplePanel, l.calcButton)
  {
    var l := CalculateLayout(W, H);
    var h := H as real;
    assert l.chart.height <= 0.4 * (h - 135.0);
    assert h - l.instructions.Bottom() - PanelMargin >= NeededRoom;
  }

  /** Where each of the five sliders sits, in the order of the program's slider list. */
  function SliderSpot(l: Layout, k: nat): (real, real, real)
    requires k < 5
  {
    match k
    case 0 => (l.controlColumn, l.row1, l.sliderWidth)
    case 1 => (l.expColumn, l.row1, l.sliderWidth)
    case 2 => (l.controlColumn, l.row2, l.sliderWidth)
    case 3 => (l.expColumn, l.row2, l.sliderWidth)
    case _ => (l.sampleColumn, l.sampleRow, l.sampleWidth)
  }

  /** The hit area of the slider track at spot k. */
  function SpotHitRect(l: Layout, k: nat): Rect
    requires k < 5
  {
    var (x, y, width) := SliderSpot(l, k);
    Rect(x - 5.0, y - 10.0, width + 10.0, 20.0)
  }

  /** The five slider hit areas never overlap, so one click grabs at most one slider. */
  lemma SliderHitAreasDisjoint(W: int, H: int, i: nat, j: nat)
    requires i < j < 5
    ensures Disjoint(SpotHitRect(CalculateLayout(W, H), i), SpotHitRect(CalculateLayout(W, H), j))
  {
    var l := CalculateLayout(W, H);
    assert l.controlColumn + l.sliderWidth + 5.0 <= l.expColumn - 5.0;
    assert l.row2 + 10.0 <= l.sampleRow - 10.0;
  }
}

=== FILE: ttest_stats.dfy ===
/**
 * The calculations of the two-sample t-test visualiser around its library
 * calls: the floors `reset_data` puts on the slider values before sampling,
 * the fallback data when sampling fails, and the guards `calculate_ttest`
 * puts around the independent-samples t-test.
 */
module TTestStats {
  import opened Widgets

  /**
   * `np.random.normal(mean, std, n)` as the k-th call of one `reset_data`
   * (k = 0 for the first group, 1 for the second): n draws, or an
   * exception. The call index stands for the generator's state, which
   * moves on between the two calls.
   */
  type NormalRoutine = (nat, real, real, nat) -> Outcome<seq<real>>

  /** `np.random.random(n)` as the k-th call of one fallback: n draws from [0, 1). */
  type UniformRoutine = (nat, nat) -> seq<real>

  /** `stats.ttest_ind(group1, group2, equal_var=True)`: (t, p), either possibly NaN, or an exception. */
  type TTestRoutine = (seq<real>, seq<real>) -> Outcome<(Float, Float)>

  /** Sampling routines that return as many values as they are asked for. */
  ghost predicate Sized(normal: NormalRoutine, uniform: UniformRoutine) {
    (forall k, m, s, n :: normal(k, m, s, n).Returned? ==> |normal(k, m, s, n).value| == n) &&
    (forall k, n :: |uniform(k, n)| == n)
  }

  /** The globals `group1` and `group2`. */
  datatype Groups = Groups(control: seq<real>, experimental: seq<real>)

  /** The globals `t_stat` and `p_value`. */
  datatype TResult = TResult(t: real, p: real)

  /** What `calculate_ttest` reports when it cannot or should not trust the library. */
  const NoEffect := TResult(0.0, 1.0)

  /** The sample size `reset_data` draws: the slider value truncated, but never below 5. */
  function SampleSize(v: real): (n: nat)
    ensures n >= 5
    ensures Trunc(v) >= 5 ==> n == Trunc(v)
    ensures Trunc(v) < 5 ==> n == 5
  {
    if Trunc(v) >= 5 then Trunc(v) else 5
  }

  /** The standard deviation `reset_data` draws with: the slider value, but never below 0.1. */
  function Spread(v: real): (s: real)
    ensures s >= 0.1
    ensures v >= 0.1 ==> s == v
    ensures v < 0.1 ==> s == 0.1
  {
    MaxR(0.1, v)
  }

  /** For the program's slider ranges the floors never bind: the draw uses the slider values as they are. */
  lemma FloorsInactiveOnSliderRanges(std: real, sample: real)
    requires 5.0 <= std <= 25.0 && 5.0 <= sample <= 20000.0
    ensures Spread(std) == std
    ensures SampleSize(sample) == Trunc(sample) && 5 <= SampleSize(sample) <= 20000
  {
  }

  /** Noise routines whose draws lie in [0, 1), as `np.random.random`'s do. */
  ghost predicate UnitNoise(uniform: UniformRoutine) {
    forall k, n, i :: 0 <= i < |uniform(k, n)| ==> 0.0 <= uniform(k, n)[i] < 1.0
  }

  /** A sampling routine that never raises. */
  ghost predicate NeverRaises(normal: NormalRoutine) {
    forall k, m, s, n :: normal(k, m, s, n).Returned?
  }

  /** The fallback data: the mean repeated, plus uniform noise, element by element. */
  function Offset(mean: real, noise: seq<real>): (g: seq<real>)
    ensures |g| == |noise|
    ensures forall i :: 0 <= i < |g| ==> g[i] - noise[i] == mean
  {
    seq(|noise|, i requires 0 <= i < |noise| => mean + noise[i])
  }

  /**
   * `reset_data`'s draw: the two groups from two successive calls of the
   * normal routine with the floored parameters, or, when either call
   * raises, both groups from two successive calls of the fallback's noise.
   */
  function Draw(mean1: real, std1: real, mean2: real, std2: real, sample: real,
                normal: NormalRoutine, uniform: UniformRoutine): (g: Groups)
    ensures NeverRaises(normal) ==>
      g == Groups(normal(0, mean1, Spread(std1), SampleSize(sample)).value,
                  normal(1, mean2, Spread(std2), SampleSize(sample)).value)
    ensures Sized(normal, uniform) ==>
      |g.control| == SampleSize(sample) && |g.experimental| == SampleSize(sample)
    ensures (normal(0, mean1, Spread(std1), SampleSize(sample)).Raised? ||
             normal(1, mean2, Spread(std2), SampleSize(sample)).Raised?) ==>
      g == Groups(Offset(mean1, uniform(0, SampleSize(sample))), Offset(mean2, uniform(1, SampleSize(sample))))
    ensures UnitNoise(uniform) && (normal(0, mean1, Spread(std1), SampleSize(sample)).Raised? ||
                                   normal(1, mean2, Spread(std2), SampleSize(sample)).Raised?) ==>
      (forall i :: 0 <= i < |g.control| ==> mean1 <= g.control[i] < mean1 + 1.0) &&
      (forall i :: 0 <= i < |g.experimental| ==> mean2 <= g.experimental[i] < mean2 + 1.0)
  {
    var n := SampleSize(sample);
    var d1 := normal(0, mean1, Spread(std1), n);
    var d2 := normal(1, mean2, Spread(std2), n);
    if d1.Returned? && d2.Returned? then Groups(d1.value, d2.value)
    else Groups(Offset(mean1, uniform(0, n)), Offset(mean2, uniform(1, n)))
  }

  /**
   * The two groups come from separate calls: with sliders set to the same
   * mean and spread, a generator whose second call differs from its first
   * gives two different groups.
   */
  lemma EqualSlidersSeparateDraws()
    ensures var normal: NormalRoutine := (k: nat, m: real, s: real, n: nat) => Returned(seq(n, _ => m + k as real));
      var uniform: UniformRoutine := (k: nat, n: nat) => seq(n, _ => 0.0);
      var g := Draw(50.0, 10.0, 50.0, 10.0, 30.0, normal, uniform);
      |g.control| == |g.experimental| == 30 && g.control != g.experimental
  {
    var normal: NormalRoutine := (k: nat, m: real, s: real, n: nat) => Returned(seq(n, _ => m + k as real));
    var uniform: UniformRoutine := (k: nat, n: nat) => seq(n, _ => 0.0);
    var g := Draw(50.0, 10.0, 50.0, 10.0, 30.0, normal, uniform);
    assert g.control[0] == 50.0 && g.experimental[0] == 51.0;
  }

  /**
   * The library's answer as `calculate_ttest` keeps it: `abs(t)` and p when
   * neither is NaN, the neutral result after NaN or an exception.
   */
  function Reported(o: Outcome<(Float, Float)>): (r: TResult)
    ensures r.t >= 0.0
    ensures r != NoEffect ==>
      o.Returned? && o.value.0.Num? && o.value.1.Num? &&
      r.p == o.value.1.val && (r.t == o.value.0.val || r.t == -o.value.0.val)
    ensures o.Raised? || o.value.0.NaN? || o.value.1.NaN? ==> r == NoEffect
    ensures o.Returned? && o.value.0.Num? && o.value.1.Num? ==>
      r == TResult(if o.value.0.val < 0.0 then -o.value.0.val else o.value.0.val, o.value.1.val)
  {
    match o
    case Raised => NoEffect
    case Returned((t, p)) =>
      var a := t.Abs();
      if a.NaN? || p.NaN? then NoEffect else TResult(a.val, p.val)
  }

  /** `calculate_ttest`: groups of fewer than two values never reach the library. */
  function TTest(group1: seq<real>, group2: seq<real>, ttest: TTestRoutine): (r: TResult)
    ensures r.t >= 0.0
    ensures |group1| < 2 || |group2| < 2 ==> r == NoEffect
    ensures |group1| >= 2 && |group2| >= 2 ==> r == Reported(ttest(group1, group2))
  {
    if |group1| < 2 || |group2| < 2 then NoEffect else Reported(ttest(group1, group2))
  }

  /** With too little data the answer does not depend on the library at all. */
  lemma ShortGroupSkipsLibrary(group1: seq<real>, group2: seq<real>, a: TTestRoutine, b: TTestRoutine)
    requires |group1| < 2 || |group2| < 2
    ensures TTest(group1, group2, a) == TTest(group1, group2, b) == NoEffect
  {
  }

  /**
   * Data drawn by `reset_data` always has at least five values per group,
   * so the t-test on it is the library's answer.
   */
  lemma DrawnGroupsReachLibrary(mean1: real, std1: real, mean2: real, std2: real, sample: real,
                                normal: NormalRoutine, uniform: UniformRoutine, ttest: TTestRoutine)
    requires Sized(normal, uniform)
    ensures var g := Draw(mean1, std1, mean2, std2, sample, normal, uniform);
      TTest(g.control, g.experimental, ttest) == Reported(ttest(g.control, g.experimental))
  {
  }
}

=== FILE: widgets.dfy ===
/**
 * Widgets shared by all five visualisers: Python number conventions,
 * pygame-style rectangles, and the horizontal slider whose cursor rule is
 * the same code in every program.
 */
module Widgets {

  datatype Option<T> = None | Some(value: T)

  /** What a call into a numerical library does: return a value or raise. */
  datatype Outcome<T> = Raised | Returned(value: T)

  /** A Python float as far as the programs care: a real number or NaN. */
  datatype Float = Num(val: real) | NaN {
    /** Python's `abs`, which keeps NaN. */
    function Abs(): Float {
      match this
      case Num(v) => Num(if v < 0.0 then -v else v)
      case NaN => NaN
    }

    /** Python's `x < c`, which is False whenever x is NaN. */
    predicate Below(c: real) {
      Num? && val < c
    }

    /** Python's `x > c`, which is False whenever x is NaN. */
    predicate Above(c: real) {
      Num? && val > c
    }
  }

  /** Python's `int(x)` on a float: truncation toward zero. */
  function Trunc(x: real): (r: int)
    ensures 0.0 <= x ==> 0 <= r && r as real <= x < r as real + 1.0
    ensures x < 0.0 ==> r <= 0 && r as real - 1.0 < x <= r as real
  {
    if x >= 0.0 then x.Floor else -((-x).Floor)
  }

  /** Python's `x // 2` on a float. */
  function Half(x: real): (r: real)
    ensures x - 2.0 < 2.0 * r <= x
  {
    (x / 2.0).Floor as real
  }

  function MaxR(a: real, b: real): real { if a >= b then a else b }

  function MinR(a: real, b: real): real { if a <= b then a else b }

  /**
   * Python's `max(a, b)` on ints, as the resize handlers use it to keep a
   * window at least its minimum size: the larger of the two.
   */
  function MaxI(a: int, b: int): (r: int)
    ensures r >= a && r >= b && (r == a || r == b)
  {
    if a >= b then a else b
  }

  function MinI(a: int, b: int): int { if a <= b then a else b }

  /** The Menu button in the top-left corner of every test screen and tutorial. */
  const BackButton: Rect := Rect(30.0, 10.0, 100.0, 40.0)

  /** The sources' `max(lo, min(hi, x))`. */
  function Clamp(lo: real, hi: real, x: real): (r: real)
    requires lo <= hi
    ensures lo <= r <= hi
    ensures lo <= x <= hi ==> r == x
    ensures x < lo ==> r == lo
    ensures hi < x ==> r == hi
  {
    MaxR(lo, MinR(hi, x))
  }

  /**
   * A pygame rectangle. `collidepoint` includes the left and top edges and
   * excludes the right and bottom ones.
   */
  datatype Rect = Rect(left: real, top: real, width: real, height: real) {
    function Right(): real { left + width }

    function Bottom(): real { top + height }

    predicate Contains(x: real, y: real) {
      left <= x < left + width && top <= y < top + height
    }
  }

  /** Two rectangles separated horizontally or vertically. */
  predicate Disjoint(a: Rect, b: Rect) {
    a.Right() <= b.left || b.Right() <= a.left || a.Bottom() <= b.top || b.Bottom() <= a.top
  }

  /** A rectangle placed entirely above another one. */
  predicate Above(a: Rect, b: Rect) {
    a.Bottom() <= b.top
  }

  /**
   * A slider dict: `pos` (x, y), `width`, `value`, `min`, `max`, `dragging`.
   * Every slider the programs declare has min < max and a positive width.
   */
  datatype Slider = Slider(x: real, y: real, width: real, value: real, lo: real, hi: real, dragging: bool) {
    predicate Valid() {
      width > 0.0 && lo < hi && lo <= value <= hi
    }

    /** The hit area of the track: 5 px of slack left and right, 10 px above and below. */
    function HitRect(): Rect {
      Rect(x - 5.0, y - 10.0, width + 10.0, 20.0)
    }

    /** Where `draw_slider` puts the handle for the current value. */
    function HandleX(): real
      requires lo < hi
    {
      x + (value - lo) / (hi - lo) * width
    }
  }

  /** Slider geometry and range unchanged between two slider states. */
  predicate SameTrack(a: Slider, b: Slider) {
    a.x == b.x && a.y == b.y && a.width == b.width && a.lo == b.lo && a.hi == b.hi
  }

  /** The value a cursor at horizontal position `mx` selects: the linear map of the track, clamped. */
  function CursorValue(s: Slider, mx: real): real
    requires s.width > 0.0 && s.lo < s.hi
  {
    Clamp(s.lo, s.hi, (mx - s.x) / s.width * (s.hi - s.lo) + s.lo)
  }

  /**
   * The cursor rule: the value stays in [min, max]; left of the track it is
   * exactly min, right of it exactly max, and on the track the handle is
   * drawn under the cursor.
   */
  lemma CursorValueInRange(s: Slider, mx: real)
    requires s.width > 0.0 && s.lo < s.hi
    ensures s.lo <= CursorValue(s, mx) <= s.hi
    ensures mx <= s.x ==> CursorValue(s, mx) == s.lo
    ensures mx >= s.x + s.width ==> CursorValue(s, mx) == s.hi
    ensures s.x <= mx <= s.x + s.width ==> s.(value := CursorValue(s, mx)).HandleX() == mx
  {
    var t := (mx - s.x) / s.width;
    var span := s.hi - s.lo;
    var raw := t * span + s.lo;
    assert (mx - s.x) == t * s.width;
    if mx <= s.x {
      assert t <= 0.0;
      assert t * span <= 0.0;
    } else if mx >= s.x + s.width {
      assert t >= 1.0;
      assert t * span >= span;
    } else {
      assert 0.0 < t < 1.0 by {
        if t >= 1.0 { MulNonNeg(t - 1.0, s.width); }
        if t <= 0.0 { MulNonNeg(-t, s.width); }
      }
      assert 0.0 < t * span < span;
      assert CursorValue(s, mx) == raw;
      assert (raw - s.lo) / span == t;
    }
  }

  lemma MulNonNeg(a: real, b: real)
    requires a >= 0.0 && b >= 0.0
    ensures a * b >= 0.0
  {
  }

  /** Moving the cursor to the right never lowers the value. */
  lemma CursorValueMonotone(s: Slider, mx1: real, mx2: real)
    requires s.width > 0.0 && s.lo < s.hi
    requires mx1 <= mx2
    ensures CursorValue(s, mx1) <= CursorValue(s, mx2)
  {
    var t1 := (mx1 - s.x) / s.width;
    var t2 := (mx2 - s.x) / s.width;
    assert t1 <= t2;
    assert t1 * (s.hi - s.lo) <= t2 * (s.hi - s.lo);
  }

  /** Mouse button down on a slider: grab it and jump to the cursor when the track is hit. */
  function Press(s: Slider, mx: real, my: real): (r: Slider)
    requires s.Valid()
    ensures r.Valid() && SameTrack(r, s)
    ensures s.HitRect().Contains(mx, my) ==> r.dragging && r.value == CursorValue(s, mx)
    ensures !s.HitRect().Contains(mx, my) ==> r == s
  {
    if s.HitRect().Contains(mx, my) then
      CursorValueInRange(s, mx);
      s.(dragging := true, value := CursorValue(s, mx))
    else s
  }

  /** Mouse motion: a slider being dragged follows the cursor; the others stay. */
  function Drag(s: Slider, mx: real): (r: Slider)
    requires s.Valid()
    ensures r.Valid() && SameTrack(r, s) && r.dragging == s.dragging
    ensures s.dragging ==> r.value == CursorValue(s, mx)
    ensures !s.dragging ==> r == s
  {
    if s.dragging then
      CursorValueInRange(s, mx);
      s.(value := CursorValue(s, mx))
    else s
  }

  predicate AllValid(sliders: seq<Slider>) {
    forall i :: 0 <= i < |sliders| ==> sliders[i].Valid()
  }

  /**
   * The press loop over a list of sliders: every slider whose track is hit
   * is grabbed; `hit` tells whether any was.
   */
  method PressAll(sliders: seq<Slider>, mx: real, my: real) returns (r: seq<Slider>, hit: bool)
    requires AllValid(sliders)
    ensures |r| == |sliders| && AllValid(r)
    ensures forall i :: 0 <= i < |r| ==> r[i] == Press(sliders[i], mx, my)
    ensures hit <==> exists i :: 0 <= i < |sliders| && sliders[i].HitRect().Contains(mx, my)
  {
    r, hit := [], false;
    for k := 0 to |sliders|
      invariant |r| == k && AllValid(r)
      invariant forall i :: 0 <= i < k ==> r[i] == Press(sliders[i], mx, my)
      invariant hit <==> exists i :: 0 <= i < k && sliders[i].HitRect().Contains(mx, my)
    {
      if sliders[k].HitRect().Contains(mx, my) {
        hit := true;
      }
      r := r + [Press(sliders[k], mx, my)];
    }
  }

  /**
   * The motion loop over a list of sliders: each dragging slider follows the
   * cursor; `moved` tells whether any was dragging.
   */
  method DragAll(sliders: seq<Slider>, mx: real) returns (r: seq<Slider>, moved: bool)
    requires AllValid(sliders)
    ensures |r| == |sliders| && AllValid(r)
    ensures forall i :: 0 <= i < |r| ==> r[i] == Drag(sliders[i], mx)
    ensures moved <==> exists i :: 0 <= i < |sliders| && sliders[i].dragging
  {
    r, moved := [], false;
    for k := 0 to |sliders|
      invariant |r| == k && AllValid(r)
      invariant forall i :: 0 <= i < k ==> r[i] == Drag(sliders[i], mx)
      invariant moved <==> exists i :: 0 <= i < k && sliders[i].dragging
    {
      if sliders[k].dragging {
        moved := true;
      }
      r := r + [Drag(sliders[k], mx)];
    }
  }

  /**
   * The release loop: every slider stops dragging and keeps its value;
   * `released` tells whether any was dragging.
   */
  method ReleaseAll(sliders: seq<Slider>) returns (r: seq<Slider>, released: bool)
    requires AllValid(sliders)
    ensures |r| == |sliders| && AllValid(r)
    ensures forall i :: 0 <= i < |r| ==> r[i] == sliders[i].(dragging := false)
    ensures released <==> exists i :: 0 <= i < |sliders| && sliders[i].dragging
  {
    r, released := [], false;
    for k := 0 to |sliders|
      invariant |r| == k && AllValid(r)
      invariant forall i :: 0 <= i < k ==> r[i] == sliders[i].(dragging := false)
      invariant released <==> exists i :: 0 <= i < k && sliders[i].dragging
    {
      if sliders[k].dragging {
        released := true;
      }
      r := r + [sliders[k].(dragging := false)];
    }
  }
}
